=== FILE: README.md ===
# trpy core in Dafny

A model of the pure logic in the Python bindings `trpy` for TrailDB and its
funnel index, plus the trail iterator written in C that the bindings use.
It covers four parts:

- **The formula algebra** of `trpy/cnf.py`.
  - A formula `Q` is a set of clauses read as AND.
  - A clause is a set of literals read as OR.
  - A literal is a term that is either negated or not.
  - The model has `&`, `|` and `~`, the helpers `where`, `whereNot`, `oneOf`
    and `noneOf`, `Q.wrap`, `Q.replace` and `Q.parse`.
  - `Q.parse` is modelled as a tokenizer plus a precedence parser. The source
    instead rewrites terms and evaluates the result as a Python expression.
  - Modules: `Cnf`, `CnfLaws`, `CnfParse`.
- **TrailDB item and field logic** of `trpy/traildb.py`.
  - The 32- and 64-bit item layouts.
  - `TDB.field`, `TDB.field_name`, `TDB.lexicon`, `TDB.item` and `TDB.lexicon_val`.
  - The call sequence `TDBFilter` issues to build an event filter.
  - Module: `TrailDb`.
- **The funnel index** of `trpy/funneldb.py`.
  - The key-group layout that `FDB.make` writes, and the `keymap` decoder
    that reads it back.
  - `funnel_id`: mixed-radix addressing from a dictionary key or its
    `name=value,...` text form.
  - `FDB.keys`.
  - `FDBCNF`: compiling a formula into a 64-bit mask pair per clause.
  - The set operators, `funnel`, `select`, `any` and `all`.
  - The two `parse` class methods and `FDBFamily`.
  - Modules: `Masks`, `FunnelCnf`, `FunnelKeys`, `FunnelDb`, `FunnelSets`.
- **The trail scan** of `src/tdb_iter.c`.
  - `tdb_iter_new`, the marker walk of `tdb_iter_next`, and `tdb_fold`.
  - Module: `TrailScan`.

Every operation that can raise in the source returns a `Result`. Its `Error`
names the Python exception class, and each contract says which class is
raised. The services the code calls but that are not part of this model are
parameters:

- the trail store: field names, lexicon sizes, items and words;
- the funnel engine's `key_offs` and its counts;
- the trail loader and cursor;
- `quote_plus` and `unquote_plus`.

A field is handed to the C library as a `uint32` `tdb_field`, so a field
number outside `0 .. 2^32 - 1` is OverflowError (`TrailDb.StoreField`). An
open funnel index (`FunnelDb.Valid`) holds what `fdb_easy` stored through
those same `uint32` slots, and its mask field lies inside the field list,
since opening the index reads `tdb.fields[mask_field]`.

The helpers `where`, `whereNot`, `oneOf` and `noneOf` take positional terms
and keyword arguments. `Cnf.Where` and its siblings model the positional
form; `Cnf.WhereKw` and its siblings add the keywords, each as a
`(name, value)` term built by the parameter `pair`.

`FDB.make(tdb)` with no other arguments uses `keys=((),)` and
`mask_field=1`: one empty key group and field 1 as the mask
(`FunnelKeys.MakeDefaults`).

Formulas are sets, so the source's `__eq__` and `__hash__` become Dafny
value equality. Equality therefore never depends on construction order.

The name `noneOf` suggests "none of the terms". The code builds a single
clause of negated literals, which means "not all of the terms". The model
follows the code (`CnfLaws.NoneOfEval`). `whereNot` is the function that
means "none of".

## Model

| member | source | states |
|---|---|---|
| Cnf.Make | trpy/cnf.py:20-21 | the constructed formula keeps exactly the given clauses that have literals, so it is well formed |
| Cnf.Negate | trpy/cnf.py:110-111 | inverting a literal keeps its term and flips its polarity |
| Cnf.Join | trpy/cnf.py:84-85 | OR of two clauses holds exactly the literals of both |
| Cnf.And | trpy/cnf.py:23-24 | AND of two well-formed formulas has exactly the clauses of both |
| Cnf.Or | trpy/cnf.py:26-31 | an empty left side gives the right side unchanged; an empty right side gives the left side; the result stays well formed |
| Cnf.NegateClause | trpy/cnf.py:87-88 | inverting a clause gives a well-formed formula that is empty exactly when the clause is |
| Cnf.Pick | trpy/cnf.py:36 | the clause the OR-reduction starts from is one of the formula's clauses |
| Cnf.Wrap | trpy/cnf.py:67-75 | a formula passes through unchanged; a term becomes one positive singleton clause; a literal becomes its singleton clause; a clause becomes the formula of that clause, or the empty formula when the clause has no literals |
| Cnf.LiteralOr | trpy/cnf.py:107-108 | OR of two literals is the clause of exactly those two |
| Cnf.ClauseAnd | trpy/cnf.py:81-82 | AND of two non-empty clauses is the formula of exactly those two clauses |
| Cnf.LiteralAnd | trpy/cnf.py:104-105 | AND of two literals is the two singleton clauses |
| Cnf.MapClause | trpy/cnf.py:51-55 | every literal of a clause appears with its term replaced and its polarity kept |
| Cnf.Replace | trpy/cnf.py:51-55 | replacing terms maps each clause of a well-formed formula and introduces no term that is not an image |
| Cnf.Where | trpy/cnf.py:11-13 | `where` over positional terms gives a well-formed formula that is empty exactly when there are no terms |
| Cnf.WhereNot | trpy/cnf.py:15-17 | `whereNot` over positional terms gives a well-formed formula that is empty exactly when there are no terms |
| Cnf.OneOf | trpy/cnf.py:7-9 | `oneOf` of no terms is the empty formula; otherwise it is exactly one clause |
| Cnf.NoneOf | trpy/cnf.py:3-5 | `noneOf` of no terms is the empty formula; otherwise it is exactly one clause |
| Cnf.ItemTerms | trpy/cnf.py:12-13 | the terms of `where(*args, **kwds)` are one `(name, value)` term per keyword, then the positional terms |
| Cnf.SpreadTerms | trpy/cnf.py:4-5 | the terms of `oneOf(*args, **kwds)` hold every `(name, v)` for each value `v` of each keyword and every positional term, and nothing else |
| Cnf.WhereKw | trpy/cnf.py:11-13 | `where(*args, **kwds)` is well formed and empty exactly when there are neither keywords nor terms |
| Cnf.WhereNotKw | trpy/cnf.py:15-17 | `whereNot(*args, **kwds)` is well formed and empty exactly when there are neither keywords nor terms |
| Cnf.OneOfKw | trpy/cnf.py:7-9 | `oneOf(*args, **kwds)` has at most one clause and is empty exactly when no keyword value and no term is given |
| Cnf.NoneOfKw | trpy/cnf.py:3-5 | `noneOf(*args, **kwds)` has at most one clause and is empty exactly when no keyword value and no term is given |
| CnfLaws.EmptyClauseDropped | trpy/cnf.py:20-21 | `Q([])` equals `Q([Clause([])])`, and all four helpers with no terms give that empty formula |
| CnfLaws.MakeKeeps | trpy/cnf.py:20-21 | a set of non-empty clauses passes through construction unchanged |
| CnfLaws.NegateTwice | trpy/cnf.py:110-111 | inverting a literal twice gives it back |
| CnfLaws.AndEval | trpy/cnf.py:23-24 | AND means logical and under every assignment |
| CnfLaws.AndLaws | trpy/cnf.py:23-24 | AND is commutative, associative and idempotent, and the empty formula is its identity |
| CnfLaws.JoinEval | trpy/cnf.py:84-85 | OR of clauses means logical or under every assignment |
| CnfLaws.OrNonEmpty | trpy/cnf.py:26-31 | OR of two non-empty formulas is the set of all pairwise clause unions, non-empty and well formed |
| CnfLaws.OrEval | trpy/cnf.py:26-31 | OR of two non-empty formulas means logical or under every assignment |
| CnfLaws.OrWithEmptyIsNotDisjunction | trpy/cnf.py:27-28 | the short-circuit makes an empty side act as "false", although the empty formula alone is true under every assignment |
| CnfLaws.OrComm | trpy/cnf.py:26-31 | OR of well-formed formulas is commutative |
| CnfLaws.OrAssoc | trpy/cnf.py:26-31 | OR of non-empty formulas is associative, so the result of the reduction in `~` does not depend on grouping |
| CnfLaws.SwapFront | trpy/cnf.py:26-31 | two non-empty formulas ORed in front of a third can be swapped |
| CnfLaws.NegateClauseEval | trpy/cnf.py:87-88 | the negation of a clause holds exactly when the clause does not |
| CnfLaws.NotFoldEval | trpy/cnf.py:36 | the OR-reduction of negated clauses is non-empty, well formed, and true exactly when some clause is false |
| CnfLaws.NotEval | trpy/cnf.py:33-36 | `~q` means "not q" for every formula with a clause |
| CnfLaws.NotEmpty | trpy/cnf.py:34-35 | the empty formula is its own negation |
| CnfLaws.NotNot | trpy/cnf.py:33-36 | double negation preserves meaning |
| CnfLaws.NotFoldAnyOrder | trpy/cnf.py:36 | the reduction gives the same formula whichever clause it starts from |
| CnfLaws.ReduceOrIsNotFold | trpy/cnf.py:36 | `reduce(__or__, ...)` over any duplicate-free listing of the clauses equals the model's fold |
| CnfLaws.WhereEval | trpy/cnf.py:11-13 | `where` means "all of the terms" |
| CnfLaws.WhereNotEval | trpy/cnf.py:15-17 | `whereNot` means "none of the terms" |
| CnfLaws.OneOfEval | trpy/cnf.py:7-9 | `oneOf` of at least one term means "at least one of the terms" |
| CnfLaws.NoneOfEval | trpy/cnf.py:3-5 | `noneOf` of at least one term means "not all of the terms" |
| CnfLaws.HelperDuality | trpy/cnf.py:3-17 | `noneOf` means `~where`, and `whereNot` means `~oneOf` |
| CnfLaws.WhereKwEval | trpy/cnf.py:11-13 | `where(*args, **kwds)` holds exactly when every keyword's `(name, value)` term and every positional term holds |
| CnfLaws.WhereNotKwEval | trpy/cnf.py:15-17 | `whereNot(*args, **kwds)` holds exactly when no keyword's `(name, value)` term and no positional term holds |
| CnfLaws.SpreadExists | trpy/cnf.py:4-9 | some spread term satisfies a predicate exactly when some `(name, v)` of a keyword value or some positional term does |
| CnfLaws.OneOfKwEval | trpy/cnf.py:7-9 | `oneOf(*args, **kwds)` with something to choose holds exactly when some `(name, v)` over the keyword values or some positional term holds |
| CnfLaws.NoneOfKwEval | trpy/cnf.py:3-5 | `noneOf(*args, **kwds)` with something to choose holds exactly when some `(name, v)` or some positional term fails |
| CnfLaws.WhereOrderFree | trpy/cnf.py:11-13 | the order and repetition of the terms given to `where` do not change the formula |
| CnfLaws.ReplaceEval | trpy/cnf.py:51-55 | a formula with replaced terms holds exactly when the original holds under the composed assignment |
| CnfLaws.TermsAnd | trpy/cnf.py:23-24 | AND mentions exactly the terms of both sides |
| CnfLaws.TermsOr | trpy/cnf.py:26-31 | OR mentions no term outside the two sides |
| CnfLaws.TermsWhere | trpy/cnf.py:11-13 | `where` mentions exactly its terms |
| CnfLaws.TermsWhereNot | trpy/cnf.py:15-17 | `whereNot` mentions exactly its terms |
| CnfLaws.TermsOneOf | trpy/cnf.py:7-9 | `oneOf` mentions exactly its terms |
| CnfLaws.EvalTermsOnly | trpy/cnf.py:19-24 | a formula's truth depends only on the truth of its own terms |
| CnfParse.Extend | trpy/cnf.py:62-63 | the `ext` rewrite keeps the length, leaves no `!`, `,` or `+`, and changes no other character |
| CnfParse.TermLength | trpy/cnf.py:64 | a term runs to the first operator character or the end |
| CnfParse.StripEnd | trpy/cnf.py:65 | stripping removes only trailing white space and leaves none |
| CnfParse.Tokenize | trpy/cnf.py:64-65 | every term token is non-empty, starts and ends with a non-space, and has no operator character |
| CnfParse.Parse | trpy/cnf.py:57-65 | the empty string parses to the empty formula, and every parse result is well formed |
| CnfParse.TokenizeShow | trpy/cnf.py:64-65 | the text of an expression tokenizes to its tokens, whatever operator text follows |
| CnfParse.ParseUnaryShow | trpy/cnf.py:64-65 | every expression's tokens read back as one unary expression with the formula the operators build |
| CnfParse.ParseAndShow | trpy/cnf.py:64-65 | an expression followed by anything but `&` reads back as a whole conjunction |
| CnfParse.ParseOrShow | trpy/cnf.py:64-65 | an expression followed by neither `&` nor `\|` reads back as a whole disjunction |
| CnfParse.ParseShow | trpy/cnf.py:57-65 | parsing the printed text of any expression gives the formula the operators build from it |
| CnfParse.ParseExtShow | trpy/cnf.py:62-65 | with `ext`, the same text free of `!`, `,` and `+` parses to the same formula |
| CnfParse.AndBindsTighter | trpy/cnf.py:64-65 | `a \| b & c` parses as `a \| (b & c)` |
| CnfParse.OrGroupsLeft | trpy/cnf.py:64-65 | `a \| b \| c` parses as `(a \| b) \| c` |
| CnfParse.NotBindsTighter | trpy/cnf.py:64-65 | `~a & b` parses as `(~a) & b` |
| CnfParse.BlankRejected | trpy/cnf.py:64-65 | a non-empty string of white space is a parse error rather than the empty formula |
| CnfParse.EmptyParensRejected | trpy/cnf.py:64-65 | `()` is a parse error, since Python reads it as an empty tuple |
| Masks.MaskOf | trpy/funneldb.py:184-186 | bit `j` of the mask is set exactly when `j` is in the set |
| Masks.NonZeroHasBit | trpy/funneldb.py:184-186 | a mask is non-zero exactly when some bit below 64 is set |
| Masks.MeetNonZero | trpy/funneldb.py:184-186 | `a & b` is non-zero exactly when some bit is set in both |
| FunnelCnf.ClauseMask | trpy/funneldb.py:178-186 | bit `j` of `terms` (of `nterms`) is set exactly when a positive (negated) literal maps to `j` |
| FunnelCnf.Compile | trpy/funneldb.py:173-186 | compilation succeeds exactly when every term maps to an index in `0 .. 63`, and then it gives one mask pair per clause |
| FunnelCnf.PositiveSat | trpy/funneldb.py:184-186 | the entity mask meets `terms` exactly when a positive literal of the clause holds |
| FunnelCnf.NegativeSat | trpy/funneldb.py:183-184 | the complement of the entity mask meets `nterms` exactly when a negated literal holds |
| FunnelCnf.ClauseMaskSat | trpy/funneldb.py:178-186 | a clause's mask pair accepts an entity mask exactly when the clause holds with each term read as its mask bit |
| FunnelCnf.CompileSat | trpy/funneldb.py:173-186 | the compiled formula accepts an entity mask exactly when the formula holds under the assignment the mask gives |
| FunnelCnf.CompileBits | trpy/funneldb.py:178-186 | each bit of a compiled pair is set exactly when a literal of that polarity maps to it |
| FunnelCnf.IdentityCapacity | trpy/funneldb.py:174-186 | under the default identity mapping, a formula compiles exactly when every term is in `0 .. 63` |
| FunnelCnf.IdentityIndex64 | trpy/funneldb.py:181-186 | term 64 passes the `> 64` guard but overflows the 64-bit mask |
| FunnelCnf.IdentityAbove64 | trpy/funneldb.py:181-182 | a term above 64 is rejected by the guard with ValueError |
| TrailDb.Field32 | trpy/traildb.py:8 | the field of a 32-bit item is below 128 |
| TrailDb.Val32 | trpy/traildb.py:9 | the value of a 32-bit item is below 2^32 |
| TrailDb.ItemField | trpy/traildb.py:11-15 | an item's field is below 2^14, and below 128 for a 32-bit item |
| TrailDb.ItemVal | trpy/traildb.py:17-21 | an item's value is below 2^48, and below 2^32 for a 32-bit item |
| TrailDb.Decode32 | trpy/traildb.py:7-21 | decoding a packed 32-bit item recovers its field and value |
| TrailDb.Decode64 | trpy/traildb.py:7-21 | decoding a packed 64-bit item recovers its field and value |
| TrailDb.Canonical32 | trpy/traildb.py:7-21 | a 32-bit item with nothing above bit 39 is the packing of its decoded field and value |
| TrailDb.Canonical64 | trpy/traildb.py:7-21 | a 64-bit item with bit 15 clear is the packing of its decoded field and value |
| TrailDb.IndexOf | trpy/traildb.py:141 | `list.index` gives the first position holding the element, and fails exactly when the element is absent |
| TrailDb.FieldOf | trpy/traildb.py:138-144 | a name becomes its first index, or KeyError exactly when it is absent; an index passes through |
| TrailDb.FieldName | trpy/traildb.py:146-152 | a name passes through; an index is read the way Python indexes a list, including negative indices, and anything else is IndexError |
| TrailDb.FieldNameOfField | trpy/traildb.py:138-152 | `field_name(field(n)) == n` for every listed name |
| TrailDb.FieldOfFieldName | trpy/traildb.py:138-152 | `field(field_name(i))` is at most `i`, and is `i` itself when names are distinct |
| TrailDb.LexiconIds | trpy/traildb.py:154-156 | the listed value ids are exactly `1 .. size - 1`, in order, never 0 |
| TrailDb.StoreField | trpy/traildb.py:158-160 | a field handed to the store is `tdb.field`'s answer: an unknown name is KeyError, and a field outside the `uint32` `tdb_field` range is OverflowError |
| TrailDb.Lexicon | trpy/traildb.py:154-168 | the lexicon is the word of each listed id, in id order, and fails exactly when the field cannot be handed to the store, with that error |
| TrailDb.ItemOf | trpy/traildb.py:173-178 | an item is non-zero and is the store's item; an unknown name is KeyError, a field beyond `uint32` is OverflowError; item 0 is KeyError, except for an index past the field list, where `field_name` raises IndexError |
| TrailDb.LexiconVal | trpy/traildb.py:170-171 | the value id is the decoded value of the item, below 2^48, exists exactly when the item does, and otherwise fails with the item's error |
| TrailDb.ClauseCalls | trpy/traildb.py:247-253 | one `add_term` per literal with its item and negation flag; it fails exactly when some literal's field cannot be handed to the store, with the first such literal's KeyError or OverflowError |
| TrailDb.FilterCalls | trpy/traildb.py:239-253 | building a filter fails only with KeyError or OverflowError |
| TrailDb.FilterGroups | trpy/traildb.py:242-253 | splitting the call trace at the `new_clause` calls gives each clause's calls, in order |
| TrailDb.FilterCallsOk | trpy/traildb.py:242-253 | the filter is built exactly when every literal names a known field that fits a `uint32` |
| TrailDb.ClauseGroup | trpy/traildb.py:247-253 | the calls for a clause whose literals are listed without repeats are one `add_term` per literal of the clause, with its item and negation flag |
| TrailDb.FilterQueryOk | trpy/traildb.py:239-253 | for any order in which the loops can visit a query, the filter is built exactly when every literal of the query names a known field that fits a `uint32` |
| TrailDb.FilterQueryGroups | trpy/traildb.py:242-253 | for a query with clauses, the trace splits into one group per clause of the query, and each clause's group is one `add_term` per literal of that clause |
| TrailDb.FilterNewClauses | trpy/traildb.py:242-246 | there is exactly one `new_clause` call for each clause after the first |
| TrailDb.GroupsCount | trpy/traildb.py:242-246 | a trace splits into one more group than it has `new_clause` calls |
| FunnelKeys.SortSorted | trpy/funneldb.py:22 | `sorted` gives an ascending permutation of its input |
| FunnelKeys.AscendingUnique | trpy/funneldb.py:22 | two ascending sequences with the same elements are equal |
| FunnelKeys.SortOrderFree | trpy/funneldb.py:22 | `sorted` does not depend on the order of its input |
| FunnelKeys.KeyMapDecodes | trpy/funneldb.py:13-23 | `keymap` yields at most `num_keys` groups, each the sorted contents of a zero-free run of slots that a zero slot closes, with the run's start |
| FunnelKeys.KeyMapStartsIncrease | trpy/funneldb.py:13-23 | each group yielded starts after the zero slot that closes the previous one |
| FunnelKeys.KeyMapUnclosed | trpy/funneldb.py:13-23 | a run that no zero slot closes yields nothing |
| FunnelKeys.LastWith | trpy/funneldb.py:45 | finds the last group with the given fields, and finds nothing exactly when no group has them |
| FunnelKeys.KeyIndex | trpy/funneldb.py:45 | in `dict(keymap(...))`, a field tuple maps to the start of the last group with those fields, and is absent exactly when no group has them |
| FunnelKeys.Seqify | trpy/funneldb.py:25-34 | a name becomes a one-element group, a tuple passes through, and a bare index raises TypeError |
| FunnelKeys.Layout | trpy/funneldb.py:138-143 | the layout takes one slot per field id plus one zero slot per group |
| FunnelKeys.Pad | trpy/funneldb.py:135-143 | the zeroed array holds the written slots and zeros beyond them |
| FunnelKeys.ResolveItems | trpy/funneldb.py:140-142 | a group's ids are `tdb.field` of each item, and the group is stored exactly when every field is known, fits in a uint32, and lands inside the 128 slots |
| FunnelKeys.ResolveKeys | trpy/funneldb.py:139-143 | every group is resolved to the uint32 ids of its fields and fits its slots; keys given only as bare indices succeed only when there are none |
| FunnelKeys.MaskCheck | trpy/funneldb.py:129-137 | no mask gives 0; otherwise it succeeds exactly when the mask is an index that fits a `uint32` with 1 to 8 values, and stores that index; an unknown name is KeyError, a field beyond `uint32` is OverflowError, an arity outside `1 .. 8` is ValueError, and a name that passes the checks is TypeError |
| FunnelKeys.Make | trpy/funneldb.py:127-144 | `make` succeeds exactly when the mask checks and all key groups resolve, and then it stores `num_keys` and the padded layout |
| FunnelKeys.Expected | trpy/funneldb.py:138-143 | the groups a layout should decode to, one per group |
| FunnelKeys.KeyMapLayout | trpy/funneldb.py:13-23 | decoding a layout of zero-free groups yields every group, sorted, at the slot after the previous group's zero |
| FunnelKeys.MakeDropsLastGroup | trpy/funneldb.py:138-143 | as written, `make` accepts one group that fills all 128 slots, and `keymap` reads back no group |
| FunnelKeys.MaskByNameRejected | trpy/funneldb.py:129-137 | as written, a mask field given by name passes the arity checks and then fails to store with TypeError, while the same field given by index is accepted |
| FunnelKeys.MaskField | trpy/funneldb.py:129-137 | the mask step resolving the field first: it succeeds exactly when the field is known, fits in a uint32 and has 1 to 8 values, and stores the field's index |
| FunnelKeys.MaskFieldByName | trpy/funneldb.py:129-137 | a field named or indexed gives the same mask slot |
| FunnelKeys.MakeChecked | trpy/funneldb.py:127-144 | `make` with the intended checks: it succeeds exactly when the mask resolves, the groups resolve, and the layout with its zeros fits the 128 slots |
| FunnelKeys.MakeRoundTrip | trpy/funneldb.py:13-23 | what the checked `make` writes, `keymap` reads back: every group, in order, sorted, at its start slot |
| FunnelKeys.MakeDefaults | trpy/funneldb.py:127-144 | `make(tdb)` with its defaults `keys=((),)` and `mask_field=1` succeeds when field 1 has 1 to 8 values, stores mask field 1 and one key group, and `keymap` reads back the one empty group at slot 0 |
| FunnelDb.Distinct | trpy/funneldb.py:68-69 | the distinct keys of `which` are duplicate-free and hold exactly the listed fields |
| FunnelDb.KeyFieldIds | trpy/funneldb.py:68 | each key's field is looked up, and the lookup fails with KeyError exactly when a field is unknown |
| FunnelDb.Which | trpy/funneldb.py:68 | the `which` dictionary has exactly the key's fields |
| FunnelDb.WhichValue | trpy/funneldb.py:68 | `which` keeps the value of a field's last key |
| FunnelDb.RegisteredRun | trpy/funneldb.py:69-74 | a registered group starts where its run of `key_fields` starts |
| FunnelDb.Digits | trpy/funneldb.py:71-74 | the digit loop fails only with KeyError, or with IndexError when a later slot holds a field past the field list |
| FunnelDb.FunnelIdDict | trpy/funneldb.py:65-75 | an unknown field, or a field set that is not a registered group, is KeyError, and every failure is KeyError or IndexError |
| FunnelDb.Address | trpy/funneldb.py:69-75 | a field set that is not a registered group is KeyError, and every failure is KeyError or IndexError |
| FunnelDb.DigitsOk | trpy/funneldb.py:71-74 | the digit loop over a group's run succeeds exactly when every field of the run has a value its lexicon knows |
| FunnelDb.SortedKeyOfSet | trpy/funneldb.py:69 | `sorted(which)` depends only on the set of fields |
| FunnelDb.FunnelIdOfWhich | trpy/funneldb.py:65-75 | two keys with the same `which` get the same funnel id, whatever the order of their items |
| FunnelDb.RunFields | trpy/funneldb.py:71-74 | the slots of a group's run hold exactly the group's fields |
| FunnelDb.AddressKnownValues | trpy/funneldb.py:69-75 | for a registered group, the address exists exactly when every value is known |
| FunnelDb.FunnelIdKnownValues | trpy/funneldb.py:65-75 | a key over a registered group addresses a funnel exactly when every value is in its field's lexicon |
| FunnelDb.DigitsSum | trpy/funneldb.py:71-74 | over a run closed by a zero slot with every value known, the loop adds each slot's value id times that slot's `key_offs` |
| FunnelDb.AddressValue | trpy/funneldb.py:69-75 | a registered group's address with known values is `key_offs[index - 1]` (0 for the group at slot 0) plus the sum over the group's run of value id times `key_offs` |
| FunnelDb.FunnelIdValue | trpy/funneldb.py:65-75 | `funnel_id` of a dictionary over a registered group with known values is exactly that sum |
| FunnelDb.Split | trpy/funneldb.py:64 | `str.split` gives at least one piece, none holding the separator, and joining them gives the string back |
| FunnelDb.SplitJoin | trpy/funneldb.py:64 | splitting the join of separator-free pieces gives the pieces back |
| FunnelDb.NonEmpty | trpy/funneldb.py:64 | the `if i` filter keeps exactly the non-empty pieces |
| FunnelDb.ParsePair | trpy/funneldb.py:64 | a piece becomes its two unquoted `=` parts, and anything but two parts is ValueError |
| FunnelDb.ParsePairs | trpy/funneldb.py:64 | every piece is parsed, and the whole fails exactly when one piece does |
| FunnelDb.ParseKey | trpy/funneldb.py:64 | a malformed text key is ValueError |
| FunnelDb.KeyLineRoundTrip | trpy/funneldb.py:64-84 | reading back a `name=value,...` line whose parts have no `,` or `=` gives its pairs, unquoted |
| FunnelDb.FunnelId | trpy/funneldb.py:62-76 | an id passes through unchanged; a dictionary is addressed; a malformed text key is ValueError, and a well-formed one is addressed as the dictionary of its pairs; every failure is KeyError, IndexError or ValueError |
| FunnelDb.NamedKey | trpy/funneldb.py:64 | a text key's pairs become a dictionary keyed by field names |
| FunnelDb.Entries | trpy/funneldb.py:80 | the dictionary's items are groups of the layout |
| FunnelDb.EntriesAreDict | trpy/funneldb.py:45-80 | each item maps its fields to its start, and every group's fields have an item |
| FunnelDb.EntriesOrdered | trpy/funneldb.py:80 | keeping the surviving items preserves start order |
| FunnelDb.EntriesInStartOrder | trpy/funneldb.py:80 | `keys` walks the groups in increasing start order, as `sorted((v, k) ...)` does |
| FunnelDb.Product | trpy/funneldb.py:82 | `itertools.product` yields exactly the choices of one element from each list |
| FunnelDb.ProductSize | trpy/funneldb.py:82 | `product` yields as many rows as the product of the list lengths |
| FunnelDb.QuotedNames | trpy/funneldb.py:81 | the names are the quoted field names, and a field index outside the list is IndexError |
| FunnelDb.QuotedLexiconOk | trpy/funneldb.py:82 | for a field that fits a `uint32`, `tdb.lexicon` succeeds and the values are its words, each quoted |
| FunnelDb.EntryFieldsFit | trpy/funneldb.py:45-82 | every field of a listed group fits a `uint32`, so its lexicon is read without error |
| FunnelDb.Zip | trpy/funneldb.py:84-86 | `zip` pairs names and values position by position |
| FunnelDb.EntryRows | trpy/funneldb.py:81-86 | every key of a group pairs the quoted names with one choice of quoted words, and there are as many keys as choices |
| FunnelDb.RowsOfElems | trpy/funneldb.py:79-86 | every listed key is a key of one of the groups |
| FunnelDb.Keys | trpy/funneldb.py:78-86 | `keys` fails, with IndexError, exactly when a group names a field outside the list |
| FunnelDb.RowsYielded | trpy/funneldb.py:80-86 | the rows a consumer of the generator receives are all the rows when no group fails |
| FunnelDb.RowsYieldedStop | trpy/funneldb.py:80-86 | when a group fails, the generator has already yielded every row of the groups before the first failing one, and no other row |
| FunnelDb.KeysYielded | trpy/funneldb.py:78-86 | the rows `keys` yields are all its keys when it does not raise |
| FunnelDb.SerializedKeys | trpy/funneldb.py:83-84 | `keys(serialize=True)` gives one `name=value,...` line per listed key |
| FunnelDb.RowShape | trpy/funneldb.py:81-86 | a listed key pairs each field's quoted name with a quoted word from that field's lexicon |
| FunnelDb.ListedKeyParses | trpy/funneldb.py:64-86 | a listed line reads back as the group's field names, each with a word of its lexicon |
| FunnelDb.ListedKeyAddresses | trpy/funneldb.py:62-86 | every line `keys(serialize=True)` lists, fed to `funnel_id`, names the group's fields and addresses that group |
| FunnelSets.CompileMasks | trpy/funneldb.py:173-186 | the engine receives a compiled formula exactly when compilation succeeds, and otherwise the same error |
| FunnelSets.CompileMasksSat | trpy/funneldb.py:173-186 | the compiled formula accepts a mask exactly when the formula holds with each term read as its mask bit |
| FunnelSets.SimpleMember | trpy/funneldb.py:223-232 | a simple set holds the elements of its funnel whose masks satisfy its formula |
| FunnelSets.Range | trpy/funneldb.py:98 | `range(n)` lists `0 .. n - 1` |
| FunnelSets.ChildSat | trpy/funneldb.py:239-249 | a complex set over a positional formula holds `x` exactly when the formula holds with each position read as "that child holds `x`" |
| FunnelSets.OpFormulaTerms | trpy/funneldb.py:189-205 | each operator's formula mentions only positions 0 and 1 |
| FunnelSets.Combine | trpy/funneldb.py:189-205 | an operator builds a complex set over exactly `[self, other]` |
| FunnelSets.OpFormulaEval | trpy/funneldb.py:189-205 | each operator's formula means its boolean operation: `^` is true exactly when one of bits 0 and 1 is set |
| FunnelSets.CombineMember | trpy/funneldb.py:189-205 | `&` and `*` intersect, `\|` and `+` unite, `^` is symmetric difference and `-` is difference |
| FunnelSets.Disjoin | trpy/funneldb.py:98 | `any` of at most 64 sets has exactly those children |
| FunnelSets.Conjoin | trpy/funneldb.py:106 | `all` of at most 64 sets has exactly those children |
| FunnelSets.DisjoinMember | trpy/funneldb.py:98 | a set over `oneOf` of every position holds what some child holds, or everything when there are no children |
| FunnelSets.ConjoinMember | trpy/funneldb.py:106 | a set over `where` of every position holds what every child holds |
| FunnelSets.Folded | trpy/funneldb.py:96-97 | beyond 64 sets, the first 63 are kept and one set stands for the rest |
| FunnelSets.Any | trpy/funneldb.py:92-98 | `any` builds a complex set with at most 64 children |
| FunnelSets.AnyMember | trpy/funneldb.py:92-98 | `any` holds what some set holds, and `any()` holds everything |
| FunnelSets.AllAsWritten | trpy/funneldb.py:100-106 | `all` as written builds a complex set with at most 64 children |
| FunnelSets.AllAsWrittenAdmits | trpy/funneldb.py:104-105 | as written, `all` of more than 64 sets holds an entity that is missing from the 65th set |
| FunnelSets.All | trpy/funneldb.py:100-106 | `all` wrapping the overflow with itself builds a complex set with at most 64 children |
| FunnelSets.AllMember | trpy/funneldb.py:100-106 | the corrected `all` holds exactly what every set holds, at any number of sets |
| FunnelSets.AnyNarrow | trpy/funneldb.py:92-98 | built from narrow sets, `any` keeps every complex set within 64 children |
| FunnelSets.AllNarrow | trpy/funneldb.py:100-106 | built from narrow sets, the corrected `all` keeps every complex set within 64 children |
| FunnelSets.Funnel | trpy/funneldb.py:57-60 | a funnel id outside `0 .. num_funnels - 1` is IndexError; otherwise the result is the simple set of that funnel and formula |
| FunnelSets.MaskIndexNone | trpy/funneldb.py:88-90 | `mask_val` of a value finds nothing exactly when the mask field's `lexicon_val` raises KeyError |
| FunnelSets.Select | trpy/funneldb.py:108-113 | the mask formula's compile error comes first, then the key's own error, then IndexError from `funnel` for an id outside `0 .. num_funnels - 1`; the result exists exactly when both succeed and the id is in range |
| FunnelSets.SelectMember | trpy/funneldb.py:108-113 | a selected set holds the elements of the addressed funnel whose masks carry the values the mask formula asks for |
| FunnelSets.MaskFormula | trpy/funneldb.py:237 | a mask text compiles exactly when it parses in the extended syntax and every value is known |
| FunnelSets.SimpleSetParse | trpy/funneldb.py:234-237 | more than one `/` is ValueError; otherwise it succeeds exactly when the key is addressed, the mask text compiles and the id fits 32 bits; the key's error comes first, then the mask's, then OverflowError; a parsed set is that funnel with that mask |
| FunnelSets.SimpleSetParseMember | trpy/funneldb.py:234-237 | a parsed simple set holds the elements of the addressed funnel whose masks satisfy the parsed mask formula |
| FunnelSets.SimpleSetParts | trpy/funneldb.py:236 | `key/mask` with no other `/` splits back into that key and that mask |
| FunnelSets.Listing | trpy/funneldb.py:254 | `list(set(...))` lists each leaf of the formula exactly once |
| FunnelSets.ParseLeaves | trpy/funneldb.py:253 | every leaf is parsed as a simple set, and the whole fails exactly when one leaf does |
| FunnelSets.ParseEach | trpy/funneldb.py:274 | a comprehension of parses succeeds exactly when every parse does, and otherwise fails with the error of one of them |
| FunnelSets.ComplexFrom | trpy/funneldb.py:253-255 | the complex set has one child per listed leaf |
| FunnelSets.ComplexSetParse | trpy/funneldb.py:251-255 | a text that does not parse gives the parse error |
| FunnelSets.PositionOfLeaf | trpy/funneldb.py:254-255 | the position a listed leaf maps to is its place in the listing |
| FunnelSets.ListsCard | trpy/funneldb.py:254 | the listing has one entry per distinct leaf |
| FunnelSets.PositionsOutside | trpy/funneldb.py:254-255 | every leaf has a position, and some position exceeds `hi` exactly when there are more than `hi + 1` leaves |
| FunnelSets.ComplexFromOutcome | trpy/funneldb.py:253-255 | building over the leaf listing succeeds exactly when every leaf parses and there are at most 64; a leaf's error is passed on; 65 leaves is OverflowError and more is ValueError |
| FunnelSets.ComplexSetParseOutcome | trpy/funneldb.py:251-255 | a parsed text gives a set exactly when every leaf parses as a simple set and there are at most 64 leaves; otherwise the error of some failing leaf, OverflowError at 65 leaves and ValueError beyond |
| FunnelSets.ComplexFromMember | trpy/funneldb.py:253-255 | the complex set over the leaf listing holds `x` exactly when the formula holds with each leaf read as "its simple set holds `x`" |
| FunnelSets.ComplexSetParseMember | trpy/funneldb.py:251-255 | a parsed complex set holds `x` exactly when the parsed formula holds with each leaf read as its simple set's membership |
| FunnelSets.FamilyParse | trpy/funneldb.py:272-274 | one compiled mask formula per string, failing exactly when one string does |
| FunnelSets.Counts | trpy/funneldb.py:267-270 | a key error is passed on; for an addressed key it succeeds exactly when the id fits 32 bits, else OverflowError; each count is the engine's count for that id and that formula |
| FunnelSets.CountsAreSimpleSets | trpy/funneldb.py:234-274 | counting a family for a key gives, formula by formula, the count of the simple set written `key/formula` |
| TrailScan.Inc64 | src/tdb_iter.c:20 | `marker++` on a `uint64_t` adds one, wrapping to 0 at 2^64 |
| TrailScan.NewIter | src/tdb_iter.c:3-17 | an iterator exists exactly when allocation, the cursor and any filter attachment succeed, and its marker starts at 0 |
| TrailScan.NextGood | src/tdb_iter.c:20-23 | the next trail reported is the first at or after the marker that loads and has an event, and every trail skipped fails one of those |
| TrailScan.ReportedExactly | src/tdb_iter.c:19-26 | exactly the trails that load and have an event are reported |
| TrailScan.ReportedIncreasing | src/tdb_iter.c:19-26 | trails are reported in strictly increasing order, so none twice |
| TrailScan.Next | src/tdb_iter.c:19-26 | on success the marker is one past a trail below the count that loads and has an event; on NULL the marker is one past the count (mod 2^64), and later calls find nothing |
| TrailScan.First | src/tdb_iter.c:19-26 | the first call on a new iterator starts the complete report of the trails |
| TrailScan.Again | src/tdb_iter.c:19-26 | each later call moves the marker strictly forward and continues the report without gaps |
| TrailScan.Scan | src/tdb_iter.c:19-26 | calling `tdb_iter_next` until NULL yields exactly the reported trails, in order |
| TrailScan.FoldTrail | src/tdb_iter.c:37-38 | the inner loop applies `fun` to each event of one trail, in order |
| TrailScan.FoldFrom | src/tdb_iter.c:36-38 | the loops fold every event of every reported trail, trail by trail, with its trail id |
| TrailScan.FoldAsWritten | src/tdb_iter.c:33-41 | as written, a failed `tdb_iter_new` leads to a NULL dereference; otherwise every event of every reported trail is folded |
| TrailScan.Fold | src/tdb_iter.c:33-41 | with the NULL check, a missing iterator returns the accumulator unchanged; otherwise every event of every reported trail is folded |
| TrailScan.FoldCounts | src/tdb_iter.c:33-41 | a fold that adds one per event counts the events of the folded trails |

## Left out

- Native lifecycle is not modelled: the `__del__` methods, `fdb_free`, `tdb_iter_free` and the other `*_free` functions. They release memory and compute nothing.
- `FDB.load` and `FDB.dump` are not modelled, because they are file I/O.
- The trail store's I/O is not modelled: `TDBCons`, `TDBCursor`, `events`, cookies and `time_range`.
- The store's answers are parameters of `TrailDb.Tdb`: field names, lexicon sizes, items and words.
- `TDB.lexicon_word` raising IndexError for an unknown id is not modelled. The `word` parameter answers every id.
- The funnel engine (`fdb_easy`, `fdb_count_set`, `fdb_count_family`, `fdb_iter_*`) is C code outside this model.
  - `key_offs` is a field of `FunnelDb.Fdb`.
  - A family count is the parameter `count`.
  - `FunnelSets.Member` states the set semantics the engine is designed to compute. It is not the engine's code.
- `FDBSet.__len__`, `FDBSet.__iter__`, `FDBIter`, `FDBSet.trails`, `FDB.__len__` and `FDB.__getitem__` are not modelled. They delegate to the engine or to `funnel`.
- `FDB.query` and `FDB.family` are not modelled separately. They only forward to `FunnelSets.ComplexSetParse` and `FunnelSets.FamilyParse`.
- `Q.__str__` and `Q.__cmp__` are not modelled. Their text depends on the iteration order of a frozenset.
- `Q.parse` given a `Q` returns it unchanged; the model's `CnfParse.Parse` takes strings only.
- `Q.parse` is modelled as a grammar. The source evaluates a rewritten string with Python's `eval`, and errors are collapsed to SyntaxError. `CnfParse.Tokenize` treats all white space between tokens alike and keeps each term's characters as written. As a result, the model does not follow the source in these cases:
  - `()`: the source's `eval` returns an empty tuple, and the failure comes only later, as an AttributeError from `.replace`. `CnfParse.EmptyParensRejected` reports a parse error at once.
  - Line breaks: `eval` follows Python's line structure, so a `\n` or `\r` after `&`, `|`, `~` or `)` outside parentheses ends the expression early and is a SyntaxError, as in `a &\n b`. The model accepts it.
  - `\v` between tokens is not Python white space and is a SyntaxError in the source. The model skips it like a space.
  - Backslash escapes: the `"""..."""` rewrite wraps each term in a string literal, so a term holding a backslash escape becomes a different string. A term that ends in a backslash escapes the closing quote, and that is an error.
  - Quotes: a term ending in `"`, or holding `"""`, closes the literal early and is a SyntaxError.
  - A NUL character anywhere in the text is rejected by `eval`.
  In every case but `()` the model accepts the text and gives the formula its operators describe.
- `CnfLaws.TermsOr`: states only that OR mentions no new term, not that it mentions every term of both sides.
- `Cnf.Replace`: does not model that the source mutates shared `Literal` objects in place. Terms are mapped into a new formula. In the source, OR distribution (`Q.__or__` building `c | d` for every pair of clauses) puts the same `Literal` object into several clauses, and `replace` then applies the function to that literal once per clause.
- `Cnf.Not`: the reduction's start clause is an unspecified choice, because frozenset iteration order is unspecified. `CnfLaws.NotFoldAnyOrder` shows the choice does not matter.
- `FunnelCnf.Compile`: when several literals fail, the raised error depends on frozenset order. The model raises KeyError, then ValueError, then OverflowError, in that order of preference.
- The clause order of `TDBFilter` is a parameter of `TrailDb.FilterCalls`, and so is the literal order within each clause, because the source iterates frozensets.
- Non-zero error codes from `tdb_event_filter_new_clause` and `tdb_event_filter_add_term` are not modelled. They are C results.
- `FunnelSets.ComplexSetParse`: the children are the distinct leaf strings, in a listing chosen by `FunnelSets.Listing`. The source uses object identity of the parsed sets.
- `FunnelSets.ComplexSetParseOutcome`: does not promise what the source does for a query in which OR distributes over a side with two or more clauses, such as `(a & b) | c` or `a | b & c`. There a shared literal is replaced twice: the second call hands the already-parsed `FDBSimpleSet` to `FDBSimpleSet.parse`. `funnel_id` gives that object back unchanged, and storing it in the integer `funnel_id` slot of the C set raises TypeError. The model gives a set for these queries.
- `FunnelSets.ComplexSetParseOutcome` and `FunnelSets.ComplexFrom`: the 64-child cap counts distinct leaf strings. The source counts leaf occurrences, because each occurrence is parsed into its own `FDBSimpleSet` and those have no `__eq__`. So `(a | b) & (a | c)` has three children in the model and four in the source.
- `FunnelSets.ComplexSetParseOutcome`: when several leaves fail, it states only that the error is that of some failing leaf. The source raises the first failure in the iteration order of the formula's frozensets, which is unspecified.
- `Cnf.WhereKw`, `Cnf.OneOfKw` and their siblings: the keyword arguments are a sequence in any order, because the source iterates a dictionary. Repeated keyword names cannot occur in Python and are not excluded.
- `quote_plus` and `unquote_plus` are the parameters `quote` and `unquote`. `FunnelDb.ListedKeyAddresses` assumes they invert each other and that quoting leaves no `,` or `=`.
- `FunnelSets.Select`: the mask keyword is taken as its own argument. The source pops it from the keyword dictionary by the mask field's name.
- `FunnelKeys.Seqify`: the source's runtime type sniffing is modelled as the three cases of the `Group` datatype.
- `FunnelKeys.MakeRoundTrip`: requires that no key field id is 0, because `keymap` reads a zero id as the end of a group.
- `TrailScan.Scan`, `TrailScan.First` and `TrailScan.FoldFrom`: the trail count is a `uint64_t` (`TrailScan.Valid`). `TrailScan.Next` states the 2^64 wrap of the marker, but a count of 2^64 - 1 is not followed further.
- `TrailScan.NewIter`: whether allocation, the cursor and the filter attachment succeed are parameters.

## Findings

| source | as written | input that shows it | evidently intended | confidence | as-written member | corrected member |
|---|---|---|---|---|---|---|
| trpy/funneldb.py:138-143 | `make` writes each group's ids and skips one slot for the closing zero, but rejects only a store past slot 127. The zero after a group that ends at slot 127 is never written. | one key group of the 128 field indices 1 .. 128 | reject a layout whose ids and closing zeros do not fit the 128 slots, so that `keymap` reads back every group | medium, not executed | FunnelKeys.MakeDropsLastGroup | FunnelKeys.MakeChecked, FunnelKeys.MakeRoundTrip |
| trpy/funneldb.py:129-137 | the arity checks accept a mask field by name, then `mask_field or 0` stores the name into the integer `mask_field` slot | `make(tdb, mask_field='type')` for a field `type` with 1 to 8 values | store `tdb.field(mask_field)`, so a named field behaves like its index | medium, not executed | FunnelKeys.MaskByNameRejected | FunnelKeys.MaskField, FunnelKeys.MakeChecked |
| trpy/funneldb.py:104-105 | `all` of more than 64 sets wraps the remainder with `self.any`, so one remaining set suffices | 65 sets, with an entity in the first 64 and not in the 65th | wrap the remainder with `self.all` | high, not executed | FunnelSets.AllAsWrittenAdmits | FunnelSets.All, FunnelSets.AllMember |
| src/tdb_iter.c:33-36 | `tdb_fold` hands the result of `tdb_iter_new` to `tdb_iter_next` without checking it for NULL | a cursor allocation that fails | return `acc` unchanged when no iterator could be made | medium, not executed | TrailScan.FoldAsWritten | TrailScan.Fold |

=== FILE: cnf.dfy ===
/** The boolean formula algebra of trpy/cnf.py.

    A formula `Q` is a set of clauses read as AND; a clause is a set of
    literals read as OR; a literal is a term that is read positively or
    negatively.  Both levels are sets, so equality never depends on the
    order in which a formula was built.  `Eval` gives the meaning of a
    formula under an assignment of truth values to terms. */
module Cnf {

  datatype Literal<T> = Literal(term: T, negated: bool)

  datatype Clause<T(==)> = Clause(literals: set<Literal<T>>)

  datatype Q<T(==)> = Q(clauses: set<Clause<T>>)

  /** Every clause of a constructed formula has at least one literal. */
  predicate Wf<T(==)>(q: Q<T>) {
    forall c | c in q.clauses :: c.literals != {}
  }

  /** The empty formula: no constraint. */
  function Empty<T(==)>(): Q<T> {
    Q({})
  }

  // ---------------------------------------------------------------------
  // Meaning

  predicate Holds<T(==)>(l: Literal<T>, a: T -> bool) {
    a(l.term) != l.negated
  }

  predicate EvalClause<T(==)>(c: Clause<T>, a: T -> bool) {
    exists l | l in c.literals :: Holds(l, a)
  }

  predicate Eval<T(==)>(q: Q<T>, a: T -> bool) {
    forall c | c in q.clauses :: EvalClause(c, a)
  }

  /** Every term mentioned by a formula. */
  function Terms<T(==)>(q: Q<T>): set<T> {
    set c, l | c in q.clauses && l in c.literals :: l.term
  }

  // ---------------------------------------------------------------------
  // Construction

  /** `Q.__init__`: keep only the clauses that have literals. */
  function Make<T(==)>(cs: set<Clause<T>>): (q: Q<T>)
    ensures Wf(q)
    ensures q.clauses <= cs
    ensures forall c | c in cs && c.literals != {} :: c in q.clauses
  {
    Q(set c | c in cs && c.literals != {})
  }

  /** `Literal.__invert__`: same term, opposite polarity. */
  function Negate<T(==)>(l: Literal<T>): (r: Literal<T>)
    ensures r.term == l.term && r.negated != l.negated
  {
    Literal(l.term, !l.negated)
  }

  /** `Clause.__or__`: the disjunction of two clauses is their union. */
  function Join<T(==)>(c: Clause<T>, d: Clause<T>): (r: Clause<T>)
    ensures r.literals == c.literals + d.literals
  {
    Clause(c.literals + d.literals)
  }

  /** `Q.__and__`: conjunction is the union of the clause sets. */
  function And<T(==)>(a: Q<T>, b: Q<T>): (r: Q<T>)
    ensures Wf(r)
    ensures Wf(a) && Wf(b) ==> r.clauses == a.clauses + b.clauses
  {
    Make(a.clauses + b.clauses)
  }

  /** The clauses of `a | b` when neither side is empty: every pairwise union. */
  function Distribute<T(==)>(a: Q<T>, b: Q<T>): set<Clause<T>> {
    set c, d | c in a.clauses && d in b.clauses :: Join(c, d)
  }

  /** `Q.__or__`: an empty side yields the other side unchanged; otherwise
      the clause-wise distribution of the two formulas. */
  function Or<T(==)>(a: Q<T>, b: Q<T>): (r: Q<T>)
    ensures Wf(a) && Wf(b) ==> Wf(r)
    ensures a.clauses == {} ==> r == b
    ensures a.clauses != {} && b.clauses == {} ==> r == a
  {
    if a.clauses == {} then b
    else if b.clauses == {} then a
    else Make(Distribute(a, b))
  }

  /** `Clause.__invert__`: one negated singleton clause per literal. */
  function NegateClause<T(==)>(c: Clause<T>): (r: Q<T>)
    ensures Wf(r)
    ensures r.clauses == {} <==> c.literals == {}
  {
    var r := Make(set l | l in c.literals :: Clause({Negate(l)}));
    assert forall l | l in c.literals :: Clause({Negate(l)}) in r.clauses;
    r
  }

  /** `Q.__invert__`: the empty formula is its own negation; otherwise the
      OR-reduction of the negated clauses.  The source reduces in the
      iteration order of a frozenset, which is unspecified, so the fold
      picks clauses in an arbitrary order; `NotFoldAnyOrder` shows that
      the choice does not matter. */
  ghost function Not<T>(q: Q<T>): (r: Q<T>)
  {
    if q.clauses == {} then q else NotFold(q.clauses)
  }

  /** Some element of a non-empty set; which one is unspecified. */
  ghost function Pick<T>(cs: set<T>): (c: T)
    requires cs != {}
    ensures c in cs
  {
    var c :| c in cs; c
  }

  ghost function NotFold<T>(cs: set<Clause<T>>): Q<T>
    requires cs != {}
    decreases |cs|
  {
    var c := Pick(cs);
    assert |cs - {c}| == |cs| - 1;
    if |cs| == 1 then NegateClause(c) else Or(NegateClause(c), NotFold(cs - {c}))
  }

  /** `reduce(__or__, ...)` over a given sequence: a left fold. */
  ghost function ReduceOr<T>(cs: seq<Clause<T>>): Q<T>
    requires |cs| > 0
  {
    if |cs| == 1 then NegateClause(cs[0])
    else Or(ReduceOr(cs[..|cs| - 1]), NegateClause(cs[|cs| - 1]))
  }

  /** Kinds of value `Q.wrap` accepts. */
  datatype Prop<T> =
    | PFormula(q: Q<T>)
    | PClause(c: Clause<T>)
    | PLiteral(l: Literal<T>)
    | PTerm(t: T)

  /** `Q.wrap`: lift a formula, clause, literal or bare term to a formula. */
  function Wrap<T(==)>(p: Prop<T>): (r: Q<T>)
    ensures p.PFormula? ==> r == p.q
    ensures p.PTerm? ==> r.clauses == {Clause({Literal(p.t, false)})}
    ensures p.PLiteral? ==> r.clauses == {Clause({p.l})}
    ensures p.PClause? && p.c.literals != {} ==> r.clauses == {p.c}
    ensures p.PClause? && p.c.literals == {} ==> r == Empty()
  {
    match p
    case PFormula(q) => q
    case PClause(c) => Make({c})
    case PLiteral(l) =>
      Make({Clause({l})})
    case PTerm(t) =>
      Make({Clause({Literal(t, false)})})
  }

  /** `Literal.__or__`: a two-literal clause. */
  function LiteralOr<T(==)>(l: Literal<T>, m: Literal<T>): (r: Clause<T>)
    ensures r.literals == {l, m}
  {
    Clause({l, m})
  }

  /** `Clause.__and__`: the conjunction of the two wrapped clauses. */
  function ClauseAnd<T(==)>(c: Clause<T>, d: Clause<T>): (r: Q<T>)
    ensures c.literals != {} && d.literals != {} ==>
              r.clauses == {c, d}
  {
    And(Wrap(PClause(c)), Wrap(PClause(d)))
  }

  /** `Literal.__and__`: the conjunction of two singleton clauses. */
  function LiteralAnd<T(==)>(l: Literal<T>, m: Literal<T>): (r: Q<T>)
    ensures r.clauses == {Clause({l}), Clause({m})}
  {
    ClauseAnd(Clause({l}), Clause({m}))
  }

  /** `Q.replace`: apply `f` to every term. */
  function MapClause<T(==), U(==)>(c: Clause<T>, f: T -> U): (r: Clause<U>)
    ensures forall l | l in c.literals :: Literal(f(l.term), l.negated) in r.literals
    ensures c.literals != {} ==> r.literals != {}
  {
    Clause(set l | l in c.literals :: Literal(f(l.term), l.negated))
  }

  function Replace<T(==), U(==)>(q: Q<T>, f: T -> U): (r: Q<U>)
    ensures Wf(q) ==> r.clauses == set c | c in q.clauses :: MapClause(c, f)
    ensures Terms(r) <= set t | t in Terms(q) :: f(t)
  {
    Make(set c | c in q.clauses :: MapClause(c, f))
  }

  // ---------------------------------------------------------------------
  // Helpers of the module's top level

  /** `where(*terms)`: one positive singleton clause per term. */
  function Where<T(==)>(terms: seq<T>): (q: Q<T>)
    ensures Wf(q)
    ensures q.clauses == {} <==> |terms| == 0
  {
    var q := Make(set t | t in terms :: Clause({Literal(t, false)}));
    assert |terms| > 0 ==> Clause({Literal(terms[0], false)}) in q.clauses;
    q
  }

  /** `whereNot(*terms)`: one negated singleton clause per term. */
  function WhereNot<T(==)>(terms: seq<T>): (q: Q<T>)
    ensures Wf(q)
    ensures q.clauses == {} <==> |terms| == 0
  {
    var q := Make(set t | t in terms :: Clause({Literal(t, true)}));
    assert |terms| > 0 ==> Clause({Literal(terms[0], true)}) in q.clauses;
    q
  }

  /** `oneOf(*terms)`: a single clause of positive literals. */
  function OneOf<T(==)>(terms: seq<T>): (q: Q<T>)
    ensures Wf(q)
    ensures |terms| == 0 ==> q == Empty()
    ensures |terms| > 0 ==> |q.clauses| == 1
  {
    var c := Clause(set t | t in terms :: Literal(t, false));
    assert |terms| > 0 ==> Literal(terms[0], false) in c.literals;
    var q := Make({c});
    assert |terms| > 0 ==> q.clauses == {c};
    q
  }

  /** `noneOf(*terms)`: a single clause of negated literals. */
  function NoneOf<T(==)>(terms: seq<T>): (q: Q<T>)
    ensures Wf(q)
    ensures |terms| == 0 ==> q == Empty()
    ensures |terms| > 0 ==> |q.clauses| == 1
  {
    var c := Clause(set t | t in terms :: Literal(t, true));
    assert |terms| > 0 ==> Literal(terms[0], true) in c.literals;
    var q := Make({c});
    assert |terms| > 0 ==> q.clauses == {c};
    q
  }

  // ---------------------------------------------------------------------
  // The helpers with keyword arguments

  /** The terms `where` and `whereNot` take from keyword arguments: each
      item `(k, v)` of `kwds`, as the term `pair` builds (the tuple),
      followed by the positional terms. */
  function ItemTerms<K, V, T>(kwds: seq<(K, V)>, pair: (K, V) -> T, args: seq<T>): (ts: seq<T>)
    ensures |ts| == |kwds| + |args|
    ensures forall i | 0 <= i < |kwds| :: ts[i] == pair(kwds[i].0, kwds[i].1)
    ensures forall i | 0 <= i < |args| :: ts[|kwds| + i] == args[i]
  {
    seq(|kwds|, i requires 0 <= i < |kwds| => pair(kwds[i].0, kwds[i].1)) + args
  }

  /** The terms `oneOf` and `noneOf` take from keyword arguments: each
      keyword paired with every element of its value in turn (so a string
      value contributes one term per character), followed by the
      positional terms. */
  function SpreadTerms<K, V, T>(kwds: seq<(K, seq<V>)>, pair: (K, V) -> T, args: seq<T>): (ts: seq<T>)
    ensures forall t | t in args :: t in ts
    ensures forall i, j | 0 <= i < |kwds| && 0 <= j < |kwds[i].1| :: pair(kwds[i].0, kwds[i].1[j]) in ts
    ensures forall t | t in ts ::
              t in args || exists i, j | 0 <= i < |kwds| && 0 <= j < |kwds[i].1| :: t == pair(kwds[i].0, kwds[i].1[j])
  {
    if kwds == [] then args
    else
      var k := kwds[0].0;
      var vs := kwds[0].1;
      var head := seq(|vs|, j requires 0 <= j < |vs| => pair(k, vs[j]));
      var rest := SpreadTerms(kwds[1..], pair, args);
      assert forall i | 1 <= i < |kwds| :: kwds[i] == kwds[1..][i - 1];
      assert forall j | 0 <= j < |vs| :: (head + rest)[j] == pair(k, vs[j]);
      assert forall t | t in rest :: t in head + rest;
      head + rest
  }

  /** `where(*args, **kwds)`. */
  function WhereKw<K, V, T(==)>(kwds: seq<(K, V)>, pair: (K, V) -> T, args: seq<T>): (q: Q<T>)
    ensures Wf(q)
    ensures q.clauses == {} <==> |kwds| + |args| == 0
  {
    Where(ItemTerms(kwds, pair, args))
  }

  /** `whereNot(*args, **kwds)`. */
  function WhereNotKw<K, V, T(==)>(kwds: seq<(K, V)>, pair: (K, V) -> T, args: seq<T>): (q: Q<T>)
    ensures Wf(q)
    ensures q.clauses == {} <==> |kwds| + |args| == 0
  {
    WhereNot(ItemTerms(kwds, pair, args))
  }

  /** `oneOf(*args, **kwds)`. */
  function OneOfKw<K, V, T(==)>(kwds: seq<(K, seq<V>)>, pair: (K, V) -> T, args: seq<T>): (q: Q<T>)
    ensures Wf(q)
    ensures |q.clauses| <= 1
    ensures q == Empty() <==> |SpreadTerms(kwds, pair, args)| == 0
  {
    OneOf(SpreadTerms(kwds, pair, args))
  }

  /** `noneOf(*args, **kwds)`. */
  function NoneOfKw<K, V, T(==)>(kwds: seq<(K, seq<V>)>, pair: (K, V) -> T, args: seq<T>): (q: Q<T>)
    ensures Wf(q)
    ensures |q.clauses| <= 1
    ensures q == Empty() <==> |SpreadTerms(kwds, pair, args)| == 0
  {
    NoneOf(SpreadTerms(kwds, pair, args))
  }
}

=== FILE: cnf_laws.dfy ===
/** Laws of the formula algebra of module `Cnf`: what AND, OR, NOT and the
    helpers mean under every assignment, the algebraic identities the
    source relies on, and the order independence of NOT's reduction. */
module CnfLaws {
  import opened Cnf

  // ---------------------------------------------------------------------
  // Construction drops empty clauses

  /** `Q([])` and `Q([Clause([])])` are the same formula, and the helpers
      called with no terms give it. */
  lemma EmptyClauseDropped<T>()
    ensures Make<T>({}) == Make({Clause({})}) == Empty()
    ensures Where<T>([]) == WhereNot<T>([]) == OneOf<T>([]) == NoneOf<T>([]) == Empty()
  {
  }

  /** A set of non-empty clauses passes through `Make` unchanged. */
  lemma MakeKeeps<T>(cs: set<Clause<T>>)
    requires forall c | c in cs :: c.literals != {}
    ensures Make(cs) == Q(cs)
  {
  }

  /** Literal negation is an involution. */
  lemma NegateTwice<T>(l: Literal<T>)
    ensures Negate(Negate(l)) == l
  {
  }

  // ---------------------------------------------------------------------
  // AND

  lemma AndEval<T>(a: Q<T>, b: Q<T>, asg: T -> bool)
    requires Wf(a) && Wf(b)
    ensures Eval(And(a, b), asg) <==> Eval(a, asg) && Eval(b, asg)
  {
  }

  /** AND is commutative, associative and idempotent, with the empty
      formula as its identity. */
  lemma AndLaws<T>(a: Q<T>, b: Q<T>, c: Q<T>)
    requires Wf(a) && Wf(b) && Wf(c)
    ensures And(a, b) == And(b, a)
    ensures And(And(a, b), c) == And(a, And(b, c))
    ensures And(a, a) == a
    ensures And(a, Empty()) == a && And(Empty(), a) == a
  {
  }

  // ---------------------------------------------------------------------
  // OR

  lemma JoinEval<T>(c: Clause<T>, d: Clause<T>, asg: T -> bool)
    ensures EvalClause(Join(c, d), asg) <==> EvalClause(c, asg) || EvalClause(d, asg)
  {
    if EvalClause(c, asg) {
      var l :| l in c.literals && Holds(l, asg);
      assert l in Join(c, d).literals;
    } else if EvalClause(d, asg) {
      var l :| l in d.literals && Holds(l, asg);
      assert l in Join(c, d).literals;
    }
  }

  /** Distributing two formulas whose clauses are non-empty gives
      non-empty clauses only. */
  lemma DistributeNonEmpty<T>(a: Q<T>, b: Q<T>)
    requires Wf(a)
    ensures forall e | e in Distribute(a, b) :: e.literals != {}
  {
  }

  /** OR of two non-empty formulas is non-empty and well formed. */
  lemma OrNonEmpty<T>(a: Q<T>, b: Q<T>)
    requires Wf(a) && Wf(b) && a.clauses != {} && b.clauses != {}
    ensures Wf(Or(a, b)) && Or(a, b).clauses != {}
    ensures Or(a, b) == Q(Distribute(a, b))
  {
    var c :| c in a.clauses;
    var d :| d in b.clauses;
    assert Join(c, d) in Distribute(a, b);
    DistributeNonEmpty(a, b);
    MakeKeeps(Distribute(a, b));
  }

  /** OR of two non-empty formulas is the disjunction of their meanings. */
  lemma {:induction false} OrEval<T>(a: Q<T>, b: Q<T>, asg: T -> bool)
    requires Wf(a) && Wf(b) && a.clauses != {} && b.clauses != {}
    ensures Eval(Or(a, b), asg) <==> Eval(a, asg) || Eval(b, asg)
  {
    OrNonEmpty(a, b);
    var r := Or(a, b);
    if Eval(a, asg) {
      forall e | e in r.clauses ensures EvalClause(e, asg) {
        var c, d :| c in a.clauses && d in b.clauses && e == Join(c, d);
        JoinEval(c, d, asg);
      }
    } else if Eval(b, asg) {
      forall e | e in r.clauses ensures EvalClause(e, asg) {
        var c, d :| c in a.clauses && d in b.clauses && e == Join(c, d);
        JoinEval(c, d, asg);
      }
    } else {
      var c :| c in a.clauses && !EvalClause(c, asg);
      var d :| d in b.clauses && !EvalClause(d, asg);
      JoinEval(c, d, asg);
      assert Join(c, d) in r.clauses;
    }
  }

  /** The short-circuit makes an empty side behave as "false", although
      the empty formula alone means "true": `Or(Empty, b)` is `b`. */
  lemma OrWithEmptyIsNotDisjunction<T>(t: T)
    ensures Or(Empty(), Where([t])) == Where([t])
    ensures Eval(Empty<T>(), _ => false)
    ensures !Eval(Or(Empty(), Where([t])), _ => false)
  {
    var c := Clause({Literal(t, false)});
    assert c in Where([t]).clauses;
    assert !EvalClause(c, _ => false);
  }

  lemma JoinComm<T>(c: Clause<T>, d: Clause<T>)
    ensures Join(c, d) == Join(d, c)
  {
    assert c.literals + d.literals == d.literals + c.literals;
  }

  lemma {:induction false} OrComm<T>(a: Q<T>, b: Q<T>)
    requires Wf(a) && Wf(b)
    ensures Or(a, b) == Or(b, a)
  {
    if a.clauses != {} && b.clauses != {} {
      forall e | e in Distribute(a, b) ensures e in Distribute(b, a) {
        var c, d :| c in a.clauses && d in b.clauses && e == Join(c, d);
        JoinComm(c, d);
      }
      forall e | e in Distribute(b, a) ensures e in Distribute(a, b) {
        var d, c :| d in b.clauses && c in a.clauses && e == Join(d, c);
        JoinComm(c, d);
      }
      assert Distribute(a, b) == Distribute(b, a);
    }
  }

  lemma JoinAssoc<T>(x: Clause<T>, y: Clause<T>, z: Clause<T>)
    ensures Join(Join(x, y), z) == Join(x, Join(y, z))
  {
    assert (x.literals + y.literals) + z.literals == x.literals + (y.literals + z.literals);
  }

  lemma AssocForward<T>(a: Q<T>, b: Q<T>, c: Q<T>)
    ensures Distribute(Q(Distribute(a, b)), c) <= Distribute(a, Q(Distribute(b, c)))
  {
    forall e | e in Distribute(Q(Distribute(a, b)), c)
      ensures e in Distribute(a, Q(Distribute(b, c)))
    {
      var f, z :| f in Distribute(a, b) && z in c.clauses && e == Join(f, z);
      var x, y :| x in a.clauses && y in b.clauses && f == Join(x, y);
      JoinAssoc(x, y, z);
      assert Join(y, z) in Distribute(b, c);
    }
  }

  lemma AssocBackward<T>(a: Q<T>, b: Q<T>, c: Q<T>)
    ensures Distribute(a, Q(Distribute(b, c))) <= Distribute(Q(Distribute(a, b)), c)
  {
    forall e | e in Distribute(a, Q(Distribute(b, c)))
      ensures e in Distribute(Q(Distribute(a, b)), c)
    {
      var x, g :| x in a.clauses && g in Distribute(b, c) && e == Join(x, g);
      var y, z :| y in b.clauses && z in c.clauses && g == Join(y, z);
      JoinAssoc(x, y, z);
      assert Join(x, y) in Distribute(a, b);
    }
  }

  lemma {:induction false} OrAssoc<T>(a: Q<T>, b: Q<T>, c: Q<T>)
    requires Wf(a) && Wf(b) && Wf(c)
    requires a.clauses != {} && b.clauses != {} && c.clauses != {}
    ensures Or(Or(a, b), c) == Or(a, Or(b, c))
  {
    OrNonEmpty(a, b);
    OrNonEmpty(b, c);
    OrNonEmpty(Or(a, b), c);
    OrNonEmpty(a, Or(b, c));
    AssocForward(a, b, c);
    AssocBackward(a, b, c);
  }

  /** Two non-empty formulas ORed in front of a third may be swapped. */
  lemma SwapFront<T>(x: Q<T>, y: Q<T>, f: Q<T>)
    requires Wf(x) && Wf(y) && Wf(f)
    requires x.clauses != {} && y.clauses != {} && f.clauses != {}
    ensures Or(x, Or(y, f)) == Or(y, Or(x, f))
  {
    OrNonEmpty(x, y);
    OrAssoc(x, y, f);
    OrComm(x, y);
    OrAssoc(y, x, f);
  }

  // ---------------------------------------------------------------------
  // NOT

  lemma NegateClauseEval<T>(c: Clause<T>, asg: T -> bool)
    ensures Eval(NegateClause(c), asg) <==> !EvalClause(c, asg)
  {
    var r := NegateClause(c);
    if EvalClause(c, asg) {
      var l :| l in c.literals && Holds(l, asg);
      assert Clause({Negate(l)}) in r.clauses;
      assert !EvalClause(Clause({Negate(l)}), asg);
    } else {
      forall e | e in r.clauses ensures EvalClause(e, asg) {
        var l :| l in c.literals && e == Clause({Negate(l)});
        assert Negate(l) in e.literals;
      }
    }
  }

  /** The fold over negated clauses is non-empty, well formed, and true
      exactly when some folded clause is false. */
  lemma {:induction false} NotFoldEval<T>(cs: set<Clause<T>>, asg: T -> bool)
    requires cs != {}
    requires forall c | c in cs :: c.literals != {}
    ensures Wf(NotFold(cs)) && NotFold(cs).clauses != {}
    ensures Eval(NotFold(cs), asg) <==> exists c | c in cs :: !EvalClause(c, asg)
    decreases |cs|
  {
    var c := Pick(cs);
    NegateClauseEval(c, asg);
    if |cs| == 1 {
      assert |cs - {c}| == 0;
      assert cs == {c};
    } else {
      var rest := cs - {c};
      assert |rest| == |cs| - 1;
      NotFoldEval(rest, asg);
      OrNonEmpty(NegateClause(c), NotFold(rest));
      OrEval(NegateClause(c), NotFold(rest), asg);
      if exists d | d in cs :: !EvalClause(d, asg) {
        var d :| d in cs && !EvalClause(d, asg);
        assert d == c || d in rest;
      }
    }
  }

  /** `~q` means "not q" for every formula with at least one clause. */
  lemma NotEval<T>(q: Q<T>, asg: T -> bool)
    requires Wf(q) && q.clauses != {}
    ensures Wf(Not(q)) && Not(q).clauses != {}
    ensures Eval(Not(q), asg) <==> !Eval(q, asg)
  {
    NotFoldEval(q.clauses, asg);
  }

  /** The empty formula negates to itself, so "not true" is "true". */
  lemma NotEmpty<T>()
    ensures Not(Empty<T>()) == Empty<T>()
  {
  }

  /** Double negation preserves meaning (though not necessarily shape). */
  lemma NotNot<T>(q: Q<T>, asg: T -> bool)
    requires Wf(q)
    ensures Eval(Not(Not(q)), asg) <==> Eval(q, asg)
  {
    if q.clauses != {} {
      NotEval(q, asg);
      NotEval(Not(q), asg);
    }
  }

  /** One step of NOT's fold, stated once so that proofs need not unfold it. */
  lemma NotFoldStep<T>(cs: set<Clause<T>>)
    requires |cs| > 1
    ensures cs - {Pick(cs)} != {}
    ensures NotFold(cs) == Or(NegateClause(Pick(cs)), NotFold(cs - {Pick(cs)}))
  {
    assert |cs - {Pick(cs)}| == |cs| - 1;
  }

  lemma NotFoldSingle<T>(c: Clause<T>)
    ensures NotFold({c}) == NegateClause(c)
  {
    assert Pick({c}) == c;
  }

  /** NOT's reduction does not depend on which clause it starts from. */
  lemma {:induction false} NotFoldAnyOrder<T>(cs: set<Clause<T>>, c: Clause<T>)
    requires c in cs && |cs| > 1
    requires forall x | x in cs :: x.literals != {}
    ensures cs - {c} != {}
    ensures NotFold(cs) == Or(NegateClause(c), NotFold(cs - {c}))
    decreases |cs|
  {
    var c0 := Pick(cs);
    var rest, rest2 := cs - {c0}, cs - {c};
    assert |rest2| == |cs| - 1;
    NotFoldStep(cs);
    if c0 != c {
      assert |rest| == |cs| - 1;
      if |rest| == 1 {
        SingletonSet(rest, c);
        SingletonSet(rest2, c0);
        NotFoldSingle(c);
        NotFoldSingle(c0);
        OrComm(NegateClause(c0), NegateClause(c));
      } else {
        var core := rest - {c};
        assert core == rest2 - {c0};
        assert |core| == |rest| - 1;
        NotFoldAnyOrder(rest, c);
        NotFoldAnyOrder(rest2, c0);
        NotFoldEval(core, _ => false);
        SwapFront(NegateClause(c0), NegateClause(c), NotFold(core));
      }
    }
  }

  /** The elements of a non-empty sequence are those of its prefix plus its last. */
  lemma ElemsSnoc<X>(xs: seq<X>, init: seq<X>)
    requires |xs| > 0 && init == xs[..|xs| - 1]
    ensures (set x | x in xs) == (set x | x in init) + {xs[|xs| - 1]}
  {
    assert xs == init + [xs[|xs| - 1]];
  }

  /** A one-element set is the singleton of any of its members. */
  lemma SingletonSet<X>(s: set<X>, x: X)
    requires x in s && |s| == 1
    ensures s == {x}
  {
    assert |s - {x}| == 0;
  }

  /** Reducing the negated clauses with OR from left to right, in any
      order that lists every clause once, gives `Not`'s fold. */
  lemma {:induction false} ReduceOrIsNotFold<T>(xs: seq<Clause<T>>)
    requires |xs| > 0
    requires forall i, j | 0 <= i < j < |xs| :: xs[i] != xs[j]
    requires forall i | 0 <= i < |xs| :: xs[i].literals != {}
    ensures var s := set x | x in xs; xs[0] in s && ReduceOr(xs) == NotFold(s)
  {
    var s := set x | x in xs;
    if |xs| == 1 {
      assert s == {xs[0]};
      NotFoldSingle(xs[0]);
    } else {
      var init, last := xs[..|xs| - 1], xs[|xs| - 1];
      var si := set x | x in init;
      ReduceOrIsNotFold(init);
      assert ReduceOr(xs) == Or(ReduceOr(init), NegateClause(last));
      assert last !in si by {
        forall k | 0 <= k < |init| ensures init[k] != last {
          assert init[k] == xs[k];
        }
      }
      ElemsSnoc(xs, init);
      assert s - {last} == si;
      assert init[0] in si;
      assert |s| > 1 by { assert |s| == |si| + 1; }
      NotFoldAnyOrder(s, last);
      NotFoldEval(si, _ => false);
      OrComm(NotFold(si), NegateClause(last));
    }
  }

  // ---------------------------------------------------------------------
  // Helpers

  lemma WhereEval<T>(terms: seq<T>, asg: T -> bool)
    ensures Eval(Where(terms), asg) <==> forall i | 0 <= i < |terms| :: asg(terms[i])
  {
    if forall i | 0 <= i < |terms| :: asg(terms[i]) {
      forall c | c in Where(terms).clauses ensures EvalClause(c, asg) {
        var t :| t in terms && c == Clause({Literal(t, false)});
        assert Literal(t, false) in c.literals;
      }
    } else {
      var i :| 0 <= i < |terms| && !asg(terms[i]);
      assert Clause({Literal(terms[i], false)}) in Where(terms).clauses;
    }
  }

  lemma WhereNotEval<T>(terms: seq<T>, asg: T -> bool)
    ensures Eval(WhereNot(terms), asg) <==> forall i | 0 <= i < |terms| :: !asg(terms[i])
  {
    if forall i | 0 <= i < |terms| :: !asg(terms[i]) {
      forall c | c in WhereNot(terms).clauses ensures EvalClause(c, asg) {
        var t :| t in terms && c == Clause({Literal(t, true)});
        assert Literal(t, true) in c.literals;
      }
    } else {
      var i :| 0 <= i < |terms| && asg(terms[i]);
      assert Clause({Literal(terms[i], true)}) in WhereNot(terms).clauses;
    }
  }

  /** `oneOf` means "at least one of" — except with no terms, when it is
      the empty formula and so means "true". */
  lemma OneOfEval<T>(terms: seq<T>, asg: T -> bool)
    requires |terms| > 0
    ensures Eval(OneOf(terms), asg) <==> exists i | 0 <= i < |terms| :: asg(terms[i])
  {
    var c := Clause(set t | t in terms :: Literal(t, false));
    assert OneOf(terms).clauses == {c};
    if exists i | 0 <= i < |terms| :: asg(terms[i]) {
      var i :| 0 <= i < |terms| && asg(terms[i]);
      assert Literal(terms[i], false) in c.literals;
    }
  }

  /** `noneOf` is one clause of negated literals, so it means "not all
      of" the terms. */
  lemma NoneOfEval<T>(terms: seq<T>, asg: T -> bool)
    requires |terms| > 0
    ensures Eval(NoneOf(terms), asg) <==> exists i | 0 <= i < |terms| :: !asg(terms[i])
  {
    var c := Clause(set t | t in terms :: Literal(t, true));
    assert NoneOf(terms).clauses == {c};
    if exists i | 0 <= i < |terms| :: !asg(terms[i]) {
      var i :| 0 <= i < |terms| && !asg(terms[i]);
      assert Literal(terms[i], true) in c.literals;
    }
  }

  /** The helpers pair up under negation: `noneOf` is `~where` and
      `whereNot` is `~oneOf`, under every assignment. */
  lemma HelperDuality<T>(terms: seq<T>, asg: T -> bool)
    requires |terms| > 0
    ensures Eval(NoneOf(terms), asg) <==> Eval(Not(Where(terms)), asg)
    ensures Eval(WhereNot(terms), asg) <==> Eval(Not(OneOf(terms)), asg)
  {
    WhereEval(terms, asg);
    NoneOfEval(terms, asg);
    NotEval(Where(terms), asg);
    WhereNotEval(terms, asg);
    OneOfEval(terms, asg);
    NotEval(OneOf(terms), asg);
  }

  /** `where(*args, **kwds)` means every keyword item and every
      positional term holds. */
  lemma WhereKwEval<K, V, T>(kwds: seq<(K, V)>, pair: (K, V) -> T, args: seq<T>, asg: T -> bool)
    ensures Eval(WhereKw(kwds, pair, args), asg) <==>
              && (forall i | 0 <= i < |kwds| :: asg(pair(kwds[i].0, kwds[i].1)))
              && (forall i | 0 <= i < |args| :: asg(args[i]))
  {
    var ts := ItemTerms(kwds, pair, args);
    WhereEval(ts, asg);
    if !(forall i | 0 <= i < |ts| :: asg(ts[i])) {
      var i :| 0 <= i < |ts| && !asg(ts[i]);
      if i >= |kwds| {
        assert ts[|kwds| + (i - |kwds|)] == args[i - |kwds|];
      }
    }
  }

  /** `whereNot(*args, **kwds)` means no keyword item and no positional
      term holds. */
  lemma WhereNotKwEval<K, V, T>(kwds: seq<(K, V)>, pair: (K, V) -> T, args: seq<T>, asg: T -> bool)
    ensures Eval(WhereNotKw(kwds, pair, args), asg) <==>
              && (forall i | 0 <= i < |kwds| :: !asg(pair(kwds[i].0, kwds[i].1)))
              && (forall i | 0 <= i < |args| :: !asg(args[i]))
  {
    var ts := ItemTerms(kwds, pair, args);
    WhereNotEval(ts, asg);
    if !(forall i | 0 <= i < |ts| :: !asg(ts[i])) {
      var i :| 0 <= i < |ts| && asg(ts[i]);
      if i >= |kwds| {
        assert ts[|kwds| + (i - |kwds|)] == args[i - |kwds|];
      }
    }
  }

  /** Some term of the spread holds exactly when some keyword's value
      element or some positional term holds. */
  lemma SpreadExists<K, V, T>(kwds: seq<(K, seq<V>)>, pair: (K, V) -> T, args: seq<T>, p: T -> bool)
    ensures var ts := SpreadTerms(kwds, pair, args);
            (exists i | 0 <= i < |ts| :: p(ts[i])) <==>
              || (exists i, j | 0 <= i < |kwds| && 0 <= j < |kwds[i].1| :: p(pair(kwds[i].0, kwds[i].1[j])))
              || (exists i | 0 <= i < |args| :: p(args[i]))
  {
    var ts := SpreadTerms(kwds, pair, args);
    if exists i | 0 <= i < |ts| :: p(ts[i]) {
      var i :| 0 <= i < |ts| && p(ts[i]);
      SpreadSource(kwds, pair, args, p, i);
    }
    if exists i, j | 0 <= i < |kwds| && 0 <= j < |kwds[i].1| :: p(pair(kwds[i].0, kwds[i].1[j])) {
      var i, j :| 0 <= i < |kwds| && 0 <= j < |kwds[i].1| && p(pair(kwds[i].0, kwds[i].1[j]));
      SpreadHolds(kwds, pair, args, p, pair(kwds[i].0, kwds[i].1[j]));
    }
    if exists i | 0 <= i < |args| :: p(args[i]) {
      var i :| 0 <= i < |args| && p(args[i]);
      SpreadHolds(kwds, pair, args, p, args[i]);
    }
  }

  lemma SpreadSource<K, V, T>(kwds: seq<(K, seq<V>)>, pair: (K, V) -> T, args: seq<T>, p: T -> bool, i: nat)
    requires i < |SpreadTerms(kwds, pair, args)| && p(SpreadTerms(kwds, pair, args)[i])
    ensures || (exists a, b | 0 <= a < |kwds| && 0 <= b < |kwds[a].1| :: p(pair(kwds[a].0, kwds[a].1[b])))
            || (exists a | 0 <= a < |args| :: p(args[a]))
  {
    var t := SpreadTerms(kwds, pair, args)[i];
    assert t in SpreadTerms(kwds, pair, args);
    if t in args {
      var a :| 0 <= a < |args| && args[a] == t;
      assert p(args[a]);
    } else {
      var a, b :| 0 <= a < |kwds| && 0 <= b < |kwds[a].1| && t == pair(kwds[a].0, kwds[a].1[b]);
      assert p(pair(kwds[a].0, kwds[a].1[b]));
    }
  }

  lemma SpreadHolds<K, V, T>(kwds: seq<(K, seq<V>)>, pair: (K, V) -> T, args: seq<T>, p: T -> bool, t: T)
    requires p(t)
    requires t in args || exists a, b | 0 <= a < |kwds| && 0 <= b < |kwds[a].1| :: t == pair(kwds[a].0, kwds[a].1[b])
    ensures exists k | 0 <= k < |SpreadTerms(kwds, pair, args)| :: p(SpreadTerms(kwds, pair, args)[k])
  {
    var ts := SpreadTerms(kwds, pair, args);
    assert t in ts;
    var k :| 0 <= k < |ts| && ts[k] == t;
    assert p(ts[k]);
  }

  lemma SpreadNonEmpty<K, V, T>(kwds: seq<(K, seq<V>)>, pair: (K, V) -> T, args: seq<T>)
    requires |args| > 0 || exists i | 0 <= i < |kwds| :: |kwds[i].1| > 0
    ensures |SpreadTerms(kwds, pair, args)| > 0
  {
    if |args| > 0 {
      assert args[0] in SpreadTerms(kwds, pair, args);
    } else {
      var i :| 0 <= i < |kwds| && |kwds[i].1| > 0;
      assert pair(kwds[i].0, kwds[i].1[0]) in SpreadTerms(kwds, pair, args);
    }
  }

  /** `oneOf(*args, **kwds)`, given some term, means some element of some
      keyword's value, or some positional term, holds; a string value
      counts character by character. */
  lemma OneOfKwEval<K, V, T>(kwds: seq<(K, seq<V>)>, pair: (K, V) -> T, args: seq<T>, asg: T -> bool)
    requires |args| > 0 || exists i | 0 <= i < |kwds| :: |kwds[i].1| > 0
    ensures Eval(OneOfKw(kwds, pair, args), asg) <==>
              || (exists i, j | 0 <= i < |kwds| && 0 <= j < |kwds[i].1| :: asg(pair(kwds[i].0, kwds[i].1[j])))
              || (exists i | 0 <= i < |args| :: asg(args[i]))
  {
    SpreadNonEmpty(kwds, pair, args);
    OneOfEval(SpreadTerms(kwds, pair, args), asg);
    SpreadExists(kwds, pair, args, asg);
  }

  /** `noneOf(*args, **kwds)`, given some term, means some element of
      some keyword's value, or some positional term, fails. */
  lemma NoneOfKwEval<K, V, T>(kwds: seq<(K, seq<V>)>, pair: (K, V) -> T, args: seq<T>, asg: T -> bool)
    requires |args| > 0 || exists i | 0 <= i < |kwds| :: |kwds[i].1| > 0
    ensures Eval(NoneOfKw(kwds, pair, args), asg) <==>
              || (exists i, j | 0 <= i < |kwds| && 0 <= j < |kwds[i].1| :: !asg(pair(kwds[i].0, kwds[i].1[j])))
              || (exists i | 0 <= i < |args| :: !asg(args[i]))
  {
    SpreadNonEmpty(kwds, pair, args);
    NoneOfEval(SpreadTerms(kwds, pair, args), asg);
    SpreadExists(kwds, pair, args, t => !asg(t));
  }

  /** The order and repetition of the terms given to `where` do not matter. */
  lemma WhereOrderFree<T>(xs: seq<T>, ys: seq<T>)
    requires forall t :: t in xs <==> t in ys
    ensures Where(xs) == Where(ys)
  {
    assert (set t | t in xs :: Clause({Literal(t, false)}))
        == (set t | t in ys :: Clause({Literal(t, false)}));
  }

  /** Replacing terms by `f` is evaluating the original under the
      assignment composed with `f`. */
  lemma ReplaceEval<T, U>(q: Q<T>, f: T -> U, asg: U -> bool)
    requires Wf(q)
    ensures Eval(Replace(q, f), asg) <==> Eval(q, t => asg(f(t)))
  {
    var g := (t: T) => asg(f(t));
    var r := Replace(q, f);
    if Eval(q, g) {
      forall e | e in r.clauses ensures EvalClause(e, asg) {
        var c :| c in q.clauses && e == MapClause(c, f);
        var l :| l in c.literals && Holds(l, g);
        assert Literal(f(l.term), l.negated) in e.literals;
      }
    } else {
      var c :| c in q.clauses && !EvalClause(c, g);
      var e := MapClause(c, f);
      assert e in r.clauses;
      forall m | m in e.literals ensures !Holds(m, asg) {
        var l :| l in c.literals && m == Literal(f(l.term), l.negated);
      }
    }
  }

  // ---------------------------------------------------------------------
  // Terms

  lemma TermsAnd<T>(a: Q<T>, b: Q<T>)
    requires Wf(a) && Wf(b)
    ensures Terms(And(a, b)) == Terms(a) + Terms(b)
  {
  }

  lemma TermsOr<T>(a: Q<T>, b: Q<T>)
    requires Wf(a) && Wf(b)
    ensures Terms(Or(a, b)) <= Terms(a) + Terms(b)
  {
    if a.clauses != {} && b.clauses != {} {
      forall t | t in Terms(Or(a, b)) ensures t in Terms(a) + Terms(b) {
        var e, l :| e in Or(a, b).clauses && l in e.literals && t == l.term;
        var c, d :| c in a.clauses && d in b.clauses && e == Join(c, d);
        assert l in c.literals || l in d.literals;
      }
    }
  }

  lemma TermsWhere<T>(terms: seq<T>)
    ensures Terms(Where(terms)) == set t | t in terms
  {
    forall t | t in terms ensures t in Terms(Where(terms)) {
      var c := Clause({Literal(t, false)});
      assert c in Where(terms).clauses && Literal(t, false) in c.literals;
    }
  }

  lemma TermsWhereNot<T>(terms: seq<T>)
    ensures Terms(WhereNot(terms)) == set t | t in terms
  {
    forall t | t in terms ensures t in Terms(WhereNot(terms)) {
      var c := Clause({Literal(t, true)});
      assert c in WhereNot(terms).clauses && Literal(t, true) in c.literals;
    }
  }

  lemma TermsOneOf<T>(terms: seq<T>)
    ensures Terms(OneOf(terms)) == set t | t in terms
  {
    var c := Clause(set x | x in terms :: Literal(x, false));
    if |terms| > 0 {
      assert OneOf(terms).clauses == {c};
      forall t | t in terms ensures t in Terms(OneOf(terms)) {
        assert Literal(t, false) in c.literals;
      }
    }
  }

  /** A formula's meaning depends only on the truth of its own terms. */
  lemma EvalTermsOnly<T>(q: Q<T>, a: T -> bool, b: T -> bool)
    requires forall t | t in Terms(q) :: a(t) == b(t)
    ensures Eval(q, a) <==> Eval(q, b)
  {
    forall c, l | c in q.clauses && l in c.literals ensures Holds(l, a) == Holds(l, b) {
      assert l.term in Terms(q);
    }
  }
}

=== FILE: cnf_parse.dfy ===
/** `Q.parse` of trpy/cnf.py as a tokenizer and a precedence parser.

    The source rewrites every term into a call that wraps it as a
    singleton formula and hands the result to Python's expression
    evaluator.  Outside the terms, only `&`, `|`, `~`, parentheses and
    white space can remain.  This model reads them with the operator
    grammar of Python expressions: `|` binds loosest, then `&`, then
    prefix `~`; `&` and `|` group to the left.  It treats all white
    space between tokens alike and keeps each term's characters as
    written.  Python's line structure and its string-literal rules are
    not part of the model. */
module CnfParse {
  import opened Results
  import opened Cnf
  import CnfLaws

  datatype Token = TTerm(text: string) | TAnd | TOr | TNot | TOpen | TClose

  /** The characters that can never be part of a term. */
  predicate IsOperator(c: char) {
    c == '&' || c == '|' || c == '~' || c == '(' || c == ')'
  }

  /** White space as `\s` and `str.strip` read it: space, tab, line feed,
      vertical tab, form feed, carriage return. */
  predicate IsSpace(c: char) {
    c == ' ' || ('\t' <= c <= '\r')
  }

  /** What a term looks like after extraction. */
  predicate ValidTerm(t: string) {
    && |t| > 0
    && !IsSpace(t[0])
    && !IsSpace(t[|t| - 1])
    && forall i | 0 <= i < |t| :: !IsOperator(t[i])
  }

  // ---------------------------------------------------------------------
  // The `ext` rewrite

  function ExtChar(c: char): char {
    if c == '!' then '~' else if c == ',' then '&' else if c == '+' then '|' else c
  }

  /** `ext=True`: `!` becomes `~`, `,` becomes `&`, `+` becomes `|`,
      everywhere in the string (inside terms too). */
  function Extend(s: string): (r: string)
    ensures |r| == |s|
    ensures forall i | 0 <= i < |r| :: r[i] != '!' && r[i] != ',' && r[i] != '+'
    ensures forall i | 0 <= i < |s| :: s[i] !in "!,+" ==> r[i] == s[i]
  {
    seq(|s|, i requires 0 <= i < |s| => ExtChar(s[i]))
  }

  // ---------------------------------------------------------------------
  // Tokenizer

  /** The length of the longest prefix free of operator characters. */
  function TermLength(s: string): (n: nat)
    ensures n <= |s|
    ensures forall i | 0 <= i < n :: !IsOperator(s[i])
    ensures n < |s| ==> IsOperator(s[n])
  {
    if s == [] || IsOperator(s[0]) then 0 else 1 + TermLength(s[1..])
  }

  /** `str.strip` on a string that does not start with white space. */
  function StripEnd(s: string): (r: string)
    ensures |r| <= |s| && r == s[..|r|]
    ensures r == [] || !IsSpace(r[|r| - 1])
    ensures forall i | |r| <= i < |s| :: IsSpace(s[i])
  {
    if s != [] && IsSpace(s[|s| - 1]) then StripEnd(s[..|s| - 1]) else s
  }

  /** A term is a maximal run of non-operator characters that starts with
      a non-space character, stripped; white space between tokens is
      dropped. */
  function Tokenize(s: string): (ts: seq<Token>)
    ensures forall i | 0 <= i < |ts| && ts[i].TTerm? :: ValidTerm(ts[i].text)
    decreases |s|
  {
    if s == [] then []
    else if s[0] == '&' then [TAnd] + Tokenize(s[1..])
    else if s[0] == '|' then [TOr] + Tokenize(s[1..])
    else if s[0] == '~' then [TNot] + Tokenize(s[1..])
    else if s[0] == '(' then [TOpen] + Tokenize(s[1..])
    else if s[0] == ')' then [TClose] + Tokenize(s[1..])
    else if IsSpace(s[0]) then Tokenize(s[1..])
    else
      var n := TermLength(s);
      var t := StripEnd(s[..n]);
      assert t[0] == s[0];
      var rest := Tokenize(s[n..]);
      assert forall i | 1 <= i < |rest| + 1 :: ([TTerm(t)] + rest)[i] == rest[i - 1];
      [TTerm(t)] + rest
  }

  // ---------------------------------------------------------------------
  // Parser

  /** `a | b | ...`, grouping to the left. */
  ghost function ParseOr(ts: seq<Token>): (r: Result<(Q<string>, seq<Token>)>)
    ensures r.Ok? ==> |r.value.1| < |ts| && Wf(r.value.0)
    decreases |ts|, 3
  {
    match ParseAnd(ts)
    case Err(e) => Err(e)
    case Ok((q, rest)) => ParseOrRest(q, rest)
  }

  ghost function ParseOrRest(acc: Q<string>, ts: seq<Token>): (r: Result<(Q<string>, seq<Token>)>)
    requires Wf(acc)
    ensures r.Ok? ==> |r.value.1| <= |ts| && Wf(r.value.0)
    decreases |ts|, 3
  {
    if |ts| > 0 && ts[0] == TOr then
      match ParseAnd(ts[1..])
      case Err(e) => Err(e)
      case Ok((q, rest)) => ParseOrRest(Or(acc, q), rest)
    else Ok((acc, ts))
  }

  /** `a & b & ...`, grouping to the left. */
  ghost function ParseAnd(ts: seq<Token>): (r: Result<(Q<string>, seq<Token>)>)
    ensures r.Ok? ==> |r.value.1| < |ts| && Wf(r.value.0)
    decreases |ts|, 2
  {
    match ParseUnary(ts)
    case Err(e) => Err(e)
    case Ok((q, rest)) => ParseAndRest(q, rest)
  }

  ghost function ParseAndRest(acc: Q<string>, ts: seq<Token>): (r: Result<(Q<string>, seq<Token>)>)
    requires Wf(acc)
    ensures r.Ok? ==> |r.value.1| <= |ts| && Wf(r.value.0)
    decreases |ts|, 2
  {
    if |ts| > 0 && ts[0] == TAnd then
      match ParseUnary(ts[1..])
      case Err(e) => Err(e)
      case Ok((q, rest)) => ParseAndRest(And(acc, q), rest)
    else Ok((acc, ts))
  }

  /** A term, `~` applied to a unary expression, or a parenthesized
      expression.  `()` is Python's empty tuple, not a formula. */
  ghost function ParseUnary(ts: seq<Token>): (r: Result<(Q<string>, seq<Token>)>)
    ensures r.Ok? ==> |r.value.1| < |ts| && Wf(r.value.0)
    decreases |ts|, 1
  {
    if ts == [] then Err(SyntaxError)
    else match ts[0]
      case TTerm(t) => Ok((Wrap(PTerm(t)), ts[1..]))
      case TNot =>
        (match ParseUnary(ts[1..])
         case Err(e) => Err(e)
         case Ok((q, rest)) =>
           NotWf(q);
           Ok((Not(q), rest)))
      case TOpen =>
        if |ts| > 1 && ts[1] == TClose then Err(SyntaxError)
        else
          (match ParseOr(ts[1..])
           case Err(e) => Err(e)
           case Ok((q, rest)) =>
             if |rest| > 0 && rest[0] == TClose then Ok((q, rest[1..])) else Err(SyntaxError))
      case _ => Err(SyntaxError)
  }

  lemma NotWf(q: Q<string>)
    requires Wf(q)
    ensures Wf(Not(q))
  {
    if q.clauses != {} {
      CnfLaws.NotEval(q, _ => false);
    }
  }

  /** A whole token sequence must be one expression. */
  ghost function ParseTokens(ts: seq<Token>): (r: Result<Q<string>>)
    ensures r.Ok? ==> Wf(r.value)
  {
    match ParseOr(ts)
    case Err(e) => Err(e)
    case Ok((q, rest)) => if rest == [] then Ok(q) else Err(SyntaxError)
  }

  /** `Q.parse(string, ext)`: the empty string is the empty formula. */
  ghost function Parse(s: string, ext: bool): (r: Result<Q<string>>)
    ensures r.Ok? ==> Wf(r.value)
    ensures s == [] ==> r == Ok(Empty())
  {
    var s' := if ext then Extend(s) else s;
    if s' == [] then Ok(Empty()) else ParseTokens(Tokenize(s'))
  }

  // ---------------------------------------------------------------------
  // Expressions and their printed form

  /** A boolean expression over terms, with its fully parenthesized text. */
  datatype Expr = Atom(text: string) | ENot(e: Expr) | EAnd(l: Expr, r: Expr) | EOr(l: Expr, r: Expr)

  /** The formula the operators of the algebra build from an expression. */
  ghost function Denote(e: Expr): (q: Q<string>)
    ensures Wf(q)
  {
    match e
    case Atom(t) => Wrap(PTerm(t))
    case ENot(x) => NotWf(Denote(x)); Not(Denote(x))
    case EAnd(l, r) => And(Denote(l), Denote(r))
    case EOr(l, r) => Or(Denote(l), Denote(r))
  }

  predicate ValidAtoms(e: Expr) {
    match e
    case Atom(t) => ValidTerm(t)
    case ENot(x) => ValidAtoms(x)
    case EAnd(l, r) => ValidAtoms(l) && ValidAtoms(r)
    case EOr(l, r) => ValidAtoms(l) && ValidAtoms(r)
  }

  function Show(e: Expr): string {
    match e
    case Atom(t) => t
    case ENot(x) => "~" + Show(x)
    case EAnd(l, r) => "(" + Show(l) + "&" + Show(r) + ")"
    case EOr(l, r) => "(" + Show(l) + "|" + Show(r) + ")"
  }

  function ShowTokens(e: Expr): seq<Token> {
    match e
    case Atom(t) => [TTerm(t)]
    case ENot(x) => [TNot] + ShowTokens(x)
    case EAnd(l, r) => [TOpen] + ShowTokens(l) + [TAnd] + ShowTokens(r) + [TClose]
    case EOr(l, r) => [TOpen] + ShowTokens(l) + [TOr] + ShowTokens(r) + [TClose]
  }

  // ---------------------------------------------------------------------
  // Printing and parsing are inverse

  lemma {:induction false} TermLengthOf(t: string, rest: string)
    requires forall i | 0 <= i < |t| :: !IsOperator(t[i])
    requires rest == [] || IsOperator(rest[0])
    ensures TermLength(t + rest) == |t|
    decreases |t|
  {
    if t != [] {
      assert (t + rest)[1..] == t[1..] + rest;
      TermLengthOf(t[1..], rest);
    }
  }

  function OperatorToken(c: char): Token
    requires IsOperator(c)
  {
    if c == '&' then TAnd else if c == '|' then TOr else if c == '~' then TNot
    else if c == '(' then TOpen else TClose
  }

  lemma TokenizeOperator(c: char, s: string)
    requires IsOperator(c)
    ensures Tokenize([c] + s) == [OperatorToken(c)] + Tokenize(s)
  {
    assert ([c] + s)[1..] == s;
  }

  lemma TokenizeTerm(t: string, rest: string)
    requires ValidTerm(t)
    requires rest == [] || IsOperator(rest[0])
    ensures Tokenize(t + rest) == [TTerm(t)] + Tokenize(rest)
  {
    var s := t + rest;
    TermLengthOf(t, rest);
    assert s[..|t|] == t;
    assert s[|t|..] == rest;
    assert StripEnd(t) == t;
  }

  /** The text of an expression tokenizes to its token form, whatever
      operator text follows it. */
  lemma {:induction false} TokenizeShow(e: Expr, rest: string)
    requires ValidAtoms(e)
    requires rest == [] || IsOperator(rest[0])
    ensures Tokenize(Show(e) + rest) == ShowTokens(e) + Tokenize(rest)
    decreases e, 1
  {
    match e
    case Atom(t) =>
      TokenizeTerm(t, rest);
    case ENot(x) =>
      assert Show(e) + rest == ['~'] + (Show(x) + rest);
      TokenizeOperator('~', Show(x) + rest);
      TokenizeShow(x, rest);
    case EAnd(l, r) =>
      TokenizeInfix(e, l, '&', r, rest);
    case EOr(l, r) =>
      TokenizeInfix(e, l, '|', r, rest);
  }

  lemma {:induction false} TokenizeInfix(e: Expr, l: Expr, op: char, r: Expr, rest: string)
    requires e == EAnd(l, r) || e == EOr(l, r)
    requires ValidAtoms(l) && ValidAtoms(r)
    requires op == '&' || op == '|'
    requires rest == [] || IsOperator(rest[0])
    ensures Tokenize("(" + Show(l) + [op] + Show(r) + ")" + rest)
         == [TOpen] + ShowTokens(l) + [OperatorToken(op)] + ShowTokens(r) + [TClose] + Tokenize(rest)
    decreases e, 0
  {
    var tail := ")" + rest;
    var mid := [op] + (Show(r) + tail);
    Nest6("(", Show(l), [op], Show(r), ")", rest);
    TokenizeOperator('(', Show(l) + mid);
    TokenizeShow(l, mid);
    TokenizeOperator(op, Show(r) + tail);
    TokenizeShow(r, tail);
    TokenizeOperator(')', rest);
    Nest6([TOpen], ShowTokens(l), [OperatorToken(op)], ShowTokens(r), [TClose], Tokenize(rest));
  }

  lemma Nest5<X>(a: seq<X>, b: seq<X>, c: seq<X>, d: seq<X>, e: seq<X>)
    ensures a + b + c + d + e == a + (b + (c + (d + e)))
  {}

  lemma Nest6<X>(a: seq<X>, b: seq<X>, c: seq<X>, d: seq<X>, e: seq<X>, f: seq<X>)
    ensures a + b + c + d + e + f == a + (b + (c + (d + (e + f))))
  {}

  lemma ShowTokensStart(e: Expr)
    ensures |ShowTokens(e)| > 0 && ShowTokens(e)[0] != TClose
  {}

  // One step of each grammar rule.

  lemma NotStep(ts: seq<Token>, q: Q<string>, rest: seq<Token>)
    requires |ts| > 0 && ts[0] == TNot
    requires ParseUnary(ts[1..]) == Ok((q, rest))
    ensures ParseUnary(ts) == Ok((Not(q), rest))
  {}

  lemma ParenStep(ts: seq<Token>, q: Q<string>, rest: seq<Token>)
    requires |ts| > 1 && ts[0] == TOpen && ts[1] != TClose
    requires ParseOr(ts[1..]) == Ok((q, [TClose] + rest))
    ensures ParseUnary(ts) == Ok((q, rest))
  {
    assert ([TClose] + rest)[1..] == rest;
  }

  lemma AndFromUnary(ts: seq<Token>, q: Q<string>, rest: seq<Token>)
    requires ParseUnary(ts) == Ok((q, rest))
    ensures Wf(q) && ParseAnd(ts) == ParseAndRest(q, rest)
  {}

  lemma AndStep(acc: Q<string>, ts: seq<Token>, q: Q<string>, rest: seq<Token>)
    requires Wf(acc) && |ts| > 0 && ts[0] == TAnd
    requires ParseUnary(ts[1..]) == Ok((q, rest))
    ensures Wf(And(acc, q)) && ParseAndRest(acc, ts) == ParseAndRest(And(acc, q), rest)
  {}

  lemma AndStop(acc: Q<string>, ts: seq<Token>)
    requires Wf(acc) && (ts == [] || ts[0] != TAnd)
    ensures ParseAndRest(acc, ts) == Ok((acc, ts))
  {}

  lemma OrFromAnd(ts: seq<Token>, q: Q<string>, rest: seq<Token>)
    requires ParseAnd(ts) == Ok((q, rest))
    ensures Wf(q) && ParseOr(ts) == ParseOrRest(q, rest)
  {}

  lemma OrStep(acc: Q<string>, ts: seq<Token>, q: Q<string>, rest: seq<Token>)
    requires Wf(acc) && |ts| > 0 && ts[0] == TOr
    requires ParseAnd(ts[1..]) == Ok((q, rest))
    ensures Wf(Or(acc, q)) && ParseOrRest(acc, ts) == ParseOrRest(Or(acc, q), rest)
  {}

  lemma OrStop(acc: Q<string>, ts: seq<Token>)
    requires Wf(acc) && (ts == [] || ts[0] != TOr)
    ensures ParseOrRest(acc, ts) == Ok((acc, ts))
  {}

  /** Every expression's token form is one unary expression. */
  lemma {:induction false} ParseUnaryShow(e: Expr, rest: seq<Token>)
    ensures ParseUnary(ShowTokens(e) + rest) == Ok((Denote(e), rest))
    decreases e, 2
  {
    var ts := ShowTokens(e) + rest;
    match e
    case Atom(t) =>
      assert ts[1..] == rest;
    case ENot(x) =>
      assert ts[1..] == ShowTokens(x) + rest;
      ParseUnaryShow(x, rest);
      NotStep(ts, Denote(x), rest);
    case EAnd(l, r) =>
      ParenAndShow(l, r, rest);
    case EOr(l, r) =>
      ParenOrShow(l, r, rest);
  }

  lemma {:induction false} ParenAndShow(l: Expr, r: Expr, rest: seq<Token>)
    ensures ParseUnary(ShowTokens(EAnd(l, r)) + rest) == Ok((Denote(EAnd(l, r)), rest))
    decreases EAnd(l, r), 1
  {
    var ts := ShowTokens(EAnd(l, r)) + rest;
    var inner := ShowTokens(l) + ([TAnd] + (ShowTokens(r) + ([TClose] + rest)));
    Nest6([TOpen], ShowTokens(l), [TAnd], ShowTokens(r), [TClose], rest);
    assert ts == [TOpen] + inner;
    assert ts[1..] == inner;
    ShowTokensStart(l);
    assert ts[1] == ShowTokens(l)[0];
    AndInParens(l, r, rest);
    ParenStep(ts, And(Denote(l), Denote(r)), rest);
  }

  /** The inside of `(l & r)`, read up to the closing parenthesis. */
  lemma {:induction false} AndInParens(l: Expr, r: Expr, rest: seq<Token>)
    ensures ParseOr(ShowTokens(l) + ([TAnd] + (ShowTokens(r) + ([TClose] + rest))))
         == Ok((And(Denote(l), Denote(r)), [TClose] + rest))
    decreases EAnd(l, r), 0
  {
    var tail := [TClose] + rest;
    var mid := [TAnd] + (ShowTokens(r) + tail);
    var inner := ShowTokens(l) + mid;
    ShowTokensStart(l);
    ParseUnaryShow(l, mid);
    AndFromUnary(inner, Denote(l), mid);
    assert mid[1..] == ShowTokens(r) + tail;
    ParseUnaryShow(r, tail);
    AndStep(Denote(l), mid, Denote(r), tail);
    AndStop(And(Denote(l), Denote(r)), tail);
    OrFromAnd(inner, And(Denote(l), Denote(r)), tail);
    OrStop(And(Denote(l), Denote(r)), tail);
  }

  lemma {:induction false} ParenOrShow(l: Expr, r: Expr, rest: seq<Token>)
    ensures ParseUnary(ShowTokens(EOr(l, r)) + rest) == Ok((Denote(EOr(l, r)), rest))
    decreases EOr(l, r), 1
  {
    var ts := ShowTokens(EOr(l, r)) + rest;
    var inner := ShowTokens(l) + ([TOr] + (ShowTokens(r) + ([TClose] + rest)));
    Nest6([TOpen], ShowTokens(l), [TOr], ShowTokens(r), [TClose], rest);
    assert ts == [TOpen] + inner;
    assert ts[1..] == inner;
    ShowTokensStart(l);
    assert ts[1] == ShowTokens(l)[0];
    OrInParens(l, r, rest);
    ParenStep(ts, Or(Denote(l), Denote(r)), rest);
  }

  /** The inside of `(l | r)`, read up to the closing parenthesis. */
  lemma {:induction false} OrInParens(l: Expr, r: Expr, rest: seq<Token>)
    ensures ParseOr(ShowTokens(l) + ([TOr] + (ShowTokens(r) + ([TClose] + rest))))
         == Ok((Or(Denote(l), Denote(r)), [TClose] + rest))
    decreases EOr(l, r), 0
  {
    var tail := [TClose] + rest;
    var mid := [TOr] + (ShowTokens(r) + tail);
    var inner := ShowTokens(l) + mid;
    ShowTokensStart(l);
    ParseAndShow(l, mid);
    OrFromAnd(inner, Denote(l), mid);
    assert mid[1..] == ShowTokens(r) + tail;
    ParseAndShow(r, tail);
    OrStep(Denote(l), mid, Denote(r), tail);
    OrStop(Or(Denote(l), Denote(r)), tail);
  }

  /** An expression followed by anything but `&` is a whole conjunction. */
  lemma {:induction false} ParseAndShow(e: Expr, rest: seq<Token>)
    requires rest == [] || rest[0] != TAnd
    ensures ParseAnd(ShowTokens(e) + rest) == Ok((Denote(e), rest))
    decreases e, 3
  {
    ParseUnaryShow(e, rest);
    AndFromUnary(ShowTokens(e) + rest, Denote(e), rest);
    AndStop(Denote(e), rest);
  }

  /** An expression followed by neither `&` nor `|` is a whole disjunction. */
  lemma {:induction false} ParseOrShow(e: Expr, rest: seq<Token>)
    requires rest == [] || (rest[0] != TAnd && rest[0] != TOr)
    ensures ParseOr(ShowTokens(e) + rest) == Ok((Denote(e), rest))
  {
    ParseAndShow(e, rest);
    OrFromAnd(ShowTokens(e) + rest, Denote(e), rest);
    OrStop(Denote(e), rest);
  }

  /** `Q.parse` reads back the formula of any printed expression. */
  lemma ParseShow(e: Expr)
    requires ValidAtoms(e)
    ensures Parse(Show(e), false) == Ok(Denote(e))
  {
    TokenizeShow(e, []);
    assert Show(e) + [] == Show(e);
    assert ShowTokens(e) + [] == ShowTokens(e);
    ParseOrShow(e, []);
    ShowTokensStart(e);
    assert Show(e) != [] by { ShowNonEmpty(e); }
  }

  lemma ShowNonEmpty(e: Expr)
    requires ValidAtoms(e)
    ensures |Show(e)| > 0
  {}

  /** With `ext`, the same text written with `!`, `,` and `+` parses alike. */
  lemma ParseExtShow(e: Expr)
    requires ValidAtoms(e)
    requires forall i | 0 <= i < |Show(e)| :: Show(e)[i] !in "!,+"
    ensures Parse(Show(e), true) == Ok(Denote(e))
  {
    assert Extend(Show(e)) == Show(e);
    ParseShow(e);
  }

  // ---------------------------------------------------------------------
  // Precedence and edge cases

  /** `&` binds tighter than `|`: `a | b & c` is `a | (b & c)`. */
  lemma AndBindsTighter(a: Expr, b: Expr, c: Expr)
    ensures ParseTokens(ShowTokens(a) + [TOr] + ShowTokens(b) + [TAnd] + ShowTokens(c))
         == Ok(Or(Denote(a), And(Denote(b), Denote(c))))
  {
    var tail := [TAnd] + ShowTokens(c);
    var mid := [TOr] + (ShowTokens(b) + tail);
    var ts := ShowTokens(a) + mid;
    Nest5(ShowTokens(a), [TOr], ShowTokens(b), [TAnd], ShowTokens(c));
    ParseAndShow(a, mid);
    OrFromAnd(ts, Denote(a), mid);
    assert mid[1..] == ShowTokens(b) + tail;
    AndOfTwo(b, c);
    OrStep(Denote(a), mid, And(Denote(b), Denote(c)), []);
    OrStop(Or(Denote(a), And(Denote(b), Denote(c))), []);
  }

  lemma AndOfTwo(b: Expr, c: Expr)
    ensures ParseAnd(ShowTokens(b) + ([TAnd] + ShowTokens(c))) == Ok((And(Denote(b), Denote(c)), []))
  {
    var tail := [TAnd] + ShowTokens(c);
    ParseUnaryShow(b, tail);
    AndFromUnary(ShowTokens(b) + tail, Denote(b), tail);
    assert tail[1..] == ShowTokens(c) + [];
    ParseUnaryShow(c, []);
    AndStep(Denote(b), tail, Denote(c), []);
    AndStop(And(Denote(b), Denote(c)), []);
  }

  /** `|` groups to the left: `a | b | c` is `(a | b) | c`. */
  lemma OrGroupsLeft(a: Expr, b: Expr, c: Expr)
    ensures ParseTokens(ShowTokens(a) + [TOr] + ShowTokens(b) + [TOr] + ShowTokens(c))
         == Ok(Or(Or(Denote(a), Denote(b)), Denote(c)))
  {
    var tail := [TOr] + ShowTokens(c);
    var mid := [TOr] + (ShowTokens(b) + tail);
    var ts := ShowTokens(a) + mid;
    Nest5(ShowTokens(a), [TOr], ShowTokens(b), [TOr], ShowTokens(c));
    ParseAndShow(a, mid);
    OrFromAnd(ts, Denote(a), mid);
    OrTwoSteps(Denote(a), b, c);
    assert ParseOr(ts) == Ok((Or(Or(Denote(a), Denote(b)), Denote(c)), []));
  }

  lemma OrTwoSteps(acc: Q<string>, b: Expr, c: Expr)
    requires Wf(acc)
    ensures ParseOrRest(acc, [TOr] + (ShowTokens(b) + ([TOr] + ShowTokens(c))))
         == Ok((Or(Or(acc, Denote(b)), Denote(c)), []))
  {
    var tail := [TOr] + ShowTokens(c);
    var mid := [TOr] + (ShowTokens(b) + tail);
    assert mid[1..] == ShowTokens(b) + tail;
    ParseAndShow(b, tail);
    OrStep(acc, mid, Denote(b), tail);
    assert tail[1..] == ShowTokens(c) + [];
    ParseAndShow(c, []);
    OrStep(Or(acc, Denote(b)), tail, Denote(c), []);
    OrStop(Or(Or(acc, Denote(b)), Denote(c)), []);
  }

  /** `~` binds tighter than `&`: `~a & b` is `(~a) & b`. */
  lemma NotBindsTighter(a: Expr, b: Expr)
    ensures ParseTokens([TNot] + ShowTokens(a) + [TAnd] + ShowTokens(b))
         == Ok(And(Not(Denote(a)), Denote(b)))
  {
    var ts := ShowTokens(ENot(a)) + ([TAnd] + ShowTokens(b));
    assert ts == [TNot] + ShowTokens(a) + [TAnd] + ShowTokens(b);
    AndOfTwo(ENot(a), b);
    OrFromAnd(ts, And(Denote(ENot(a)), Denote(b)), []);
    OrStop(And(Denote(ENot(a)), Denote(b)), []);
  }

  /** Only the empty string is the empty formula: a string of white space
      leaves nothing for the evaluator and is rejected. */
  lemma BlankRejected(s: string, ext: bool)
    requires s != [] && forall i | 0 <= i < |s| :: IsSpace(s[i])
    ensures Parse(s, ext).Err?
  {
    var s' := if ext then Extend(s) else s;
    assert forall i | 0 <= i < |s'| :: IsSpace(s'[i]);
    BlankTokens(s');
  }

  lemma {:induction false} BlankTokens(s: string)
    requires forall i | 0 <= i < |s| :: IsSpace(s[i])
    ensures Tokenize(s) == []
  {
    if s != [] {
      BlankTokens(s[1..]);
    }
  }

  /** `()` is not a formula. */
  lemma EmptyParensRejected(ext: bool)
    ensures Parse("()", ext).Err?
  {
    assert Extend("()") == "()";
    TokenizeOperator(')', []);
    assert "()" == ['('] + ")";
    TokenizeOperator('(', ")");
    var ts := Tokenize("()");
    assert ts == [TOpen, TClose];
    assert ParseUnary(ts).Err?;
    assert ParseAnd(ts).Err?;
  }
}

=== FILE: funnel_cnf.dfy ===
/** `FDBCNF` of trpy/funneldb.py: compiling a formula into one pair of
    64-bit masks per clause, and the meaning the funnel engine gives such
    a pair. */
module FunnelCnf {
  import opened Results
  import opened Cnf
  import opened Masks

  /** `fdb_clause`: bit `i` of `terms` stands for a positive literal whose
      term maps to `i`, bit `i` of `nterms` for a negated one. */
  datatype MaskClause = MaskClause(terms: bv64, nterms: bv64)

  /** A compiled formula: the mask pair of each clause.  The source fills a
      C array in the iteration order of the clause set; keying the pairs by
      their clause keeps exactly one pair per clause without fixing that
      order. */
  type Compiled<T(==)> = map<Clause<T>, MaskClause>

  /** The engine's reading of a mask pair for an entity mask `m`: some
      positive bit is set in `m`, or some negated bit is clear in `m`. */
  predicate MaskSat(mc: MaskClause, m: bv64) {
    (m & mc.terms) != 0 || (!m & mc.nterms) != 0
  }

  predicate CompiledSat<T(==)>(r: Compiled<T>, m: bv64) {
    forall c | c in r :: MaskSat(r[c], m)
  }

  /** The indices the literals of `c` with polarity `negated` map to. */
  function Indices<T(==)>(c: Clause<T>, mapping: T -> Option<int>, negated: bool): set<int> {
    set l | l in c.literals && l.negated == negated && mapping(l.term).Some? :: mapping(l.term).value
  }

  function ClauseMask<T(==)>(c: Clause<T>, mapping: T -> Option<int>): (mc: MaskClause)
    ensures forall j | 0 <= j < Width :: Bit(mc.terms, j) <==> j in Indices(c, mapping, false)
    ensures forall j | 0 <= j < Width :: Bit(mc.nterms, j) <==> j in Indices(c, mapping, true)
  {
    MaskClause(MaskOf(Indices(c, mapping, false)), MaskOf(Indices(c, mapping, true)))
  }

  /** Some literal of `q` has a term the mapping rejects. */
  predicate SomeUnmapped<T(==)>(q: Q<T>, mapping: T -> Option<int>) {
    exists c, l | c in q.clauses && l in c.literals :: mapping(l.term).None?
  }

  /** Some literal of `q` maps outside `lo .. hi`. */
  predicate SomeOutside<T(==)>(q: Q<T>, mapping: T -> Option<int>, lo: int, hi: int) {
    exists c, l | c in q.clauses && l in c.literals ::
      mapping(l.term).Some? && !(lo <= mapping(l.term).value <= hi)
  }

  /** `FDBCNF(q, mapping)`.  A term the mapping rejects raises what the
      mapping raises (KeyError for `mask_val`); an index above 64 is
      ValueError by the explicit guard, and so is a negative one (a
      negative shift count); index 64 passes the guard, but `1 << 64` does
      not fit the `uint64_t` mask and the store raises OverflowError.
      Which of several failing literals raises first follows the clause
      set's iteration order; the model checks the kinds in the order
      KeyError, ValueError, OverflowError. */
  function Compile<T(==)>(q: Q<T>, mapping: T -> Option<int>): (r: Result<Compiled<T>>)
    ensures r.Ok? ==> r.value.Keys == q.clauses
    ensures r.Ok? <==> !SomeUnmapped(q, mapping) && !SomeOutside(q, mapping, 0, Width - 1)
  {
    if SomeUnmapped(q, mapping) then Err(KeyError)
    else if SomeOutside(q, mapping, 0, Width) then Err(ValueError)
    else if SomeOutside(q, mapping, 0, Width - 1) then Err(OverflowError)
    else Ok(map c | c in q.clauses :: ClauseMask(c, mapping))
  }

  /** The truth of a term for an entity mask: the bit its index names. */
  predicate Assigned<T>(mapping: T -> Option<int>, m: bv64, t: T) {
    mapping(t).Some? && 0 <= mapping(t).value < Width && Bit(m, mapping(t).value)
  }

  /** The identity mapping of integer terms (the default `lambda t: t`). */
  function Identity(t: int): Option<int> {
    Some(t)
  }

  // ---------------------------------------------------------------------
  // Correctness of the compilation

  /** Every literal of `c` maps to a bit of a 64-bit mask. */
  predicate InRange<T(==)>(c: Clause<T>, mapping: T -> Option<int>) {
    forall l | l in c.literals :: mapping(l.term).Some? && 0 <= mapping(l.term).value < Width
  }

  lemma PositiveSat<T>(c: Clause<T>, mapping: T -> Option<int>, m: bv64)
    requires InRange(c, mapping)
    ensures (m & ClauseMask(c, mapping).terms) != 0 <==>
              exists l | l in c.literals :: !l.negated && Holds(l, t => Assigned(mapping, m, t))
  {
    var terms := ClauseMask(c, mapping).terms;
    MeetNonZero(m, terms);
    if (m & terms) != 0 {
      var j :| 0 <= j < Width && Bit(m, j) && Bit(terms, j);
      PositiveWitness(c, mapping, m, j);
    } else {
      forall l | l in c.literals && !l.negated
        ensures !Holds(l, t => Assigned(mapping, m, t))
      {
        if Holds(l, t => Assigned(mapping, m, t)) {
          PositiveBit(c, mapping, m, l);
        }
      }
    }
  }

  lemma PositiveWitness<T>(c: Clause<T>, mapping: T -> Option<int>, m: bv64, j: nat)
    requires InRange(c, mapping) && j < Width
    requires Bit(m, j) && Bit(ClauseMask(c, mapping).terms, j)
    ensures exists l | l in c.literals :: !l.negated && Holds(l, t => Assigned(mapping, m, t))
  {
    var l :| l in c.literals && !l.negated && mapping(l.term).Some? && mapping(l.term).value == j;
    assert Holds(l, t => Assigned(mapping, m, t));
  }

  lemma PositiveBit<T>(c: Clause<T>, mapping: T -> Option<int>, m: bv64, l: Literal<T>)
    requires InRange(c, mapping) && l in c.literals && !l.negated
    requires Holds(l, t => Assigned(mapping, m, t))
    ensures 0 <= mapping(l.term).value < Width
    ensures Bit(m, mapping(l.term).value) && Bit(ClauseMask(c, mapping).terms, mapping(l.term).value)
  {
    var j := mapping(l.term).value;
    assert j in Indices(c, mapping, false);
  }

  lemma NegativeSat<T>(c: Clause<T>, mapping: T -> Option<int>, m: bv64)
    requires InRange(c, mapping)
    ensures (!m & ClauseMask(c, mapping).nterms) != 0 <==>
              exists l | l in c.literals :: l.negated && Holds(l, t => Assigned(mapping, m, t))
  {
    var nm := !m;
    var nterms := ClauseMask(c, mapping).nterms;
    var meet := nm & nterms;
    MeetNonZero(nm, nterms);
    if meet != 0 {
      var j :| 0 <= j < Width && Bit(nm, j) && Bit(nterms, j);
      NegativeWitness(c, mapping, m, j);
    } else {
      NoNegativeHolds(c, mapping, m);
    }
  }

  lemma NoNegativeHolds<T>(c: Clause<T>, mapping: T -> Option<int>, m: bv64)
    requires InRange(c, mapping)
    requires forall j | 0 <= j < Width :: !(Bit(!m, j) && Bit(ClauseMask(c, mapping).nterms, j))
    ensures forall l | l in c.literals && l.negated :: !Holds(l, t => Assigned(mapping, m, t))
  {
    forall l | l in c.literals && l.negated
      ensures !Holds(l, t => Assigned(mapping, m, t))
    {
      if Holds(l, t => Assigned(mapping, m, t)) {
        NegativeBit(c, mapping, m, l);
      }
    }
  }

  lemma NegativeWitness<T>(c: Clause<T>, mapping: T -> Option<int>, m: bv64, j: nat)
    requires InRange(c, mapping) && j < Width
    requires Bit(!m, j) && Bit(ClauseMask(c, mapping).nterms, j)
    ensures exists l | l in c.literals :: l.negated && Holds(l, t => Assigned(mapping, m, t))
  {
    ComplementBit(m, j);
    var l :| l in c.literals && l.negated && mapping(l.term).Some? && mapping(l.term).value == j;
    assert Holds(l, t => Assigned(mapping, m, t));
  }

  lemma NegativeBit<T>(c: Clause<T>, mapping: T -> Option<int>, m: bv64, l: Literal<T>)
    requires InRange(c, mapping) && l in c.literals && l.negated
    requires Holds(l, t => Assigned(mapping, m, t))
    ensures 0 <= mapping(l.term).value < Width
    ensures Bit(!m, mapping(l.term).value) && Bit(ClauseMask(c, mapping).nterms, mapping(l.term).value)
  {
    var j := mapping(l.term).value;
    assert j in Indices(c, mapping, true);
    ComplementBit(m, j);
  }

  /** A clause's mask pair is satisfied by an entity mask exactly when the
      clause holds with every term read as the mask bit it maps to. */
  lemma ClauseMaskSat<T>(c: Clause<T>, mapping: T -> Option<int>, m: bv64)
    requires InRange(c, mapping)
    ensures MaskSat(ClauseMask(c, mapping), m) <==> EvalClause(c, t => Assigned(mapping, m, t))
  {
    PositiveSat(c, mapping, m);
    NegativeSat(c, mapping, m);
  }

  /** The engine accepts an entity mask exactly when the compiled formula
      holds under the assignment that mask gives to the terms. */
  lemma CompileSat<T>(q: Q<T>, mapping: T -> Option<int>, m: bv64)
    requires Compile(q, mapping).Ok?
    ensures CompiledSat(Compile(q, mapping).value, m) <==> Eval(q, t => Assigned(mapping, m, t))
  {
    var r := Compile(q, mapping).value;
    forall c | c in q.clauses
      ensures MaskSat(r[c], m) <==> EvalClause(c, t => Assigned(mapping, m, t))
    {
      assert InRange(c, mapping);
      ClauseMaskSat(c, mapping, m);
    }
  }

  /** Bit `j` of a compiled pair is set exactly when a literal of that
      polarity maps to `j`. */
  lemma CompileBits<T>(q: Q<T>, mapping: T -> Option<int>, c: Clause<T>, j: nat)
    requires Compile(q, mapping).Ok? && c in q.clauses && j < Width
    ensures Bit(Compile(q, mapping).value[c].terms, j) <==>
              exists l | l in c.literals :: !l.negated && mapping(l.term) == Some(j)
    ensures Bit(Compile(q, mapping).value[c].nterms, j) <==>
              exists l | l in c.literals :: l.negated && mapping(l.term) == Some(j)
  {
    var mc := Compile(q, mapping).value[c];
    assert mc == ClauseMask(c, mapping);
    if exists l | l in c.literals :: !l.negated && mapping(l.term) == Some(j) {
      var l :| l in c.literals && !l.negated && mapping(l.term) == Some(j);
      assert j in Indices(c, mapping, false);
    }
    if exists l | l in c.literals :: l.negated && mapping(l.term) == Some(j) {
      var l :| l in c.literals && l.negated && mapping(l.term) == Some(j);
      assert j in Indices(c, mapping, true);
    }
  }

  // ---------------------------------------------------------------------
  // Capacity

  /** With integer terms mapped to themselves, a formula compiles exactly
      when every term is a bit index `0 .. 63`. */
  lemma IdentityCapacity(q: Q<int>)
    ensures Compile(q, Identity).Ok? <==> forall t | t in Terms(q) :: 0 <= t < Width
  {
    if !Compile(q, Identity).Ok? {
      var c, l :| c in q.clauses && l in c.literals && !(0 <= l.term < Width);
      assert l.term in Terms(q);
    }
  }

  /** Term 64 passes the explicit guard but overflows the mask. */
  lemma IdentityIndex64(q: Q<int>)
    requires 64 in Terms(q)
    requires forall t | t in Terms(q) :: 0 <= t <= 64
    ensures Compile(q, Identity) == Err(OverflowError)
  {
    var c, l :| c in q.clauses && l in c.literals && l.term == 64;
    assert !SomeOutside(q, Identity, 0, Width) by {
      forall c', l' | c' in q.clauses && l' in c'.literals ensures 0 <= l'.term <= 64 {
        assert l'.term in Terms(q);
      }
    }
  }

  /** A term above 64 is rejected by the explicit guard. */
  lemma IdentityAbove64(q: Q<int>, t: int)
    requires t in Terms(q) && t > 64
    ensures Compile(q, Identity) == Err(ValueError)
  {
    var c, l :| c in q.clauses && l in c.literals && l.term == t;
  }
}

=== FILE: funnel_db.dfy ===
/** Funnel addressing of trpy/funneldb.py: the `FDB` object over the
    parameters the engine keeps, `funnel_id` for a key given as a
    dictionary or as `name=value,...` text, and the keys `FDB.keys` lists. */
module FunnelDb {
  import opened Results
  import opened TrailDb
  import opened FunnelKeys

  /** An open funnel database as the wrapper sees it: the trail store, the
      number of funnels, the `fdb_ez` parameters and the `key_offs` the
      engine computed for them. */
  datatype Fdb = Fdb(tdb: Tdb, numFunnels: int, params: Params, keyOffs: seq<int>)

  /** Both `fdb_ez` arrays have `FDB_EZ_MAX` slots; the key fields and
      the mask field are `tdb_field` values, and `FDB.__init__` reads the
      mask field's name from the field list (`tdb.fields[mask_field]`). */
  predicate Valid(db: Fdb) {
    && |db.params.keyFields| == EzMax && |db.keyOffs| == EzMax
    && (forall k | 0 <= k < EzMax :: 0 <= db.params.keyFields[k] < FieldLimit)
    && 0 <= db.params.maskField < |db.tdb.fields| && db.params.maskField < FieldLimit
  }

  /** `FDB.keymap`: the decoded groups; `dict` keeps the last start of
      each field tuple, which `KeyIndex` looks up. */
  function Groups(db: Fdb): seq<KeyGroup> {
    KeyMap(db.params.numKeys, db.params.keyFields)
  }

  /** A key as `dict.items()` lists it: fields and the value of each. */
  type Key = seq<(Fieldish, string)>

  predicate NoDup(xs: seq<int>) {
    forall i, j | 0 <= i < j < |xs| :: xs[i] != xs[j]
  }

  /** The elements of `xs`, each once, in order of first appearance. */
  function Distinct(xs: seq<int>): (r: seq<int>)
    ensures NoDup(r)
    ensures forall x :: x in r <==> x in xs
  {
    if xs == [] then []
    else
      var init := Distinct(xs[..|xs| - 1]);
      var last := xs[|xs| - 1];
      assert xs == xs[..|xs| - 1] + [last];
      if last in init then init else init + [last]
  }

  /** `tdb.field(k)` of every key, in order. */
  function KeyFieldIds(fields: seq<string>, key: Key): (r: Result<seq<int>>)
    ensures r.Ok? <==> forall k | 0 <= k < |key| :: FieldOf(fields, key[k].0).Ok?
    ensures r.Ok? ==> |r.value| == |key|
    ensures r.Ok? ==> forall k | 0 <= k < |key| :: r.value[k] == FieldOf(fields, key[k].0).value
    ensures r.Err? ==> r.error == KeyError
  {
    if key == [] then Ok([])
    else
      var f :- FieldOf(fields, key[0].0);
      var rest :- KeyFieldIds(fields, key[1..]);
      assert forall k | 1 <= k < |key| :: key[k] == key[1..][k - 1];
      Ok([f] + rest)
  }

  /** `which`: field id to value, a later key of the same field replacing
      an earlier one, as building a `dict` does (`WhichValue`). */
  function Which(ids: seq<int>, key: Key): (m: map<int, string>)
    requires |ids| == |key|
    ensures forall f :: f in m <==> f in ids
  {
    if ids == [] then map[]
    else
      var n := |ids| - 1;
      assert ids == ids[..n] + [ids[n]];
      Which(ids[..n], key[..n])[ids[n] := key[n].1]
  }

  /** The value `which` keeps for a field is that of its last key. */
  lemma {:induction false} WhichValue(ids: seq<int>, key: Key, k: nat)
    requires |ids| == |key| && k < |ids|
    requires forall h | k < h < |ids| :: ids[h] != ids[k]
    ensures Which(ids, key)[ids[k]] == key[k].1
    decreases |ids|
  {
    var n := |ids| - 1;
    if k < n {
      assert ids[..n][k] == ids[k];
      assert forall h | k < h < n :: ids[..n][h] == ids[h];
      WhichValue(ids[..n], key[..n], k);
      assert key[..n][k] == key[k];
    }
  }

  /** `sorted(which)`: the key's distinct field ids in ascending order. */
  function SortedKey(ids: seq<int>): seq<int> {
    Sort(Distinct(ids))
  }

  /** A registered group starts where its run of `key_fields` starts. */
  lemma RegisteredRun(db: Fdb, key: seq<int>)
    requires KeyIndex(Groups(db), key).Some?
    ensures ClosedRun(db.params.keyFields, KeyGroup(key, KeyIndex(Groups(db), key).value))
  {
    var gs := Groups(db);
    var g :| 0 <= g < |gs| && gs[g].fields == key && gs[g].start == KeyIndex(gs, key).value;
    KeyMapDecodes(db.params.numKeys, db.params.keyFields, g);
  }

  /** The loop of `funnel_id`: from slot `k` up to the first zero, each
      slot's field contributes `lexicon_val(f, which[f]) * O[k]`; a field
      missing from `which` is a KeyError, and so is a value its lexicon
      does not hold -- except that a field past the field list fails
      naming itself for that message (IndexError). */
  function Digits(db: Fdb, which: map<int, string>, k: nat): (r: Result<int>)
    requires Valid(db) && k <= EzMax
    ensures r.Err? ==> r.error == KeyError || r.error == IndexError
    ensures r == Err(IndexError) ==>
              exists j | k <= j < EzMax :: db.params.keyFields[j] >= |db.tdb.fields|
    decreases EzMax - k
  {
    if k == EzMax then Ok(0)
    else
      var f := db.params.keyFields[k];
      if f == 0 then Ok(0)
      else if f !in which then Err(KeyError)
      else
        var v :- LexiconVal(db.tdb.fields, ByIndex(f), which[f], db.tdb.getItem);
        var rest :- Digits(db, which, k + 1);
        Ok(v as int * db.keyOffs[k] + rest)
  }

  /** `FDB.funnel_id` for a dictionary key: the base offset of the key's
      group plus each field's value id times that field's multiplier. */
  function FunnelIdDict(db: Fdb, key: Key): (r: Result<int>)
    requires Valid(db)
    ensures KeyFieldIds(db.tdb.fields, key).Err? ==> r == Err(KeyError)
    ensures KeyFieldIds(db.tdb.fields, key).Ok? &&
            KeyIndex(Groups(db), SortedKey(KeyFieldIds(db.tdb.fields, key).value)).None? ==>
              r == Err(KeyError)
    ensures r.Err? ==> r.error == KeyError || r.error == IndexError
  {
    var ids :- KeyFieldIds(db.tdb.fields, key);
    Address(db, SortedKey(ids), Which(ids, key))
  }

  /** The id of the funnel of the group `sk` for the values in `which`. */
  function Address(db: Fdb, sk: seq<int>, which: map<int, string>): (r: Result<int>)
    requires Valid(db)
    ensures KeyIndex(Groups(db), sk).None? ==> r == Err(KeyError)
    ensures r.Err? ==> r.error == KeyError || r.error == IndexError
  {
    match KeyIndex(Groups(db), sk)
    case None => Err(KeyError)
    case Some(index) =>
      RegisteredRun(db, sk);
      var base := if index > 0 then db.keyOffs[index - 1] else 0;
      var sum :- Digits(db, which, index);
      Ok(base + sum)
  }

  /** Which keys hold a value their field's lexicon knows. */
  predicate KnownValue(db: Fdb, which: map<int, string>, f: int)
    requires f in which
  {
    LexiconVal(db.tdb.fields, ByIndex(f), which[f], db.tdb.getItem).Ok?
  }

  /** Over a zero-free run closed by a zero at `end`, the loop succeeds
      exactly when every field of the run has a known value in `which`. */
  lemma {:induction false} DigitsOk(db: Fdb, which: map<int, string>, k: nat, end: nat)
    requires Valid(db) && k <= end < EzMax
    requires db.params.keyFields[end] == 0
    requires forall j | k <= j < end :: db.params.keyFields[j] != 0
    ensures Digits(db, which, k).Ok? <==>
              forall j | k <= j < end ::
                db.params.keyFields[j] in which && KnownValue(db, which, db.params.keyFields[j])
    decreases end - k
  {
    if k < end {
      DigitsOk(db, which, k + 1, end);
    }
  }

  lemma NoDupCount(xs: seq<int>, x: int)
    requires NoDup(xs)
    ensures multiset(xs)[x] == if x in xs then 1 else 0
  {
    if xs != [] {
      assert xs == [xs[0]] + xs[1..];
      assert NoDup(xs[1..]);
      NoDupCount(xs[1..], x);
    }
  }

  /** `sorted(which)` depends on the set of fields alone. */
  lemma SortedKeyOfSet(a: seq<int>, b: seq<int>)
    requires forall x :: x in a <==> x in b
    ensures SortedKey(a) == SortedKey(b)
  {
    var da, db := Distinct(a), Distinct(b);
    forall x ensures multiset(da)[x] == multiset(db)[x] {
      NoDupCount(da, x);
      NoDupCount(db, x);
    }
    assert multiset(da) == multiset(db);
    SortOrderFree(da, db);
  }

  /** The fields of `sorted(which)` are the fields of the key. */
  lemma SortedKeyElems(ids: seq<int>)
    ensures forall x :: x in SortedKey(ids) <==> x in ids
  {
    SortSorted(Distinct(ids));
    forall x ensures x in SortedKey(ids) <==> x in ids {
      assert x in SortedKey(ids) <==> x in multiset(SortedKey(ids));
      assert x in Distinct(ids) <==> x in multiset(Distinct(ids));
    }
  }

  /** `funnel_id` reads the dictionary, never the order of its items: two
      keys that name the same fields with the same values get the same
      answer. */
  lemma FunnelIdOfWhich(db: Fdb, key1: Key, key2: Key)
    requires Valid(db)
    requires KeyFieldIds(db.tdb.fields, key1).Ok? && KeyFieldIds(db.tdb.fields, key2).Ok?
    requires Which(KeyFieldIds(db.tdb.fields, key1).value, key1) ==
             Which(KeyFieldIds(db.tdb.fields, key2).value, key2)
    ensures FunnelIdDict(db, key1) == FunnelIdDict(db, key2)
  {
    var ids1 := KeyFieldIds(db.tdb.fields, key1).value;
    var ids2 := KeyFieldIds(db.tdb.fields, key2).value;
    assert forall x :: x in ids1 <==> x in Which(ids1, key1);
    SortedKeyOfSet(ids1, ids2);
    assert FunnelIdDict(db, key1) == Address(db, SortedKey(ids1), Which(ids1, key1));
    assert FunnelIdDict(db, key2) == Address(db, SortedKey(ids2), Which(ids2, key2));
  }

  /** The slots of a closed run hold exactly the fields of its group. */
  lemma RunFields(f: seq<int>, g: KeyGroup)
    requires ClosedRun(f, g)
    ensures forall j | g.start <= j < g.start + |g.fields| :: f[j] in g.fields
    ensures forall x | x in g.fields :: exists j | g.start <= j < g.start + |g.fields| :: f[j] == x
  {
    RunSlotsIn(f, g);
    RunHoldsAll(f, g);
  }

  lemma RunSlotsIn(f: seq<int>, g: KeyGroup)
    requires ClosedRun(f, g)
    ensures forall j | g.start <= j < g.start + |g.fields| :: f[j] in g.fields
  {
    var end := g.start + |g.fields|;
    var run := f[g.start .. end];
    forall j | g.start <= j < end ensures f[j] in g.fields {
      assert f[j] == run[j - g.start];
      assert f[j] in multiset(run);
    }
  }

  lemma RunHoldsAll(f: seq<int>, g: KeyGroup)
    requires ClosedRun(f, g)
    ensures forall x | x in g.fields :: exists j | g.start <= j < g.start + |g.fields| :: f[j] == x
  {
    var end := g.start + |g.fields|;
    var run := f[g.start .. end];
    forall x | x in g.fields ensures exists j | g.start <= j < end :: f[j] == x {
      assert x in multiset(g.fields);
      var i :| 0 <= i < |run| && run[i] == x;
      assert f[g.start + i] == x;
    }
  }

  /** For a registered group whose fields are those of `which`, the
      address exists exactly when every value is known. */
  lemma AddressKnownValues(db: Fdb, sk: seq<int>, which: map<int, string>)
    requires Valid(db) && KeyIndex(Groups(db), sk).Some?
    requires forall x :: x in sk <==> x in which
    ensures Address(db, sk, which).Ok? <==> forall f | f in which :: KnownValue(db, which, f)
  {
    var index := KeyIndex(Groups(db), sk).value;
    RegisteredRun(db, sk);
    RunFields(db.params.keyFields, KeyGroup(sk, index));
    DigitsOk(db, which, index, index + |sk|);
  }

  /** For a key whose field set is a registered group, `funnel_id`
      succeeds exactly when every value is in its field's lexicon. */
  lemma FunnelIdKnownValues(db: Fdb, key: Key)
    requires Valid(db) && KeyFieldIds(db.tdb.fields, key).Ok?
    requires KeyIndex(Groups(db), SortedKey(KeyFieldIds(db.tdb.fields, key).value)).Some?
    ensures var which := Which(KeyFieldIds(db.tdb.fields, key).value, key);
            FunnelIdDict(db, key).Ok? <==> forall f | f in which :: KnownValue(db, which, f)
  {
    var ids := KeyFieldIds(db.tdb.fields, key).value;
    SortedKeyElems(ids);
    assert FunnelIdDict(db, key) == Address(db, SortedKey(ids), Which(ids, key));
    AddressKnownValues(db, SortedKey(ids), Which(ids, key));
  }

  /** The value id of field `f`'s value in `which`, when it is known. */
  function ValueId(db: Fdb, which: map<int, string>, f: int): int
    requires f in which && KnownValue(db, which, f)
  {
    LexiconVal(db.tdb.fields, ByIndex(f), which[f], db.tdb.getItem).value as int
  }

  /** The sum over the `n` slots from `index`: each slot's field's value
      id times the slot's multiplier `key_offs[index + i]`. */
  function OffsetSum(db: Fdb, which: map<int, string>, index: nat, n: nat): int
    requires Valid(db) && index + n <= EzMax
    requires forall j | index <= j < index + n ::
               db.params.keyFields[j] in which && KnownValue(db, which, db.params.keyFields[j])
    decreases n
  {
    if n == 0 then 0
    else ValueId(db, which, db.params.keyFields[index]) * db.keyOffs[index]
         + OffsetSum(db, which, index + 1, n - 1)
  }

  /** Over a run closed by a zero at `end` whose values are all known,
      the loop adds up exactly the run's slots. */
  lemma {:induction false} DigitsSum(db: Fdb, which: map<int, string>, k: nat, end: nat)
    requires Valid(db) && k <= end < EzMax
    requires db.params.keyFields[end] == 0
    requires forall j | k <= j < end ::
               && db.params.keyFields[j] != 0 && db.params.keyFields[j] in which
               && KnownValue(db, which, db.params.keyFields[j])
    ensures Digits(db, which, k) == Ok(OffsetSum(db, which, k, end - k))
    decreases end - k
  {
    if k < end {
      DigitsSum(db, which, k + 1, end);
    }
  }

  /** `id` is the address of group `sk` for the values in `which`: the
      end of the previous groups' ids (`key_offs[index - 1]`, 0 for the
      first group) plus the weighted sum of the value ids over the
      group's run. */
  predicate AddsUp(db: Fdb, sk: seq<int>, which: map<int, string>, id: int)
    requires Valid(db)
  {
    && KeyIndex(Groups(db), sk).Some?
    && var index := KeyIndex(Groups(db), sk).value;
    && 0 <= index && index + |sk| <= EzMax
    && (forall j | index <= j < index + |sk| ::
          db.params.keyFields[j] in which && KnownValue(db, which, db.params.keyFields[j]))
    && id == (if index > 0 then db.keyOffs[index - 1] else 0) + OffsetSum(db, which, index, |sk|)
  }

  /** The address of a registered group whose fields are those of
      `which`, all with known values, is that sum. */
  lemma AddressValue(db: Fdb, sk: seq<int>, which: map<int, string>)
    requires Valid(db) && KeyIndex(Groups(db), sk).Some?
    requires forall x :: x in sk <==> x in which
    requires forall f | f in which :: KnownValue(db, which, f)
    ensures Address(db, sk, which).Ok? && AddsUp(db, sk, which, Address(db, sk, which).value)
  {
    var index := KeyIndex(Groups(db), sk).value;
    RegisteredRun(db, sk);
    RunSlotsIn(db.params.keyFields, KeyGroup(sk, index));
    DigitsSum(db, which, index, index + |sk|);
  }

  /** `funnel_id` of a dictionary key whose field set is a registered
      group and whose values are all known is that group's sum. */
  lemma FunnelIdValue(db: Fdb, key: Key)
    requires Valid(db) && KeyFieldIds(db.tdb.fields, key).Ok?
    requires KeyIndex(Groups(db), SortedKey(KeyFieldIds(db.tdb.fields, key).value)).Some?
    requires var which := Which(KeyFieldIds(db.tdb.fields, key).value, key);
             forall f | f in which :: KnownValue(db, which, f)
    ensures var ids := KeyFieldIds(db.tdb.fields, key).value;
            FunnelIdDict(db, key).Ok? &&
            AddsUp(db, SortedKey(ids), Which(ids, key), FunnelIdDict(db, key).value)
  {
    var ids := KeyFieldIds(db.tdb.fields, key).value;
    SortedKeyElems(ids);
    assert FunnelIdDict(db, key) == Address(db, SortedKey(ids), Which(ids, key));
    AddressValue(db, SortedKey(ids), Which(ids, key));
  }

  // ---------------------------------------------------------------------
  // Keys as text

  /** `str.join`: the pieces with `c` between each two. */
  function JoinWith(xs: seq<string>, c: char): (s: string)
    decreases |xs|
  {
    if xs == [] then ""
    else if |xs| == 1 then xs[0]
    else xs[0] + [c] + JoinWith(xs[1..], c)
  }

  /** `str.split(c)`: the maximal pieces between occurrences of `c`,
      always at least one. */
  function Split(s: string, c: char): (r: seq<string>)
    ensures |r| > 0
    ensures forall k | 0 <= k < |r| :: c !in r[k]
    ensures JoinWith(r, c) == s
    decreases |s|
  {
    if s == [] then [""]
    else
      var rest := Split(s[1..], c);
      if s[0] == c then
        assert s == [c] + s[1..];
        [""] + rest
      else
        var r := [[s[0]] + rest[0]] + rest[1..];
        assert r[1..] == rest[1..];
        assert s == [s[0]] + s[1..];
        r
  }

  /** Splitting what was joined from pieces free of `c` gives the pieces back. */
  lemma {:induction false} SplitJoin(xs: seq<string>, c: char)
    requires |xs| > 0 && forall k | 0 <= k < |xs| :: c !in xs[k]
    ensures Split(JoinWith(xs, c), c) == xs
    decreases |xs|
  {
    if |xs| == 1 {
      SplitFree(xs[0], c);
    } else {
      SplitJoin(xs[1..], c);
      SplitAfter(xs[0], c, JoinWith(xs[1..], c));
    }
  }

  lemma {:induction false} SplitFree(s: string, c: char)
    requires c !in s
    ensures Split(s, c) == [s]
    decreases |s|
  {
    if s != [] {
      SplitFree(s[1..], c);
      assert s == [s[0]] + s[1..];
    }
  }

  lemma {:induction false} SplitAfter(a: string, c: char, b: string)
    requires c !in a
    ensures Split(a + [c] + b, c) == [a] + Split(b, c)
    decreases |a|
  {
    if a == [] {
      assert a + [c] + b == [c] + b;
      assert ([c] + b)[1..] == b;
    } else {
      assert (a + [c] + b)[1..] == a[1..] + [c] + b;
      SplitAfter(a[1..], c, b);
      assert [a[0]] + a[1..] == a;
    }
  }

  /** The non-empty pieces (`if i`). */
  function NonEmpty(xs: seq<string>): (r: seq<string>)
    ensures forall k | 0 <= k < |r| :: r[k] != "" && r[k] in xs
    ensures (forall k | 0 <= k < |xs| :: xs[k] != "") ==> r == xs
  {
    if xs == [] then []
    else if xs[0] == "" then NonEmpty(xs[1..])
    else
      assert xs == [xs[0]] + xs[1..];
      [xs[0]] + NonEmpty(xs[1..])
  }

  /** One `name=value` piece, split on `=` and unquoted; anything but
      exactly two parts makes `dict` raise ValueError. */
  function ParsePair(piece: string, unquote: string -> string): (r: Result<(string, string)>)
    ensures r.Ok? <==> |Split(piece, '=')| == 2
    ensures r.Ok? ==> r.value == (unquote(Split(piece, '=')[0]), unquote(Split(piece, '=')[1]))
    ensures r.Err? ==> r.error == ValueError
  {
    var parts := Split(piece, '=');
    if |parts| != 2 then Err(ValueError) else Ok((unquote(parts[0]), unquote(parts[1])))
  }

  function ParsePairs(pieces: seq<string>, unquote: string -> string): (r: Result<seq<(string, string)>>)
    ensures r.Ok? <==> forall k | 0 <= k < |pieces| :: ParsePair(pieces[k], unquote).Ok?
    ensures r.Ok? ==> |r.value| == |pieces|
    ensures r.Ok? ==> forall k | 0 <= k < |pieces| :: r.value[k] == ParsePair(pieces[k], unquote).value
    ensures r.Err? ==> r.error == ValueError
  {
    if pieces == [] then Ok([])
    else
      var p :- ParsePair(pieces[0], unquote);
      var rest :- ParsePairs(pieces[1..], unquote);
      assert forall k | 1 <= k < |pieces| :: pieces[k] == pieces[1..][k - 1];
      Ok([p] + rest)
  }

  /** The text form of a key read by `funnel_id`: pieces separated by `,`,
      empty ones skipped, each `name=value` with both parts unquoted. */
  function ParseKey(s: string, unquote: string -> string): (r: Result<seq<(string, string)>>)
    ensures r.Err? ==> r.error == ValueError
  {
    ParsePairs(NonEmpty(Split(s, ',')), unquote)
  }

  /** The text form `keys(serialize=True)` writes for already quoted pairs. */
  function KeyLine(pairs: seq<(string, string)>): string {
    JoinWith(seq(|pairs|, i requires 0 <= i < |pairs| => pairs[i].0 + "=" + pairs[i].1), ',')
  }

  /** Parts a key line can carry: no `,` and no `=`, as after `quote_plus`. */
  predicate Plain(s: string) {
    ',' !in s && '=' !in s
  }

  /** Reading back a key line whose parts are plain gives its pairs,
      unquoted. */
  lemma KeyLineRoundTrip(pairs: seq<(string, string)>, unquote: string -> string)
    requires forall k | 0 <= k < |pairs| :: Plain(pairs[k].0) && Plain(pairs[k].1)
    ensures ParseKey(KeyLine(pairs), unquote) ==
            Ok(seq(|pairs|, i requires 0 <= i < |pairs| => (unquote(pairs[i].0), unquote(pairs[i].1))))
  {
    var pieces := seq(|pairs|, i requires 0 <= i < |pairs| => pairs[i].0 + "=" + pairs[i].1);
    var want := seq(|pairs|, i requires 0 <= i < |pairs| => (unquote(pairs[i].0), unquote(pairs[i].1)));
    if pairs == [] {
      assert KeyLine(pairs) == "";
      assert Split("", ',') == [""];
      assert NonEmpty([""]) == [];
      assert want == [];
    } else {
      forall k | 0 <= k < |pieces| ensures ',' !in pieces[k] && pieces[k] != "" {
        assert pieces[k][|pairs[k].0|] == '=';
      }
      SplitJoin(pieces, ',');
      forall k | 0 <= k < |pieces|
        ensures ParsePair(pieces[k], unquote) == Ok((unquote(pairs[k].0), unquote(pairs[k].1)))
      {
        SplitAfter(pairs[k].0, '=', pairs[k].1);
        SplitFree(pairs[k].1, '=');
      }
      assert NonEmpty(pieces) == pieces;
      assert ParsePairs(pieces, unquote).value == want;
    }
  }

  /** What `funnel_id` is handed. */
  datatype KeyArg = KText(text: string) | KDict(key: Key) | KId(id: int)

  /** `FDB.funnel_id`.  A text key becomes the dictionary of its pairs;
      listing the pairs in text order, later ones replacing earlier ones
      of the same name, gives that dictionary's `which` (`FunnelIdOfWhich`
      makes the order of the items irrelevant).  Anything else is
      returned as it is. */
  function FunnelId(db: Fdb, key: KeyArg, unquote: string -> string): (r: Result<int>)
    requires Valid(db)
    ensures key.KId? ==> r == Ok(key.id)
    ensures key.KDict? ==> r == FunnelIdDict(db, key.key)
    ensures key.KText? && ParseKey(key.text, unquote).Err? ==> r == Err(ValueError)
    ensures key.KText? && ParseKey(key.text, unquote).Ok? ==>
              r == FunnelIdDict(db, NamedKey(ParseKey(key.text, unquote).value))
    ensures r.Err? ==> r.error in {KeyError, IndexError, ValueError}
  {
    match key
    case KId(id) => Ok(id)
    case KDict(k) => FunnelIdDict(db, k)
    case KText(text) =>
      var pairs :- ParseKey(text, unquote);
      FunnelIdDict(db, NamedKey(pairs))
  }

  /** A dictionary keyed by field names. */
  function NamedKey(pairs: seq<(string, string)>): (key: Key)
    ensures |key| == |pairs|
    ensures forall i | 0 <= i < |pairs| :: key[i] == (ByName(pairs[i].0), pairs[i].1)
  {
    seq(|pairs|, i requires 0 <= i < |pairs| => (ByName(pairs[i].0), pairs[i].1))
  }

  // ---------------------------------------------------------------------
  // Listing the keys

  predicate StartsIncrease(gs: seq<KeyGroup>) {
    forall i, j | 0 <= i < j < |gs| :: gs[i].start < gs[j].start
  }

  /** The items of `dict(keymap(...))`: each group that no later group
      with the same fields replaces, in layout order (`EntriesAreDict`). */
  function Entries(gs: seq<KeyGroup>): (r: seq<KeyGroup>)
    ensures forall e | e in r :: e in gs
  {
    if gs == [] then []
    else
      var rest := Entries(gs[1..]);
      if KeyIndex(gs[1..], gs[0].fields).Some? then rest else [gs[0]] + rest
  }

  /** The entries are exactly the dictionary: each maps its fields to its
      start, and every group's fields have an entry. */
  lemma EntriesAreDict(gs: seq<KeyGroup>)
    ensures forall e | e in Entries(gs) :: KeyIndex(gs, e.fields) == Some(e.start)
    ensures forall g | g in gs :: exists e | e in Entries(gs) :: e.fields == g.fields
  {
    EntriesIndex(gs);
    EntriesCover(gs);
  }

  lemma {:induction false} EntriesIndex(gs: seq<KeyGroup>)
    ensures forall e | e in Entries(gs) :: KeyIndex(gs, e.fields) == Some(e.start)
    decreases |gs|
  {
    if gs != [] {
      EntriesIndex(gs[1..]);
      forall e | e in Entries(gs[1..]) ensures KeyIndex(gs, e.fields) == Some(e.start) {
        KeyIndexCons(gs, e.fields);
      }
      KeyIndexCons(gs, gs[0].fields);
    }
  }

  lemma EntriesCover(gs: seq<KeyGroup>)
    ensures forall g | g in gs :: exists e | e in Entries(gs) :: e.fields == g.fields
  {
    forall g | g in gs ensures exists e | e in Entries(gs) :: e.fields == g.fields {
      var i :| 0 <= i < |gs| && gs[i] == g;
      var p := LastWith(gs, g.fields).value;
      LastInEntries(gs, p);
      assert gs[p] in Entries(gs);
    }
  }

  /** A group that no later group with the same fields replaces is an
      entry. */
  lemma {:induction false} LastInEntries(gs: seq<KeyGroup>, i: nat)
    requires i < |gs|
    requires forall h | i < h < |gs| :: gs[h].fields != gs[i].fields
    ensures gs[i] in Entries(gs)
    decreases |gs|
  {
    var tail := gs[1..];
    if i == 0 {
      forall h | 0 <= h < |tail| ensures tail[h].fields != gs[0].fields {
        assert tail[h] == gs[h + 1];
      }
      assert KeyIndex(tail, gs[0].fields).None?;
      assert Entries(gs) == [gs[0]] + Entries(tail);
    } else {
      forall h | i - 1 < h < |tail| ensures tail[h].fields != tail[i - 1].fields {
        assert tail[h] == gs[h + 1];
      }
      LastInEntries(tail, i - 1);
      assert tail[i - 1] == gs[i];
      EntryFromTail(gs, gs[i]);
    }
  }

  lemma EntryFromTail(gs: seq<KeyGroup>, e: KeyGroup)
    requires gs != [] && e in Entries(gs[1..])
    ensures e in Entries(gs)
  {
    EntriesStep(gs);
  }

  lemma EntriesStep(gs: seq<KeyGroup>)
    requires gs != []
    ensures forall e | e in Entries(gs[1..]) :: e in Entries(gs)
    ensures forall g | g in gs :: g in gs[1..] || g == gs[0]
    ensures KeyIndex(gs[1..], gs[0].fields).None? ==> gs[0] in Entries(gs)
  {
    assert gs == [gs[0]] + gs[1..];
  }

  /** Filtering keeps the order of starts. */
  lemma {:induction false} EntriesOrdered(gs: seq<KeyGroup>)
    requires StartsIncrease(gs)
    ensures StartsIncrease(Entries(gs))
    decreases |gs|
  {
    if gs != [] {
      EntriesOrdered(gs[1..]);
      assert forall e | e in Entries(gs[1..]) :: e in gs[1..];
      assert forall g | g in gs[1..] :: gs[0].start < g.start;
    }
  }

  /** Looking a key up in `gs` is looking it up past the first group,
      unless only the first group carries it. */
  lemma KeyIndexCons(gs: seq<KeyGroup>, key: seq<int>)
    requires gs != []
    ensures KeyIndex(gs[1..], key).Some? ==> KeyIndex(gs, key) == KeyIndex(gs[1..], key)
    ensures KeyIndex(gs[1..], key).None? && gs[0].fields == key ==> KeyIndex(gs, key) == Some(gs[0].start)
  {
    if |gs| > 1 {
      var n := |gs| - 1;
      assert gs[1..][..n - 1] == gs[..n][1..];
      assert gs[1..][n - 1] == gs[n];
      KeyIndexCons(gs[..n], key);
    }
  }

  /** The groups `FDB.keys` walks: `sorted((v, k) ...)` orders the
      dictionary's items by start, and the layout already lists them so. */
  lemma EntriesInStartOrder(db: Fdb)
    ensures StartsIncrease(Entries(Groups(db)))
  {
    var gs := Groups(db);
    forall i, j | 0 <= i < j < |gs| ensures gs[i].start < gs[j].start {
      KeyMapStartsIncrease(db.params.numKeys, db.params.keyFields, i, j);
    }
    EntriesOrdered(gs);
  }

  /** Each head in front of each tail, heads varying slowest. */
  function Prefix(heads: seq<string>, tails: seq<seq<string>>): (r: seq<seq<string>>)
    ensures |r| == |heads| * |tails|
  {
    if heads == [] then []
    else
      assert |heads| * |tails| == |tails| + (|heads| - 1) * |tails|;
      seq(|tails|, i requires 0 <= i < |tails| => [heads[0]] + tails[i]) + Prefix(heads[1..], tails)
  }

  lemma {:induction false} PrefixElems(heads: seq<string>, tails: seq<seq<string>>)
    ensures forall x :: x in Prefix(heads, tails) <==> |x| > 0 && x[0] in heads && x[1..] in tails
    decreases |heads|
  {
    if heads != [] {
      PrefixElems(heads[1..], tails);
      var first := seq(|tails|, i requires 0 <= i < |tails| => [heads[0]] + tails[i]);
      assert Prefix(heads, tails) == first + Prefix(heads[1..], tails);
      assert forall x | x in first :: x[0] == heads[0] && x[1..] in tails;
      forall t | t in tails ensures [heads[0]] + t in first {
        var i :| 0 <= i < |tails| && tails[i] == t;
        assert first[i] == [heads[0]] + t;
      }
      forall x | |x| > 0 && x[0] == heads[0] && x[1..] in tails ensures x in first {
        assert x == [heads[0]] + x[1..];
      }
      assert forall h | h in heads :: h == heads[0] || h in heads[1..];
    }
  }

  /** `itertools.product`: every choice of one element from each list,
      the first list varying slowest. */
  function Product(ls: seq<seq<string>>): (r: seq<seq<string>>)
    ensures forall x :: x in r <==> |x| == |ls| && forall i | 0 <= i < |ls| :: x[i] in ls[i]
  {
    if ls == [] then [[]]
    else
      var rest := Product(ls[1..]);
      ProductStep(ls, rest);
      PrefixElems(ls[0], rest);
      Prefix(ls[0], rest)
  }

  lemma ProductStep(ls: seq<seq<string>>, rest: seq<seq<string>>)
    requires ls != []
    requires forall x :: x in rest <==> |x| == |ls| - 1 && forall i | 0 <= i < |ls| - 1 :: x[i] in ls[1..][i]
    ensures forall x: seq<string> :: (|x| > 0 && x[0] in ls[0] && x[1..] in rest) <==>
                                     (|x| == |ls| && forall i | 0 <= i < |ls| :: x[i] in ls[i])
  {
    forall x: seq<string> ensures (|x| > 0 && x[0] in ls[0] && x[1..] in rest) <==>
                                  (|x| == |ls| && forall i | 0 <= i < |ls| :: x[i] in ls[i]) {
      if |x| == |ls| {
        assert forall i | 1 <= i < |ls| :: x[1..][i - 1] == x[i] && ls[1..][i - 1] == ls[i];
      }
    }
  }

  /** The number of rows `Product` yields: the product of the lengths. */
  function Size(ls: seq<seq<string>>): nat {
    if ls == [] then 1 else |ls[0]| * Size(ls[1..])
  }

  lemma {:induction false} ProductSize(ls: seq<seq<string>>)
    ensures |Product(ls)| == Size(ls)
    decreases |ls|
  {
    if ls != [] {
      ProductSize(ls[1..]);
    }
  }

  /** A listed key: quoted field names paired with quoted values. */
  type Row = seq<(string, string)>

  /** `quote_plus(tdb.fields[f])` for each field of a group; Python list
      indexing raises IndexError outside `-len .. len - 1`. */
  function QuotedNames(fields: seq<string>, ids: seq<int>, quote: string -> string): (r: Result<seq<string>>)
    ensures r.Ok? <==> forall k | 0 <= k < |ids| :: FieldName(fields, ByIndex(ids[k])).Ok?
    ensures r.Ok? ==> |r.value| == |ids|
    ensures r.Ok? ==> forall k | 0 <= k < |ids| :: r.value[k] == quote(FieldName(fields, ByIndex(ids[k])).value)
    ensures r.Err? ==> r.error == IndexError
  {
    if ids == [] then Ok([])
    else
      var name :- FieldName(fields, ByIndex(ids[0]));
      var rest :- QuotedNames(fields, ids[1..], quote);
      assert forall k | 1 <= k < |ids| :: ids[k] == ids[1..][k - 1];
      Ok([quote(name)] + rest)
  }

  /** `map(quote_plus, tdb.lexicon(f))` for a field `f` of `key_fields`,
      a `tdb_field` the store always takes (`QuotedLexiconOk`). */
  function QuotedLexicon(tdb: Tdb, f: int, quote: string -> string): (r: seq<string>)
  {
    var ids := LexiconIds(tdb.lexiconSize(f));
    seq(|ids|, i requires 0 <= i < |ids| => quote(tdb.word(f, ids[i])))
  }

  /** The quoted lexicon lists the quoted words of `TDB.lexicon`, which
      succeeds for every field the store can take. */
  lemma QuotedLexiconOk(tdb: Tdb, f: int, quote: string -> string)
    requires 0 <= f < FieldLimit
    ensures Lexicon(tdb.fields, ByIndex(f), tdb.lexiconSize, tdb.word).Ok?
    ensures var words := Lexicon(tdb.fields, ByIndex(f), tdb.lexiconSize, tdb.word).value;
            var r := QuotedLexicon(tdb, f, quote);
            |r| == |words| && forall i | 0 <= i < |r| :: r[i] == quote(words[i])
  {}

  /** Every field of a listed group is a key field, so its lexicon is
      read without error. */
  lemma EntryFieldsFit(db: Fdb, e: KeyGroup)
    requires Valid(db) && e in Entries(Groups(db))
    ensures forall k | 0 <= k < |e.fields| :: 0 <= e.fields[k] < FieldLimit
  {
    var f := db.params.keyFields;
    var gs := Groups(db);
    var g :| 0 <= g < |gs| && gs[g] == e;
    KeyMapDecodes(db.params.numKeys, f, g);
    RunHoldsAll(f, e);
    forall k | 0 <= k < |e.fields| ensures 0 <= e.fields[k] < FieldLimit {
      assert e.fields[k] in e.fields;
      var j :| e.start <= j < e.start + |e.fields| && f[j] == e.fields[k];
    }
  }

  function Zip(names: seq<string>, values: seq<string>): (r: Row)
    requires |names| == |values|
    ensures |r| == |names| && forall i | 0 <= i < |r| :: r[i] == (names[i], values[i])
  {
    seq(|names|, i requires 0 <= i < |names| => (names[i], values[i]))
  }

  /** The keys of one group: its quoted names with every combination of
      quoted lexicon words, the first field varying slowest. */
  function EntryRows(db: Fdb, e: KeyGroup, quote: string -> string): (r: Result<seq<Row>>)
    ensures r.Ok? <==> QuotedNames(db.tdb.fields, e.fields, quote).Ok?
    ensures r.Ok? ==> forall row | row in r.value ::
              exists combo | combo in Product(Lexicons(db, e, quote)) ::
                |combo| == |e.fields| && row == Zip(QuotedNames(db.tdb.fields, e.fields, quote).value, combo)
    ensures r.Ok? ==> |r.value| == Size(Lexicons(db, e, quote))
  {
    var names :- QuotedNames(db.tdb.fields, e.fields, quote);
    var combos := Product(Lexicons(db, e, quote));
    ProductSize(Lexicons(db, e, quote));
    var rows := seq(|combos|, k requires 0 <= k < |combos| => Zip(names, combos[k]));
    assert forall row | row in rows :: exists k | 0 <= k < |combos| :: row == Zip(names, combos[k]);
    Ok(rows)
  }

  function Lexicons(db: Fdb, e: KeyGroup, quote: string -> string): (ls: seq<seq<string>>)
    ensures |ls| == |e.fields|
    ensures forall i | 0 <= i < |ls| :: ls[i] == QuotedLexicon(db.tdb, e.fields[i], quote)
  {
    seq(|e.fields|, i requires 0 <= i < |e.fields| => QuotedLexicon(db.tdb, e.fields[i], quote))
  }

  function RowsOf(db: Fdb, es: seq<KeyGroup>, quote: string -> string): (r: Result<seq<Row>>)
    ensures r.Ok? <==> forall k | 0 <= k < |es| :: EntryRows(db, es[k], quote).Ok?
    ensures r.Err? ==> r.error == IndexError
  {
    if es == [] then Ok([])
    else
      var a :- EntryRows(db, es[0], quote);
      var b :- RowsOf(db, es[1..], quote);
      assert forall k | 1 <= k < |es| :: es[k] == es[1..][k - 1];
      Ok(a + b)
  }

  /** Every listed row is a row of one of the groups. */
  lemma {:induction false} RowsOfElems(db: Fdb, es: seq<KeyGroup>, quote: string -> string, row: Row)
    requires RowsOf(db, es, quote).Ok? && row in RowsOf(db, es, quote).value
    ensures exists e | e in es :: EntryRows(db, e, quote).Ok? && row in EntryRows(db, e, quote).value
    decreases |es|
  {
    var a := EntryRows(db, es[0], quote);
    if row !in a.value {
      RowsOfElems(db, es[1..], quote, row);
      var e :| e in es[1..] && EntryRows(db, e, quote).Ok? && row in EntryRows(db, e, quote).value;
      assert e in es;
    }
  }

  /** `FDB.keys()`: the keys of every group, groups in start order
      (`EntriesInStartOrder`). */
  function Keys(db: Fdb, quote: string -> string): (r: Result<seq<Row>>)
    ensures r.Ok? <==> forall e | e in Entries(Groups(db)) :: EntryRows(db, e, quote).Ok?
    ensures r.Err? ==> r.error == IndexError
  {
    RowsOf(db, Entries(Groups(db)), quote)
  }

  /** What a generator over the groups `es` hands out before it stops:
      the rows of each group in turn, up to the first group whose names
      cannot be read, where it raises IndexError. */
  function RowsYielded(db: Fdb, es: seq<KeyGroup>, quote: string -> string): (rows: seq<Row>)
    ensures RowsOf(db, es, quote).Ok? ==> rows == RowsOf(db, es, quote).value
  {
    if es == [] then []
    else match EntryRows(db, es[0], quote)
      case Err(_) => []
      case Ok(a) => a + RowsYielded(db, es[1..], quote)
  }

  /** When the listing fails at group `k`, what was handed out first is
      exactly the rows of the groups before it. */
  lemma {:induction false} RowsYieldedStop(db: Fdb, es: seq<KeyGroup>, quote: string -> string)
    returns (k: nat)
    requires RowsOf(db, es, quote).Err?
    ensures k < |es| && EntryRows(db, es[k], quote).Err?
    ensures RowsOf(db, es[..k], quote).Ok?
    ensures RowsYielded(db, es, quote) == RowsOf(db, es[..k], quote).value
    decreases |es|
  {
    if EntryRows(db, es[0], quote).Err? {
      k := 0;
      assert es[..0] == [];
    } else {
      var k' := RowsYieldedStop(db, es[1..], quote);
      k := k' + 1;
      RowsOfPrefix(db, es, quote, k');
    }
  }

  lemma RowsOfPrefix(db: Fdb, es: seq<KeyGroup>, quote: string -> string, k: nat)
    requires k < |es| - 1 && EntryRows(db, es[0], quote).Ok?
    requires RowsOf(db, es[1..][..k], quote).Ok?
    ensures es[k + 1] == es[1..][k]
    ensures RowsOf(db, es[..k + 1], quote) ==
              Ok(EntryRows(db, es[0], quote).value + RowsOf(db, es[1..][..k], quote).value)
  {
    var pre := es[..k + 1];
    assert pre[0] == es[0] && pre[1..] == es[1..][..k];
    RowsOfCons(db, pre, quote);
  }

  /** The rows of a listing whose first group and rest both succeed. */
  lemma RowsOfCons(db: Fdb, es: seq<KeyGroup>, quote: string -> string)
    requires es != [] && EntryRows(db, es[0], quote).Ok? && RowsOf(db, es[1..], quote).Ok?
    ensures RowsOf(db, es, quote) == Ok(EntryRows(db, es[0], quote).value + RowsOf(db, es[1..], quote).value)
  {}

  /** The keys `FDB.keys()` yields, also when it ends in IndexError: the
      keys of the groups, in start order, before the first group whose
      names cannot be read (`RowsYieldedStop`). */
  function KeysYielded(db: Fdb, quote: string -> string): (rows: seq<Row>)
    ensures Keys(db, quote).Ok? ==> rows == Keys(db, quote).value
  {
    RowsYielded(db, Entries(Groups(db)), quote)
  }

  /** `FDB.keys(serialize=True)`: each key as a key line. */
  function SerializedKeys(db: Fdb, quote: string -> string): (r: Result<seq<string>>)
    ensures r.Ok? <==> Keys(db, quote).Ok?
    ensures r.Ok? ==> |r.value| == |Keys(db, quote).value|
    ensures r.Ok? ==> forall i | 0 <= i < |r.value| :: r.value[i] == KeyLine(Keys(db, quote).value[i])
  {
    var rows :- Keys(db, quote);
    Ok(seq(|rows|, i requires 0 <= i < |rows| => KeyLine(rows[i])))
  }

  lemma {:induction false} DistinctOfNoDup(xs: seq<int>)
    requires NoDup(xs)
    ensures Distinct(xs) == xs
    decreases |xs|
  {
    if xs != [] {
      var n := |xs| - 1;
      assert NoDup(xs[..n]);
      DistinctOfNoDup(xs[..n]);
      assert xs[n] !in xs[..n];
    }
  }

  lemma SortOfAscending(xs: seq<int>)
    requires Ascending(xs)
    ensures Sort(xs) == xs
  {
    SortSorted(xs);
    AscendingUnique(Sort(xs), xs);
  }

  /** A listed group's fields are sorted. */
  lemma EntryAscending(db: Fdb, e: KeyGroup)
    requires e in Entries(Groups(db))
    ensures Ascending(e.fields)
  {
    var gs := Groups(db);
    var g :| 0 <= g < |gs| && gs[g] == e;
    KeyMapDecodes(db.params.numKeys, db.params.keyFields, g);
  }

  predicate DistinctNames(fields: seq<string>) {
    forall j, k | 0 <= j < k < |fields| :: fields[j] != fields[k]
  }

  /** The choice of lexicon words a key of group `e` carries. */
  lemma RowCombo(db: Fdb, quote: string -> string, e: KeyGroup, row: Row) returns (combo: seq<string>)
    requires EntryRows(db, e, quote).Ok? && row in EntryRows(db, e, quote).value
    ensures |combo| == |e.fields| && |row| == |e.fields|
    ensures forall i | 0 <= i < |row| :: row[i] == (QuotedNames(db.tdb.fields, e.fields, quote).value[i], combo[i])
    ensures forall i | 0 <= i < |combo| :: combo[i] in QuotedLexicon(db.tdb, e.fields[i], quote)
  {
    var names := QuotedNames(db.tdb.fields, e.fields, quote).value;
    var ls := Lexicons(db, e, quote);
    combo :| combo in Product(ls) && |combo| == |e.fields| && row == Zip(names, combo);
  }

  /** `w` is the word of a listed value id of field `f`, passed through
      `quote`. */
  predicate IsWord(tdb: Tdb, f: int, w: string, quote: string -> string) {
    exists v | 1 <= v < tdb.lexiconSize(f) :: w == quote(tdb.word(f, v))
  }

  /** A key of group `e` pairs each field's quoted name with a quoted
      word of that field's lexicon. */
  lemma RowShape(db: Fdb, quote: string -> string, e: KeyGroup, row: Row)
    requires forall k | 0 <= k < |e.fields| :: 0 <= e.fields[k] < |db.tdb.fields|
    requires EntryRows(db, e, quote).Ok? && row in EntryRows(db, e, quote).value
    ensures |row| == |e.fields|
    ensures forall i | 0 <= i < |row| :: row[i].0 == quote(db.tdb.fields[e.fields[i]])
    ensures forall i | 0 <= i < |row| :: IsWord(db.tdb, e.fields[i], row[i].1, quote)
  {
    RowNames(db, quote, e, row);
    RowWords(db, quote, e, row);
  }

  lemma RowNames(db: Fdb, quote: string -> string, e: KeyGroup, row: Row)
    requires forall k | 0 <= k < |e.fields| :: 0 <= e.fields[k] < |db.tdb.fields|
    requires EntryRows(db, e, quote).Ok? && row in EntryRows(db, e, quote).value
    ensures |row| == |e.fields|
    ensures forall i | 0 <= i < |row| :: row[i].0 == quote(db.tdb.fields[e.fields[i]])
  {
    var combo := RowCombo(db, quote, e, row);
    var names := QuotedNames(db.tdb.fields, e.fields, quote).value;
    forall i | 0 <= i < |row| ensures row[i].0 == quote(db.tdb.fields[e.fields[i]]) {
      var f := e.fields[i];
      assert FieldName(db.tdb.fields, ByIndex(f)) == Ok(db.tdb.fields[f]);
      assert row[i].0 == names[i] == quote(db.tdb.fields[f]);
    }
  }

  lemma RowWords(db: Fdb, quote: string -> string, e: KeyGroup, row: Row)
    requires forall k | 0 <= k < |e.fields| :: 0 <= e.fields[k] < |db.tdb.fields|
    requires EntryRows(db, e, quote).Ok? && row in EntryRows(db, e, quote).value
    ensures |row| == |e.fields|
    ensures forall i | 0 <= i < |row| :: IsWord(db.tdb, e.fields[i], row[i].1, quote)
  {
    var combo := RowCombo(db, quote, e, row);
    forall i | 0 <= i < |row| ensures IsWord(db.tdb, e.fields[i], row[i].1, quote) {
      LexiconWord(db.tdb, e.fields[i], combo[i], quote);
    }
  }

  lemma LexiconWord(tdb: Tdb, f: int, w: string, quote: string -> string)
    requires 0 <= f < |tdb.fields|
    requires w in QuotedLexicon(tdb, f, quote)
    ensures IsWord(tdb, f, w, quote)
  {
    var lex := QuotedLexicon(tdb, f, quote);
    var j :| 0 <= j < |lex| && lex[j] == w;
    assert 1 <= j + 1 < tdb.lexiconSize(f);
  }

  /** The line of a listed key reads back as the group's field names,
      each with a word of its lexicon. */
  lemma ListedKeyParses(db: Fdb, quote: string -> string, unquote: string -> string,
                        e: KeyGroup, row: Row)
    requires forall x :: unquote(quote(x)) == x
    requires forall x :: Plain(quote(x))
    requires forall k | 0 <= k < |e.fields| :: 0 <= e.fields[k] < |db.tdb.fields|
    requires EntryRows(db, e, quote).Ok? && row in EntryRows(db, e, quote).value
    ensures ParseKey(KeyLine(row), unquote).Ok?
    ensures var pairs := ParseKey(KeyLine(row), unquote).value;
            |pairs| == |e.fields| &&
            forall i | 0 <= i < |pairs| ::
              pairs[i].0 == db.tdb.fields[e.fields[i]] && IsWord(db.tdb, e.fields[i], pairs[i].1, (s: string) => s)
  {
    RowShape(db, quote, e, row);
    RowPlain(db, quote, e, row);
    KeyLineRoundTrip(row, unquote);
    var pairs := ParseKey(KeyLine(row), unquote).value;
    forall i | 0 <= i < |pairs|
      ensures pairs[i].0 == db.tdb.fields[e.fields[i]]
      ensures IsWord(db.tdb, e.fields[i], pairs[i].1, (s: string) => s)
    {
      assert pairs[i] == (unquote(row[i].0), unquote(row[i].1));
      UnquotedWord(db.tdb, e.fields[i], row[i].1, quote, unquote);
    }
  }

  lemma RowPlain(db: Fdb, quote: string -> string, e: KeyGroup, row: Row)
    requires forall x :: Plain(quote(x))
    requires forall k | 0 <= k < |e.fields| :: 0 <= e.fields[k] < |db.tdb.fields|
    requires |row| == |e.fields|
    requires forall i | 0 <= i < |row| :: row[i].0 == quote(db.tdb.fields[e.fields[i]])
    requires forall i | 0 <= i < |row| :: IsWord(db.tdb, e.fields[i], row[i].1, quote)
    ensures forall k | 0 <= k < |row| :: Plain(row[k].0) && Plain(row[k].1)
  {
    forall k | 0 <= k < |row| ensures Plain(row[k].0) && Plain(row[k].1) {
      var f := e.fields[k];
      var v :| 1 <= v < db.tdb.lexiconSize(f) && row[k].1 == quote(db.tdb.word(f, v));
    }
  }

  /** Unquoting a quoted word of a lexicon gives the word itself. */
  lemma UnquotedWord(tdb: Tdb, f: int, w: string, quote: string -> string, unquote: string -> string)
    requires forall x :: unquote(quote(x)) == x
    requires IsWord(tdb, f, w, quote)
    ensures IsWord(tdb, f, unquote(w), (s: string) => s)
  {
    var v :| 1 <= v < tdb.lexiconSize(f) && w == quote(tdb.word(f, v));
    assert unquote(w) == tdb.word(f, v);
  }

  /** Naming distinct fields by their names gives their indices back. */
  lemma NamedKeyIds(fields: seq<string>, ids: seq<int>, pairs: seq<(string, string)>)
    requires DistinctNames(fields)
    requires |pairs| == |ids|
    requires forall i | 0 <= i < |ids| :: 0 <= ids[i] < |fields| && pairs[i].0 == fields[ids[i]]
    ensures KeyFieldIds(fields, NamedKey(pairs)) == Ok(ids)
  {
    var key := NamedKey(pairs);
    forall i | 0 <= i < |key| ensures FieldOf(fields, key[i].0) == Ok(ids[i]) {
      FieldOfFieldName(fields, ids[i]);
    }
    assert KeyFieldIds(fields, key).value == ids;
  }

  /** The text keys `keys(serialize=True)` lists are keys `funnel_id`
      reads back: under a `quote`/`unquote` pair that inverts and leaves no
      `,` or `=`, a listed line names the group's fields, each with a word
      of its lexicon (`ListedKeyParses`), and addresses that group. */
  lemma ListedKeyAddresses(db: Fdb, quote: string -> string, unquote: string -> string,
                           e: KeyGroup, row: Row)
    requires Valid(db)
    requires forall x :: unquote(quote(x)) == x
    requires forall x :: Plain(quote(x))
    requires DistinctNames(db.tdb.fields) && NoDup(e.fields)
    requires forall k | 0 <= k < |e.fields| :: 0 <= e.fields[k] < |db.tdb.fields|
    requires e in Entries(Groups(db))
    requires EntryRows(db, e, quote).Ok? && row in EntryRows(db, e, quote).value
    ensures ParseKey(KeyLine(row), unquote).Ok?
    ensures var key := NamedKey(ParseKey(KeyLine(row), unquote).value);
            KeyFieldIds(db.tdb.fields, key) == Ok(e.fields) &&
            KeyIndex(Groups(db), SortedKey(e.fields)) == Some(e.start) &&
            FunnelId(db, KText(KeyLine(row)), unquote) == Address(db, e.fields, Which(e.fields, key))
  {
    ListedKeyParses(db, quote, unquote, e, row);
    var pairs := ParseKey(KeyLine(row), unquote).value;
    NamedKeyIds(db.tdb.fields, e.fields, pairs);
    var key := NamedKey(pairs);
    DistinctOfNoDup(e.fields);
    EntryAscending(db, e);
    SortOfAscending(e.fields);
    EntriesIndex(Groups(db));
    assert FunnelIdDict(db, key) == Address(db, SortedKey(e.fields), Which(e.fields, key));
  }
}

=== FILE: funnel_keys.dfy ===
/** Funnel addressing of trpy/funneldb.py: the key-group layout `FDB.make`
    writes, the `keymap` decoder that reads it back, and `funnel_id`,
    which turns a key (a dictionary or its `name=value,...` text) into a
    funnel id by mixed-radix addressing. */
module FunnelKeys {
  import opened Results
  import opened TrailDb

  /** `FDB_EZ_MAX`: the number of `key_fields` and `key_offs` slots. */
  const EzMax: nat := 128

  /** Bound of a C `uint32_t` field (`tdb_field`, `fdb_fid`). */
  const Uint32: int := 0x1_0000_0000

  // ---------------------------------------------------------------------
  // Sorting (`sorted`)

  predicate Ascending(xs: seq<int>) {
    forall i, j | 0 <= i < j < |xs| :: xs[i] <= xs[j]
  }

  function Insert(x: int, xs: seq<int>): (r: seq<int>) {
    if xs == [] || x <= xs[0] then [x] + xs
    else [xs[0]] + Insert(x, xs[1..])
  }

  /** `sorted`, as insertion sort; `SortSorted` states what it computes. */
  function Sort(xs: seq<int>): (r: seq<int>) {
    if xs == [] then []
    else Insert(xs[|xs| - 1], Sort(xs[..|xs| - 1]))
  }

  lemma {:induction false} InsertElems(x: int, xs: seq<int>)
    ensures multiset(Insert(x, xs)) == multiset(xs) + multiset{x}
    decreases |xs|
  {
    if xs != [] && x > xs[0] {
      InsertElems(x, xs[1..]);
      assert xs == [xs[0]] + xs[1..];
    }
  }

  lemma {:induction false} InsertSorted(x: int, xs: seq<int>)
    requires Ascending(xs)
    ensures Ascending(Insert(x, xs))
    decreases |xs|
  {
    if xs != [] && x > xs[0] {
      var tail := xs[1..];
      assert Ascending(tail);
      InsertSorted(x, tail);
      InsertAbove(x, tail, xs[0]);
      ConsAscending(xs[0], Insert(x, tail));
    }
  }

  /** Inserting into a sequence bounded below keeps the bound. */
  lemma {:induction false} InsertAbove(x: int, xs: seq<int>, b: int)
    requires b <= x && forall k | 0 <= k < |xs| :: b <= xs[k]
    ensures forall k | 0 <= k < |Insert(x, xs)| :: b <= Insert(x, xs)[k]
    decreases |xs|
  {
    if xs != [] && x > xs[0] {
      InsertAbove(x, xs[1..], b);
    }
  }

  lemma ConsAscending(y: int, xs: seq<int>)
    requires Ascending(xs) && forall k | 0 <= k < |xs| :: y <= xs[k]
    ensures Ascending([y] + xs)
  {
    var r := [y] + xs;
    forall i, j | 0 <= i < j < |r| ensures r[i] <= r[j] {
      assert r[j] == xs[j - 1];
      if i > 0 { assert r[i] == xs[i - 1]; }
    }
  }

  /** `sorted(xs)` is ascending and holds exactly the elements of `xs`. */
  lemma {:induction false} SortSorted(xs: seq<int>)
    ensures Ascending(Sort(xs)) && multiset(Sort(xs)) == multiset(xs)
    decreases |xs|
  {
    if xs != [] {
      SortSorted(xs[..|xs| - 1]);
      InsertSorted(xs[|xs| - 1], Sort(xs[..|xs| - 1]));
      InsertElems(xs[|xs| - 1], Sort(xs[..|xs| - 1]));
      assert xs == xs[..|xs| - 1] + [xs[|xs| - 1]];
    }
  }

  /** Two ascending sequences with the same elements are equal, so the
      result of `sorted` does not depend on the order of its input. */
  lemma {:induction false} AscendingUnique(a: seq<int>, b: seq<int>)
    requires Ascending(a) && Ascending(b) && multiset(a) == multiset(b)
    ensures a == b
    decreases |a|
  {
    if a != [] {
      assert b != [] by {
        assert |b| == |multiset(b)| == |multiset(a)| == |a|;
      }
      assert a[0] == b[0] by {
        HeadIsLeast(a, b[0]);
        HeadIsLeast(b, a[0]);
      }
      assert multiset(a[1..]) == multiset(b[1..]) && Ascending(a[1..]) && Ascending(b[1..]) by {
        SplitHead(a);
        SplitHead(b);
      }
      AscendingUnique(a[1..], b[1..]);
      assert a == [a[0]] + a[1..];
      assert b == [b[0]] + b[1..];
    }
  }

  lemma HeadIsLeast(a: seq<int>, x: int)
    requires Ascending(a) && x in multiset(a)
    ensures a[0] <= x
  {
    var i :| 0 <= i < |a| && a[i] == x;
  }

  lemma SplitHead(a: seq<int>)
    requires |a| > 0
    ensures multiset(a[1..]) == multiset(a) - multiset{a[0]}
    ensures Ascending(a) ==> Ascending(a[1..])
  {
    assert a == [a[0]] + a[1..];
  }

  lemma SortLength(xs: seq<int>)
    ensures |Sort(xs)| == |xs|
  {
    SortSorted(xs);
    assert |multiset(Sort(xs))| == |multiset(xs)|;
  }

  lemma SortOrderFree(xs: seq<int>, ys: seq<int>)
    requires multiset(xs) == multiset(ys)
    ensures Sort(xs) == Sort(ys)
  {
    SortSorted(xs);
    SortSorted(ys);
    AscendingUnique(Sort(xs), Sort(ys));
  }

  // ---------------------------------------------------------------------
  // The key-group layout

  /** One entry of the `keymap` generator: a group's sorted field ids and
      the slot where the group starts. */
  datatype KeyGroup = KeyGroup(fields: seq<int>, start: int)

  function KeyMapFrom(n: nat, f: seq<int>, i: nat, combo: seq<int>): (r: seq<KeyGroup>)
    requires i <= |f|
    decreases |f| - i
  {
    if i == |f| || n == 0 then []
    else if f[i] != 0 then KeyMapFrom(n, f, i + 1, combo + [f[i]])
    else [KeyGroup(Sort(combo), i - |combo|)] + KeyMapFrom(n - 1, f, i + 1, [])
  }

  /** `keymap(num_keys, key_fields)`: a group is a run of non-zero field
      ids closed by a zero slot; the first `n` closed groups are yielded. */
  function KeyMap(n: nat, f: seq<int>): seq<KeyGroup> {
    KeyMapFrom(n, f, 0, [])
  }

  /** `e` is the sorted contents of a zero-free run of `f` that a zero
      slot closes. */
  predicate ClosedRun(f: seq<int>, e: KeyGroup) {
    && 0 <= e.start
    && e.start + |e.fields| < |f|
    && f[e.start + |e.fields|] == 0
    && (forall k | e.start <= k < e.start + |e.fields| :: f[k] != 0)
    && Ascending(e.fields)
    && multiset(e.fields) == multiset(f[e.start .. e.start + |e.fields|])
  }

  lemma {:induction false} KeyMapFromDecodes(n: nat, f: seq<int>, i: nat, combo: seq<int>, g: nat)
    requires i <= |f| && |combo| <= i
    requires f[i - |combo| .. i] == combo
    requires forall k | 0 <= k < |combo| :: combo[k] != 0
    requires g < |KeyMapFrom(n, f, i, combo)|
    ensures g < n && ClosedRun(f, KeyMapFrom(n, f, i, combo)[g])
    decreases |f| - i
  {
    if f[i] != 0 {
      KeyMapRunStep(f, i, combo);
      KeyMapFromDecodes(n, f, i + 1, combo + [f[i]], g);
    } else if g > 0 {
      var rest := KeyMapFrom(n - 1, f, i + 1, []);
      assert KeyMapFrom(n, f, i, combo)[g] == rest[g - 1];
      KeyMapFromDecodes(n - 1, f, i + 1, [], g - 1);
    } else {
      KeyMapClose(f, i, combo);
    }
  }

  lemma KeyMapRunStep(f: seq<int>, i: nat, combo: seq<int>)
    requires i < |f| && |combo| <= i && f[i] != 0
    requires f[i - |combo| .. i] == combo
    requires forall k | 0 <= k < |combo| :: combo[k] != 0
    ensures f[i + 1 - |combo + [f[i]]| .. i + 1] == combo + [f[i]]
    ensures forall k | 0 <= k < |combo + [f[i]]| :: (combo + [f[i]])[k] != 0
  {
    assert f[i - |combo| .. i + 1] == f[i - |combo| .. i] + [f[i]];
  }

  lemma KeyMapClose(f: seq<int>, i: nat, combo: seq<int>)
    requires i < |f| && |combo| <= i && f[i] == 0
    requires f[i - |combo| .. i] == combo
    requires forall k | 0 <= k < |combo| :: combo[k] != 0
    ensures ClosedRun(f, KeyGroup(Sort(combo), i - |combo|))
  {
    SortLength(combo);
    SortSorted(combo);
    RunCloses(f, i, combo, Sort(combo));
  }

  lemma RunCloses(f: seq<int>, i: nat, combo: seq<int>, fields: seq<int>)
    requires i < |f| && |combo| <= i && f[i] == 0
    requires f[i - |combo| .. i] == combo
    requires forall k | 0 <= k < |combo| :: combo[k] != 0
    requires |fields| == |combo| && Ascending(fields) && multiset(fields) == multiset(combo)
    ensures ClosedRun(f, KeyGroup(fields, i - |combo|))
  {
    var start := i - |combo|;
    forall k | start <= k < i ensures f[k] != 0 {
      assert f[k] == combo[k - start];
    }
  }

  /** What `keymap` yields is a decoding of the layout: at most `n` groups,
      each the sorted contents of a zero-free run that a zero closes. */
  lemma KeyMapDecodes(n: nat, f: seq<int>, g: nat)
    requires g < |KeyMap(n, f)|
    ensures g < n && ClosedRun(f, KeyMap(n, f)[g])
  {
    KeyMapFromDecodes(n, f, 0, [], g);
  }

  /** `dict(keymap(...))`: a later group with the same fields replaces an
      earlier one. */
  function KeyIndex(groups: seq<KeyGroup>, key: seq<int>): (r: Option<int>)
    ensures r.None? <==> forall g | 0 <= g < |groups| :: groups[g].fields != key
    ensures r.Some? ==> exists g | 0 <= g < |groups| ::
              groups[g].fields == key && groups[g].start == r.value &&
              forall h | g < h < |groups| :: groups[h].fields != key
  {
    match LastWith(groups, key)
    case None => None
    case Some(g) => Some(groups[g].start)
  }

  /** The position of the last group whose fields are `key`. */
  function LastWith(groups: seq<KeyGroup>, key: seq<int>): (r: Option<nat>)
    ensures r.None? <==> forall g | 0 <= g < |groups| :: groups[g].fields != key
    ensures r.Some? ==> r.value < |groups| && groups[r.value].fields == key
    ensures r.Some? ==> forall h | r.value < h < |groups| :: groups[h].fields != key
  {
    if groups == [] then None
    else if groups[|groups| - 1].fields == key then Some(|groups| - 1)
    else
      var init := groups[..|groups| - 1];
      assert forall g | 0 <= g < |init| :: init[g] == groups[g];
      LastWith(init, key)
  }

  /** Group starts grow strictly: a later group of the layout starts
      after the zero slot that closes an earlier one. */
  lemma KeyMapStartsIncrease(n: nat, f: seq<int>, g: nat, h: nat)
    requires g < h < |KeyMap(n, f)|
    ensures KeyMap(n, f)[g].start + |KeyMap(n, f)[g].fields| < KeyMap(n, f)[h].start
  {
    KeyMapFromStarts(n, f, 0, [], g, h);
  }

  lemma {:induction false} KeyMapFromStarts(n: nat, f: seq<int>, i: nat, combo: seq<int>, g: nat, h: nat)
    requires i <= |f| && |combo| <= i
    requires f[i - |combo| .. i] == combo
    requires forall k | 0 <= k < |combo| :: combo[k] != 0
    requires g < h < |KeyMapFrom(n, f, i, combo)|
    ensures KeyMapFrom(n, f, i, combo)[h].start >= i - |combo|
    ensures KeyMapFrom(n, f, i, combo)[g].start + |KeyMapFrom(n, f, i, combo)[g].fields| <
            KeyMapFrom(n, f, i, combo)[h].start
    decreases |f| - i
  {
    if f[i] != 0 {
      KeyMapRunStep(f, i, combo);
      KeyMapFromStarts(n, f, i + 1, combo + [f[i]], g, h);
    } else {
      var rest := KeyMapFrom(n - 1, f, i + 1, []);
      assert KeyMapFrom(n, f, i, combo)[h] == rest[h - 1];
      if g > 0 {
        assert KeyMapFrom(n, f, i, combo)[g] == rest[g - 1];
        KeyMapFromStarts(n - 1, f, i + 1, [], g - 1, h - 1);
      } else {
        KeyMapClosedAt(n, f, i, combo);
        KeyMapFromStart(n - 1, f, i + 1, [], h - 1);
      }
    }
  }

  lemma KeyMapClosedAt(n: nat, f: seq<int>, i: nat, combo: seq<int>)
    requires i < |f| && |combo| <= i && f[i] == 0 && n > 0
    ensures KeyMapFrom(n, f, i, combo)[0].start + |KeyMapFrom(n, f, i, combo)[0].fields| == i
  {
    SortLength(combo);
  }

  /** Every group `keymap` yields from slot `i` on starts where the run
      being collected started. */
  lemma {:induction false} KeyMapFromStart(n: nat, f: seq<int>, i: nat, combo: seq<int>, h: nat)
    requires i <= |f| && |combo| <= i
    requires f[i - |combo| .. i] == combo
    requires forall k | 0 <= k < |combo| :: combo[k] != 0
    requires h < |KeyMapFrom(n, f, i, combo)|
    ensures KeyMapFrom(n, f, i, combo)[h].start >= i - |combo|
    decreases |f| - i
  {
    if f[i] != 0 {
      KeyMapRunStep(f, i, combo);
      KeyMapFromStart(n, f, i + 1, combo + [f[i]], h);
    } else if h > 0 {
      var rest := KeyMapFrom(n - 1, f, i + 1, []);
      assert KeyMapFrom(n, f, i, combo)[h] == rest[h - 1];
      KeyMapFromStart(n - 1, f, i + 1, [], h - 1);
    }
  }

  // ---------------------------------------------------------------------
  // The layout `FDB.make` writes

  /** A key group as `make` receives it: one field name (which `seqify`
      wraps in a one-element tuple), a tuple of fields, or a bare field
      index, on which `seqify`'s `x[0]` raises TypeError. */
  datatype Group = Name(name: string) | Fields(items: seq<Fieldish>) | Index(index: int)

  function Seqify(g: Group): (r: Result<seq<Fieldish>>)
    ensures g.Name? ==> r == Ok([ByName(g.name)])
    ensures g.Fields? ==> r == Ok(g.items)
    ensures g.Index? ==> r == Err(TypeError)
  {
    match g
    case Name(n) => Ok([ByName(n)])
    case Fields(items) => Ok(items)
    case Index(_) => Err(TypeError)
  }

  /** The slots a list of groups occupies: each group's ids and one more. */
  function Footprint(gs: seq<seq<int>>): nat {
    if gs == [] then 0 else |gs[0]| + 1 + Footprint(gs[1..])
  }

  /** Each group's field ids followed by one zero slot. */
  function Layout(gs: seq<seq<int>>): (f: seq<int>)
    ensures |f| == Footprint(gs)
  {
    if gs == [] then [] else gs[0] + [0] + Layout(gs[1..])
  }

  /** The first `n` slots of `s`, zero beyond its end: what a zeroed
      `key_fields` array of `n` slots holds after `s` is written into it. */
  function Pad(s: seq<int>, n: nat): (r: seq<int>)
    ensures |r| == n
    ensures forall k | 0 <= k < n :: r[k] == if k < |s| then s[k] else 0
  {
    seq(n, k requires 0 <= k < n => if k < |s| then s[k] else 0)
  }

  /** Every field id of `gs`, laid out from slot `i`, lands in a slot of
      `key_fields`.  A group without ids writes no slot. */
  predicate Fits(gs: seq<seq<int>>, i: int) {
    gs == [] || ((gs[0] == [] || i + |gs[0]| <= EzMax) && Fits(gs[1..], i + |gs[0]| + 1))
  }

  /** The stores of one group, in order: `tdb.field(k)` (KeyError), then
      the cffi store into slot `i`, which raises IndexError past the array
      and OverflowError for an id that is not a uint32. */
  function ResolveItems(fields: seq<string>, items: seq<Fieldish>, i: int): (r: Result<seq<int>>)
    ensures r.Ok? <==>
              (forall k | 0 <= k < |items| ::
                 FieldOf(fields, items[k]).Ok? && 0 <= FieldOf(fields, items[k]).value < Uint32)
              && (items == [] || (0 <= i && i + |items| <= EzMax))
    ensures r.Ok? ==> |r.value| == |items|
    ensures r.Ok? ==> forall k | 0 <= k < |items| :: r.value[k] == FieldOf(fields, items[k]).value
    ensures r.Err? ==> r.error == KeyError || r.error == IndexError || r.error == OverflowError
    decreases |items|
  {
    if items == [] then Ok([])
    else
      var v :- FieldOf(fields, items[0]);
      if i < 0 || i >= EzMax then Err(IndexError)
      else if !(0 <= v < Uint32) then Err(OverflowError)
      else
        var rest :- ResolveItems(fields, items[1..], i + 1);
        assert forall k | 1 <= k < |items| :: items[k] == items[1..][k - 1];
        Ok([v] + rest)
  }

  /** `ids` are the uint32 field ids of the fields of group `key`. */
  predicate ResolvedGroup(fields: seq<string>, key: Group, ids: seq<int>) {
    && Seqify(key).Ok?
    && |ids| == |Seqify(key).value|
    && forall k | 0 <= k < |ids| ::
         FieldOf(fields, Seqify(key).value[k]) == Ok(ids[k]) && 0 <= ids[k] < Uint32
  }

  /** The field ids of every group, in the order `make` stores them. */
  function ResolveKeys(fields: seq<string>, keys: seq<Group>, i: int): (r: Result<seq<seq<int>>>)
    ensures r.Ok? ==> |r.value| == |keys| && Fits(r.value, i)
    ensures r.Ok? ==> forall j | 0 <= j < |keys| :: ResolvedGroup(fields, keys[j], r.value[j])
    ensures (forall j | 0 <= j < |keys| :: keys[j].Index?) ==> (r.Ok? <==> keys == [])
    ensures r.Err? ==> r.error in {KeyError, IndexError, OverflowError, TypeError}
    decreases |keys|
  {
    if keys == [] then Ok([])
    else
      var items :- Seqify(keys[0]);
      var ids :- ResolveItems(fields, items, i);
      var rest :- ResolveKeys(fields, keys[1..], i + |items| + 1);
      ResolvedCons(fields, keys, i, items, ids, rest);
      Ok([ids] + rest)
  }

  lemma ResolvedCons(fields: seq<string>, keys: seq<Group>, i: int,
                     items: seq<Fieldish>, ids: seq<int>, rest: seq<seq<int>>)
    requires keys != [] && Seqify(keys[0]) == Ok(items)
    requires ResolveItems(fields, items, i) == Ok(ids)
    requires |rest| == |keys| - 1 && Fits(rest, i + |items| + 1)
    requires forall j | 0 <= j < |rest| :: ResolvedGroup(fields, keys[1..][j], rest[j])
    ensures Fits([ids] + rest, i)
    ensures forall j | 0 <= j < |keys| :: ResolvedGroup(fields, keys[j], ([ids] + rest)[j])
  {
    var r := [ids] + rest;
    assert r[0] == ids && r[1..] == rest;
    assert ResolvedGroup(fields, keys[0], ids);
    forall j | 1 <= j < |keys| ensures ResolvedGroup(fields, keys[j], r[j]) {
      assert keys[j] == keys[1..][j - 1] && r[j] == rest[j - 1];
    }
  }

  /** The `fdb_ez` parameters `make` fills in: `num_keys`, `mask_field`
      and the `key_fields` slots (the engine fills `key_offs`). */
  datatype Params = Params(numKeys: nat, maskField: int, keyFields: seq<int>)

  /** A mask field Python reads as false (`0` or `''`) means no mask. */
  predicate NoMask(mask: Fieldish) {
    mask == ByIndex(0) || mask == ByName("")
  }

  /** The mask-field checks of `make`, then the store of `mask_field or 0`
      into the uint32 `mask_field` slot.  `lexicon_size` hands the field
      to C as a uint32, hence OverflowError for an index outside it; a
      field given by name passes the checks but cannot be stored into an
      integer slot (TypeError). */
  function MaskCheck(tdb: Tdb, mask: Fieldish): (r: Result<int>)
    ensures NoMask(mask) ==> r == Ok(0)
    ensures !NoMask(mask) ==> (r.Ok? <==>
              mask.ByIndex? && 0 <= mask.index < Uint32 && 1 <= tdb.lexiconSize(mask.index) <= 8)
    ensures !NoMask(mask) && r.Ok? ==> r.value == mask.index
    ensures !NoMask(mask) && FieldOf(tdb.fields, mask).Err? ==> r == Err(KeyError)
    ensures !NoMask(mask) && FieldOf(tdb.fields, mask).Ok? &&
            !(0 <= FieldOf(tdb.fields, mask).value < Uint32) ==>
              r == Err(OverflowError)
    ensures !NoMask(mask) && FieldOf(tdb.fields, mask).Ok? &&
            0 <= FieldOf(tdb.fields, mask).value < Uint32 ==>
              var arity := tdb.lexiconSize(FieldOf(tdb.fields, mask).value);
              && (arity < 1 || arity > 8 ==> r == Err(ValueError))
              && (1 <= arity <= 8 && mask.ByName? ==> r == Err(TypeError))
  {
    if NoMask(mask) then Ok(0)
    else
      var field :- FieldOf(tdb.fields, mask);
      if !(0 <= field < Uint32) then Err(OverflowError)
      else
        var arity := tdb.lexiconSize(field);
        if arity < 1 then Err(ValueError)
        else if arity > 8 then Err(ValueError)
        else if mask.ByName? then Err(TypeError)
        else Ok(field)
  }

  /** `FDB.make` up to the call into the engine, as written: the ids are
      stored one by one into a zeroed array of `EzMax` slots, and only a
      store past the end is rejected. */
  function Make(tdb: Tdb, keys: seq<Group>, mask: Fieldish): (r: Result<Params>)
    ensures r.Ok? <==> MaskCheck(tdb, mask).Ok? && ResolveKeys(tdb.fields, keys, 0).Ok?
    ensures r.Ok? ==> r.value.numKeys == |keys| && |r.value.keyFields| == EzMax
    ensures r.Ok? ==> r.value.keyFields == Pad(Layout(ResolveKeys(tdb.fields, keys, 0).value), EzMax)
  {
    var maskField :- MaskCheck(tdb, mask);
    var ids :- ResolveKeys(tdb.fields, keys, 0);
    Ok(Params(|keys|, maskField, Pad(Layout(ids), EzMax)))
  }

  /** The groups `keymap` should yield for `gs` laid out from slot `pos`. */
  function Expected(gs: seq<seq<int>>, pos: int): (r: seq<KeyGroup>)
    ensures |r| == |gs|
  {
    if gs == [] then []
    else [KeyGroup(Sort(gs[0]), pos)] + Expected(gs[1..], pos + |gs[0]| + 1)
  }

  predicate NoZeroIds(gs: seq<seq<int>>) {
    forall j, k | 0 <= j < |gs| && 0 <= k < |gs[j]| :: gs[j][k] != 0
  }

  /** Reading a zero-free run `g` closed by a zero. */
  lemma {:induction false} KeyMapRun(n: nat, f: seq<int>, i: nat, combo: seq<int>, g: seq<int>)
    requires n > 0 && i + |g| < |f|
    requires f[i .. i + |g|] == g && f[i + |g|] == 0
    requires forall k | 0 <= k < |g| :: g[k] != 0
    requires |combo| <= i
    ensures KeyMapFrom(n, f, i, combo) ==
            [KeyGroup(Sort(combo + g), i + |g| - |combo + g|)] + KeyMapFrom(n - 1, f, i + |g| + 1, [])
    decreases |g|
  {
    if g == [] {
      assert combo + g == combo;
    } else {
      assert f[i] == g[0];
      assert f[i + 1 .. i + 1 + |g[1..]|] == g[1..];
      KeyMapRun(n, f, i + 1, combo + [g[0]], g[1..]);
      assert combo + [g[0]] + g[1..] == combo + g;
    }
  }

  /** `keymap` reads back every group of a layout whose ids are non-zero. */
  lemma {:induction false} KeyMapLayout(gs: seq<seq<int>>, f: seq<int>, i: nat)
    requires i + Footprint(gs) <= |f|
    requires f[i .. i + Footprint(gs)] == Layout(gs)
    requires NoZeroIds(gs)
    ensures KeyMapFrom(|gs|, f, i, []) == Expected(gs, i)
    decreases |gs|
  {
    if gs != [] {
      var j := i + |gs[0]| + 1;
      LayoutHead(gs, f, i);
      NoZeroHead(gs);
      NoZeroTail(gs);
      KeyMapLayout(gs[1..], f, j);
      KeyMapLayoutStep(gs, f, i);
    }
  }

  /** One group of a layout read back, given the rest is. */
  lemma KeyMapLayoutStep(gs: seq<seq<int>>, f: seq<int>, i: nat)
    requires gs != [] && i + |gs[0]| < |f|
    requires f[i .. i + |gs[0]|] == gs[0] && f[i + |gs[0]|] == 0
    requires forall k | 0 <= k < |gs[0]| :: gs[0][k] != 0
    requires KeyMapFrom(|gs| - 1, f, i + |gs[0]| + 1, []) == Expected(gs[1..], i + |gs[0]| + 1)
    ensures KeyMapFrom(|gs|, f, i, []) == Expected(gs, i)
  {
    KeyMapRunFresh(|gs|, f, i, gs[0]);
    ExpectedCons(gs, i);
  }

  /** A run read from a fresh start is one group at that start. */
  lemma KeyMapRunFresh(n: nat, f: seq<int>, i: nat, g: seq<int>)
    requires n > 0 && i + |g| < |f|
    requires f[i .. i + |g|] == g && f[i + |g|] == 0
    requires forall k | 0 <= k < |g| :: g[k] != 0
    ensures KeyMapFrom(n, f, i, []) == [KeyGroup(Sort(g), i)] + KeyMapFrom(n - 1, f, i + |g| + 1, [])
  {
    KeyMapRun(n, f, i, [], g);
    assert [] + g == g;
  }

  lemma ExpectedCons(gs: seq<seq<int>>, i: nat)
    requires gs != []
    ensures Expected(gs, i) == [KeyGroup(Sort(gs[0]), i)] + Expected(gs[1..], i + |gs[0]| + 1)
  {}

  /** A layout in `f` from slot `i` is its first group, a zero, then the
      layout of the other groups. */
  lemma LayoutHead(gs: seq<seq<int>>, f: seq<int>, i: nat)
    requires gs != []
    requires i + Footprint(gs) <= |f|
    requires f[i .. i + Footprint(gs)] == Layout(gs)
    ensures var j := i + |gs[0]| + 1;
            f[i .. i + |gs[0]|] == gs[0] && f[i + |gs[0]|] == 0 &&
            j + Footprint(gs[1..]) <= |f| &&
            f[j .. j + Footprint(gs[1..])] == Layout(gs[1..])
  {
    var g := gs[0];
    var j := i + |g| + 1;
    var t := f[i .. i + Footprint(gs)];
    assert t == g + [0] + Layout(gs[1..]);
    assert t[..|g|] == g;
    assert t[|g|] == 0;
    assert t[|g| + 1 ..] == Layout(gs[1..]);
    SliceOfSlice(f, i, i + Footprint(gs), 0, |g|);
    SliceOfSlice(f, i, i + Footprint(gs), |g| + 1, |t|);
  }

  lemma SliceOfSlice(f: seq<int>, a: nat, b: nat, c: nat, d: nat)
    requires a <= b <= |f| && c <= d <= b - a
    ensures f[a .. b][c .. d] == f[a + c .. a + d]
  {
    assert forall k | 0 <= k < d - c :: f[a .. b][c .. d][k] == f[a + c + k];
  }

  lemma NoZeroHead(gs: seq<seq<int>>)
    requires gs != [] && NoZeroIds(gs)
    ensures forall k | 0 <= k < |gs[0]| :: gs[0][k] != 0
  {
    forall k | 0 <= k < |gs[0]| ensures gs[0][k] != 0 {
      assert 0 < |gs|;
    }
  }

  lemma NoZeroTail(gs: seq<seq<int>>)
    requires gs != [] && NoZeroIds(gs)
    ensures NoZeroIds(gs[1..])
  {
    forall a, k | 0 <= a < |gs[1..]| && 0 <= k < |gs[1..][a]| ensures gs[1..][a][k] != 0 {
      assert gs[1..][a] == gs[a + 1];
    }
  }

  /** A run that no zero closes yields nothing. */
  lemma {:induction false} KeyMapUnclosed(n: nat, f: seq<int>, i: nat, combo: seq<int>)
    requires i <= |f|
    requires forall k | i <= k < |f| :: f[k] != 0
    ensures KeyMapFrom(n, f, i, combo) == []
    decreases |f| - i
  {
    if i < |f| && n > 0 {
      KeyMapUnclosed(n, f, i + 1, combo + [f[i]]);
    }
  }

  /** As written, `make` accepts groups whose ids fill all `EzMax` slots,
      leaving no slot for the closing zero, and `keymap` then loses the
      group: one group of the 128 fields `1 .. 128` is laid out, none is
      read back. */
  lemma MakeDropsLastGroup(tdb: Tdb)
    ensures var keys := [Fields(seq(EzMax, k requires 0 <= k < EzMax => ByIndex(k + 1)))];
            var r := Make(tdb, keys, ByIndex(0));
            r.Ok? && |Expected(ResolveKeys(tdb.fields, keys, 0).value, 0)| == 1 &&
            KeyMap(r.value.numKeys, r.value.keyFields) == []
  {
    var items := seq(EzMax, k requires 0 <= k < EzMax => ByIndex(k + 1));
    var keys := [Fields(items)];
    var ids := seq(EzMax, k requires 0 <= k < EzMax => k + 1);
    assert forall k | 0 <= k < |items| :: FieldOf(tdb.fields, items[k]) == Ok(k + 1);
    var r := ResolveItems(tdb.fields, items, 0);
    assert r.Ok?;
    assert r.value == ids;
    assert Seqify(keys[0]) == Ok(items);
    assert keys[1..] == [];
    assert ResolveKeys(tdb.fields, [], |items| + 1) == Ok([]);
    assert ResolveKeys(tdb.fields, keys, 0).Ok?;
    assert ResolveKeys(tdb.fields, keys, 0).value[0] == ids;
    assert ResolveKeys(tdb.fields, keys, 0).value == [ids];
    var f := Make(tdb, keys, ByIndex(0)).value.keyFields;
    assert Layout([ids]) == ids + [0] + Layout([]);
    assert forall k | 0 <= k < |f| :: f[k] == k + 1;
    KeyMapUnclosed(1, f, 0, []);
  }

  /** As written, a mask field given by name passes the mask checks and
      then fails the store into the integer `mask_field` slot, although
      the same field given by index is accepted. */
  lemma MaskByNameRejected(tdb: Tdb, name: string)
    requires name != "" && name in tdb.fields
    requires FieldOf(tdb.fields, ByName(name)).value < Uint32
    requires 1 <= tdb.lexiconSize(FieldOf(tdb.fields, ByName(name)).value) <= 8
    ensures MaskCheck(tdb, ByName(name)) == Err(TypeError)
    ensures FieldOf(tdb.fields, ByName(name)).value != 0 ==>
              MaskCheck(tdb, ByIndex(FieldOf(tdb.fields, ByName(name)).value)).Ok?
  {}

  /** The mask-field step of `make` storing `tdb.field(mask_field)`, the
      evidently intended value, so a field may be named or indexed. */
  function MaskField(tdb: Tdb, mask: Fieldish): (r: Result<int>)
    ensures NoMask(mask) ==> r == Ok(0)
    ensures !NoMask(mask) ==> (r.Ok? <==>
              FieldOf(tdb.fields, mask).Ok? && 0 <= FieldOf(tdb.fields, mask).value < Uint32 &&
              1 <= tdb.lexiconSize(FieldOf(tdb.fields, mask).value) <= 8)
    ensures !NoMask(mask) && r.Ok? ==> r == FieldOf(tdb.fields, mask)
    ensures !NoMask(mask) && FieldOf(tdb.fields, mask).Err? ==> r == Err(KeyError)
  {
    if NoMask(mask) then Ok(0)
    else
      var field :- FieldOf(tdb.fields, mask);
      if !(0 <= field < Uint32) then Err(OverflowError)
      else
        var arity := tdb.lexiconSize(field);
        if arity < 1 then Err(ValueError)
        else if arity > 8 then Err(ValueError)
        else Ok(field)
  }

  /** A field named and the same field indexed give the same mask slot. */
  lemma MaskFieldByName(tdb: Tdb, name: string)
    requires name != "" && name in tdb.fields
    requires FieldOf(tdb.fields, ByName(name)).value != 0
    ensures MaskField(tdb, ByName(name)) == MaskField(tdb, ByIndex(FieldOf(tdb.fields, ByName(name)).value))
  {}

  /** `FDB.make` with its evidently intended checks: the mask field is
      resolved before it is stored, and a layout whose closing zeros do
      not all fit in `EzMax` slots is rejected. */
  function MakeChecked(tdb: Tdb, keys: seq<Group>, mask: Fieldish): (r: Result<Params>)
    ensures r.Ok? <==> MaskField(tdb, mask).Ok? && ResolveKeys(tdb.fields, keys, 0).Ok? &&
                       Footprint(ResolveKeys(tdb.fields, keys, 0).value) <= EzMax
    ensures r.Ok? ==> r.value.numKeys == |keys| && |r.value.keyFields| == EzMax
    ensures r.Ok? ==> r.value.maskField == MaskField(tdb, mask).value
  {
    var maskField :- MaskField(tdb, mask);
    var ids :- ResolveKeys(tdb.fields, keys, 0);
    if Footprint(ids) > EzMax then Err(IndexError)
    else Ok(Params(|keys|, maskField, Pad(Layout(ids), EzMax)))
  }

  /** What `make` writes, `keymap` reads back: every group, in order, as
      its sorted ids and the slot after the previous group's zero. */
  lemma MakeRoundTrip(tdb: Tdb, keys: seq<Group>, mask: Fieldish)
    requires MakeChecked(tdb, keys, mask).Ok?
    requires NoZeroIds(ResolveKeys(tdb.fields, keys, 0).value)
    ensures var p := MakeChecked(tdb, keys, mask).value;
            KeyMap(p.numKeys, p.keyFields) == Expected(ResolveKeys(tdb.fields, keys, 0).value, 0)
  {
    var ids := ResolveKeys(tdb.fields, keys, 0).value;
    var f := MakeChecked(tdb, keys, mask).value.keyFields;
    assert f[0 .. Footprint(ids)] == Layout(ids);
    KeyMapLayout(ids, f, 0);
  }

  /** `make`'s defaults, `keys=((),)` and `mask_field=1`: one empty group,
      read back at slot 0, and the mask on field 1. */
  lemma MakeDefaults(tdb: Tdb)
    requires 1 <= tdb.lexiconSize(1) <= 8
    ensures Make(tdb, [Fields([])], ByIndex(1)).Ok?
    ensures var p := Make(tdb, [Fields([])], ByIndex(1)).value;
            && p.maskField == 1 && p.numKeys == 1
            && KeyMap(p.numKeys, p.keyFields) == [KeyGroup([], 0)]
  {
    var keys := [Fields([])];
    assert Seqify(keys[0]) == Ok([]);
    assert ResolveItems(tdb.fields, [], 0) == Ok([]);
    assert keys[1..] == [];
    assert ResolveKeys(tdb.fields, [], 1) == Ok([]);
    var none: seq<int> := [];
    assert [none] + [] == [none];
    assert ResolveKeys(tdb.fields, keys, 0) == Ok([[]]);
    assert Footprint([[]]) == 1;
    MakeRoundTrip(tdb, keys, ByIndex(1));
    assert Sort([]) == [] by {
      SortSorted([]);
    }
  }
}

=== FILE: funnel_sets.dfy ===
/** Sets of entities built from funnels: `FDBCNF`, `FDBSet` and its simple
    and complex kinds, `FDB.funnel`, `select`, `any` and `all`, the two
    `parse` class methods and `FDBFamily`.  The engine that evaluates a set
    is C code outside this model; `Member` gives a set the meaning its
    construction is designed for: a simple set holds the entities of one
    funnel whose masks satisfy its formula, and a complex set holds the
    entities whose membership in the child sets satisfies its formula. */
module FunnelSets {
  import opened Results
  import opened Cnf
  import opened CnfLaws
  import opened CnfParse
  import opened Masks
  import opened TrailDb
  import opened FunnelCnf
  import opened FunnelKeys
  import opened FunnelDb

  // ---------------------------------------------------------------------
  // Compiled formulas

  /** `fdb_cnf`: the mask pairs of a compiled formula's clauses. */
  type MaskCnf = set<MaskClause>

  /** The engine's reading of a compiled formula for an entity mask. */
  predicate Sat(cnf: MaskCnf, m: bv64) {
    forall mc | mc in cnf :: MaskSat(mc, m)
  }

  /** `FDBCNF(q, mapping)` as the engine receives it. */
  function CompileMasks<T(==)>(q: Q<T>, mapping: T -> Option<int>): (r: Result<MaskCnf>)
    ensures r.Ok? <==> Compile(q, mapping).Ok?
    ensures r.Err? ==> r.error == Compile(q, mapping).error
  {
    var compiled :- Compile(q, mapping);
    Ok(compiled.Values)
  }

  lemma SatValues<T>(r: Compiled<T>, m: bv64)
    ensures Sat(r.Values, m) <==> CompiledSat(r, m)
  {
    if CompiledSat(r, m) {
      forall mc | mc in r.Values ensures MaskSat(mc, m) {
        var c :| c in r && r[c] == mc;
      }
    }
    if Sat(r.Values, m) {
      forall c | c in r ensures MaskSat(r[c], m) {
        assert r[c] in r.Values;
      }
    }
  }

  /** A compiled formula is satisfied by an entity mask exactly when the
      formula holds with every term read as the mask bit it maps to. */
  lemma CompileMasksSat<T>(q: Q<T>, mapping: T -> Option<int>, m: bv64)
    requires CompileMasks(q, mapping).Ok?
    ensures Sat(CompileMasks(q, mapping).value, m) <==> Eval(q, t => Assigned(mapping, m, t))
  {
    SatValues(Compile(q, mapping).value, m);
    CompileSat(q, mapping, m);
  }

  // ---------------------------------------------------------------------
  // Sets and their members

  /** `fdb_elem`: an entity id (`fdb_eid`) and its mask (`fdb_mask`, 16
      bits, widened to the 64 bits a clause mask has). */
  datatype Elem = Elem(id: nat, mask: bv16)

  /** An entity mask as a clause mask reads it: the upper 48 bits clear. */
  function Widen(m: bv16): bv64 {
    m as bv64
  }

  /** The elements of every funnel, as the engine stores them. */
  type Store = int -> seq<Elem>

  /** `FDBSimpleSet` (a funnel and an optional formula over mask values;
      none means every element) and `FDBComplexSet` (child sets and a
      formula over their positions). */
  datatype FSet =
    | Simple(funnelId: int, mask: Option<MaskCnf>)
    | Complex(children: seq<FSet>, cnf: MaskCnf)

  predicate Member(st: Store, s: FSet, x: nat)
    decreases s, 1
  {
    match s
    case Simple(id, cnf) =>
      exists e | e in st(id) :: e.id == x && (cnf.None? || Sat(cnf.value, Widen(e.mask)))
    case Complex(children, cnf) =>
      Sat(cnf, MaskOf(Present(st, s, x)))
  }

  /** The positions of the children of `s` that hold `x`; the engine has
      one mask bit per child. */
  function Present(st: Store, s: FSet, x: nat): set<int>
    requires s.Complex?
    decreases s, 0
  {
    set i | 0 <= i < |s.children| && i < Width && Member(st, s.children[i], x)
  }

  /** Some element of funnel `id` is `x`, and its mask satisfies `q` with
      each term read as the mask bit `mapping` gives it. */
  predicate Selected<T(==)>(st: Store, id: int, q: Q<T>, mapping: T -> Option<int>, x: nat) {
    exists e | e in st(id) :: e.id == x && Eval(q, t => Assigned(mapping, Widen(e.mask), t))
  }

  lemma SimpleMember<T>(st: Store, id: int, q: Q<T>, mapping: T -> Option<int>, x: nat)
    requires CompileMasks(q, mapping).Ok?
    ensures Member(st, Simple(id, Some(CompileMasks(q, mapping).value)), x) <==>
            Selected(st, id, q, mapping, x)
  {
    var cnf := CompileMasks(q, mapping).value;
    forall e | e in st(id)
      ensures Sat(cnf, Widen(e.mask)) <==> Eval(q, t => Assigned(mapping, Widen(e.mask), t))
    {
      CompileMasksSat(q, mapping, Widen(e.mask));
    }
  }

  /** Every complex set in `s` has at most 64 children, one per mask bit. */
  predicate Narrow(s: FSet)
    decreases s
  {
    s.Complex? ==>
      |s.children| <= Width && forall i | 0 <= i < |s.children| :: Narrow(s.children[i])
  }

  // ---------------------------------------------------------------------
  // Formulas over child positions

  function Range(n: nat): (r: seq<int>)
    ensures |r| == n
    ensures forall i | 0 <= i < n :: r[i] == i
  {
    seq(n, i => i)
  }

  /** The truth of a position for `x`: the child there holds `x`. */
  function Holding(st: Store, children: seq<FSet>, x: nat): int -> bool {
    t => 0 <= t < |children| && Member(st, children[t], x)
  }

  /** `FDBCNF(q)` with the default identity mapping, for a formula whose
      terms are child positions. */
  function ChildCnf(q: Q<int>): (cnf: MaskCnf)
    requires forall t | t in Terms(q) :: 0 <= t < Width
  {
    IdentityCapacity(q);
    CompileMasks(q, Identity).value
  }

  /** A complex set over positional formula `q` holds `x` exactly when `q`
      holds with each position read as "that child holds `x`". */
  lemma ChildSat(st: Store, children: seq<FSet>, q: Q<int>, x: nat)
    requires forall t | t in Terms(q) :: 0 <= t < |children| && t < Width
    ensures Member(st, Complex(children, ChildCnf(q)), x) <==> Eval(q, Holding(st, children, x))
  {
    var s := Complex(children, ChildCnf(q));
    var m := MaskOf(Present(st, s, x));
    IdentityCapacity(q);
    CompileMasksSat(q, Identity, m);
    forall t | t in Terms(q)
      ensures Assigned(Identity, m, t) == Holding(st, children, x)(t)
    {
      MaskOfBits(Present(st, s, x), t);
    }
    EvalTermsOnly(q, t => Assigned(Identity, m, t), Holding(st, children, x));
  }

  lemma OneOfRange(n: nat)
    ensures forall t | t in Terms(OneOf(Range(n))) :: 0 <= t < n
  {
    TermsOneOf(Range(n));
  }

  lemma WhereRange(n: nat)
    ensures forall t | t in Terms(Where(Range(n))) :: 0 <= t < n
  {
    TermsWhere(Range(n));
  }

  // ---------------------------------------------------------------------
  // Operators

  /** The operators `&`, `|`, `^`, `*`, `+` and `-` of `FDBSet`. */
  datatype Op = AndOp | OrOp | XorOp | MulOp | AddOp | SubOp

  /** The formula each operator builds over positions 0 and 1. */
  function OpFormula(op: Op): (q: Q<int>) {
    match op
    case AndOp | MulOp => Where([0, 1])
    case OrOp | AddOp => OneOf([0, 1])
    case XorOp => Or(And(Where([0]), WhereNot([1])), And(Where([1]), WhereNot([0])))
    case SubOp => And(Where([0]), WhereNot([1]))
  }

  lemma OpFormulaTerms(op: Op)
    ensures forall t | t in Terms(OpFormula(op)) :: 0 <= t < 2
  {
    match op
    case AndOp | MulOp =>
      TermsWhere([0, 1]);
    case OrOp | AddOp =>
      TermsOneOf([0, 1]);
    case XorOp =>
      XorTerms();
    case SubOp =>
      ButNotTerms([0], [1]);
  }

  lemma ButNotTerms(p: seq<int>, n: seq<int>)
    ensures Terms(And(Where(p), WhereNot(n))) <= (set t | t in p) + (set t | t in n)
  {
    TermsWhere(p); TermsWhereNot(n); TermsAnd(Where(p), WhereNot(n));
  }

  lemma XorTerms()
    ensures Terms(Or(And(Where([0]), WhereNot([1])), And(Where([1]), WhereNot([0])))) <= {0, 1}
  {
    var a, b := And(Where([0]), WhereNot([1])), And(Where([1]), WhereNot([0]));
    ButNotTerms([0], [1]);
    ButNotTerms([1], [0]);
    assert (set t | t in [0]) + (set t | t in [1]) == {0, 1};
    assert (set t | t in [1]) + (set t | t in [0]) == {0, 1};
    TermsOr(a, b);
  }

  /** The boolean operation each operator stands for. */
  predicate Apply(op: Op, p: bool, q: bool) {
    match op
    case AndOp | MulOp => p && q
    case OrOp | AddOp => p || q
    case XorOp => p != q
    case SubOp => p && !q
  }

  /** `a op b`: a complex set over the two operands. */
  function Combine(a: FSet, b: FSet, op: Op): (r: FSet)
    ensures r.Complex? && r.children == [a, b]
  {
    OpFormulaTerms(op);
    Complex([a, b], ChildCnf(OpFormula(op)))
  }

  lemma OpFormulaEval(op: Op, asg: int -> bool)
    ensures Eval(OpFormula(op), asg) <==> Apply(op, asg(0), asg(1))
  {
    match op
    case AndOp | MulOp => BothEval(asg);
    case OrOp | AddOp => EitherEval(asg);
    case XorOp => XorEval(asg);
    case SubOp => ButNotEval(asg);
  }

  lemma BothEval(asg: int -> bool)
    ensures Eval(Where([0, 1]), asg) <==> asg(0) && asg(1)
  {
    WhereEval([0, 1], asg);
    assert [0, 1][0] == 0 && [0, 1][1] == 1;
  }

  lemma EitherEval(asg: int -> bool)
    ensures Eval(OneOf([0, 1]), asg) <==> asg(0) || asg(1)
  {
    OneOfEval([0, 1], asg);
    assert [0, 1][0] == 0 && [0, 1][1] == 1;
  }

  lemma ButNotEval(asg: int -> bool)
    ensures Eval(And(Where([0]), WhereNot([1])), asg) <==> asg(0) && !asg(1)
  {
    WhereEval([0], asg); WhereNotEval([1], asg);
    AndEval(Where([0]), WhereNot([1]), asg);
  }

  lemma XorEval(asg: int -> bool)
    ensures Eval(Or(And(Where([0]), WhereNot([1])), And(Where([1]), WhereNot([0]))), asg)
        <==> asg(0) != asg(1)
  {
    var a, b := And(Where([0]), WhereNot([1])), And(Where([1]), WhereNot([0]));
    assert Eval(a, asg) <==> asg(0) && !asg(1) by {
      WhereEval([0], asg); WhereNotEval([1], asg);
      AndEval(Where([0]), WhereNot([1]), asg);
    }
    assert Eval(b, asg) <==> asg(1) && !asg(0) by {
      WhereEval([1], asg); WhereNotEval([0], asg);
      AndEval(Where([1]), WhereNot([0]), asg);
    }
    AndLeftNonEmpty(Where([0]), WhereNot([1]));
    AndLeftNonEmpty(Where([1]), WhereNot([0]));
    OrEval(a, b, asg);
  }

  lemma AndLeftNonEmpty<T>(a: Q<T>, b: Q<T>)
    requires Wf(a) && Wf(b) && a.clauses != {}
    ensures And(a, b).clauses != {}
  {
    var c :| c in a.clauses;
    assert c in And(a, b).clauses;
  }

  /** Every operator means its boolean operation on membership: `&` and
      `*` intersect, `|` and `+` unite, `^` is the symmetric difference and
      `-` the difference. */
  lemma CombineMember(st: Store, a: FSet, b: FSet, op: Op, x: nat)
    ensures Member(st, Combine(a, b, op), x) <==> Apply(op, Member(st, a, x), Member(st, b, x))
  {
    OpFormulaTerms(op);
    ChildSat(st, [a, b], OpFormula(op), x);
    OpFormulaEval(op, Holding(st, [a, b], x));
  }

  // ---------------------------------------------------------------------
  // any and all

  /** A complex set over `oneOf` of all child positions. */
  function Disjoin(children: seq<FSet>): (r: FSet)
    requires |children| <= Width
    ensures r.Complex? && r.children == children
  {
    OneOfRange(|children|);
    Complex(children, ChildCnf(OneOf(Range(|children|))))
  }

  /** A complex set over `where` of all child positions. */
  function Conjoin(children: seq<FSet>): (r: FSet)
    requires |children| <= Width
    ensures r.Complex? && r.children == children
  {
    WhereRange(|children|);
    Complex(children, ChildCnf(Where(Range(|children|))))
  }

  lemma DisjoinMember(st: Store, children: seq<FSet>, x: nat)
    requires |children| <= Width
    ensures Member(st, Disjoin(children), x) <==>
            |children| == 0 || exists i | 0 <= i < |children| :: Member(st, children[i], x)
  {
    var n := |children|;
    OneOfRange(n);
    ChildSat(st, children, OneOf(Range(n)), x);
    if n > 0 {
      OneOfEval(Range(n), Holding(st, children, x));
      if exists i | 0 <= i < n :: Member(st, children[i], x) {
        var i :| 0 <= i < n && Member(st, children[i], x);
        assert Holding(st, children, x)(Range(n)[i]);
      }
    } else {
      assert OneOf(Range(0)).clauses == {};
    }
  }

  lemma ConjoinMember(st: Store, children: seq<FSet>, x: nat)
    requires |children| <= Width
    ensures Member(st, Conjoin(children), x) <==>
            forall i | 0 <= i < |children| :: Member(st, children[i], x)
  {
    var n := |children|;
    WhereRange(n);
    ChildSat(st, children, Where(Range(n)), x);
    WhereEval(Range(n), Holding(st, children, x));
    if forall i | 0 <= i < n :: Holding(st, children, x)(Range(n)[i]) {
      forall i | 0 <= i < n ensures Member(st, children[i], x) {
        assert Holding(st, children, x)(Range(n)[i]);
      }
    }
  }

  /** The children `any` and `all` keep beyond 64 sets: the first 63 and
      one set standing for the rest. */
  function Folded(sets: seq<FSet>, rest: FSet): (children: seq<FSet>)
    requires |sets| > Width
    ensures |children| == Width && children[Width - 1] == rest
    ensures forall i | 0 <= i < Width - 1 :: children[i] == sets[i]
  {
    sets[..Width - 1] + [rest]
  }

  /** `FDB.any`: beyond 64 sets, the first 63 are kept and the rest become
      one more `any` of their own. */
  function Any(sets: seq<FSet>): (r: FSet)
    ensures r.Complex? && |r.children| <= Width
    decreases |sets|
  {
    if |sets| > Width then Disjoin(Folded(sets, Any(sets[Width - 1..]))) else Disjoin(sets)
  }

  /** `any` holds what some set holds, and `any()` of no sets holds
      everything (a formula without clauses accepts every mask). */
  lemma {:induction false} AnyMember(st: Store, sets: seq<FSet>, x: nat)
    ensures Member(st, Any(sets), x) <==>
            |sets| == 0 || exists i | 0 <= i < |sets| :: Member(st, sets[i], x)
    decreases |sets|
  {
    if |sets| > Width {
      var rest := sets[Width - 1..];
      var children := Folded(sets, Any(rest));
      AnyMember(st, rest, x);
      DisjoinMember(st, children, x);
      if exists i | 0 <= i < |sets| :: Member(st, sets[i], x) {
        var i :| 0 <= i < |sets| && Member(st, sets[i], x);
        if i >= Width - 1 {
          assert rest[i - (Width - 1)] == sets[i];
        } else {
          assert children[i] == sets[i];
        }
      }
      if exists i | 0 <= i < Width :: Member(st, children[i], x) {
        var i :| 0 <= i < Width && Member(st, children[i], x);
        if i == Width - 1 {
          var j :| 0 <= j < |rest| && Member(st, rest[j], x);
          assert sets[j + Width - 1] == rest[j];
        }
      }
    } else {
      DisjoinMember(st, sets, x);
    }
  }

  /** `FDB.all` as written: beyond 64 sets the remainder is wrapped with
      `any`, not with `all`. */
  function AllAsWritten(sets: seq<FSet>): (r: FSet)
    ensures r.Complex? && |r.children| <= Width
  {
    if |sets| > Width then Conjoin(Folded(sets, Any(sets[Width - 1..]))) else Conjoin(sets)
  }

  /** Over more than 64 sets the set built by `all` as written holds an
      entity that is in each of the first 64 sets but not in the 65th. */
  lemma AllAsWrittenAdmits(st: Store, sets: seq<FSet>, x: nat)
    requires |sets| > Width
    requires forall i | 0 <= i < Width :: Member(st, sets[i], x)
    requires !Member(st, sets[Width], x)
    ensures Member(st, AllAsWritten(sets), x)
    ensures !forall i | 0 <= i < |sets| :: Member(st, sets[i], x)
  {
    var rest := sets[Width - 1..];
    var children := Folded(sets, Any(rest));
    ConjoinMember(st, children, x);
    AnyMember(st, rest, x);
    assert rest[0] == sets[Width - 1];
  }

  /** `FDB.all` as intended: beyond 64 sets the remainder is wrapped with
      `all` itself. */
  function All(sets: seq<FSet>): (r: FSet)
    ensures r.Complex? && |r.children| <= Width
    decreases |sets|
  {
    if |sets| > Width then Conjoin(Folded(sets, All(sets[Width - 1..]))) else Conjoin(sets)
  }

  /** `all` holds what every set holds. */
  lemma {:induction false} AllMember(st: Store, sets: seq<FSet>, x: nat)
    ensures Member(st, All(sets), x) <==> forall i | 0 <= i < |sets| :: Member(st, sets[i], x)
    decreases |sets|
  {
    if |sets| > Width {
      var rest := sets[Width - 1..];
      var children := Folded(sets, All(rest));
      AllMember(st, rest, x);
      ConjoinMember(st, children, x);
      if forall i | 0 <= i < Width :: Member(st, children[i], x) {
        forall i | 0 <= i < |sets| ensures Member(st, sets[i], x) {
          if i >= Width - 1 {
            assert rest[i - (Width - 1)] == sets[i];
          } else {
            assert children[i] == sets[i];
          }
        }
      }
      if forall i | 0 <= i < |sets| :: Member(st, sets[i], x) {
        forall j | 0 <= j < |rest| ensures Member(st, rest[j], x) {
          assert rest[j] == sets[j + Width - 1];
        }
      }
    } else {
      ConjoinMember(st, sets, x);
    }
  }

  /** Built from sets of at most 64 children each, `any` and `all` keep
      every complex set within the 64 bits of a clause mask. */
  lemma {:induction false} AnyNarrow(sets: seq<FSet>)
    requires forall i | 0 <= i < |sets| :: Narrow(sets[i])
    ensures Narrow(Any(sets))
    decreases |sets|
  {
    if |sets| > Width {
      AnyNarrow(sets[Width - 1..]);
      var children := Folded(sets, Any(sets[Width - 1..]));
      assert forall i | 0 <= i < Width :: Narrow(children[i]);
    }
  }

  lemma {:induction false} AllNarrow(sets: seq<FSet>)
    requires forall i | 0 <= i < |sets| :: Narrow(sets[i])
    ensures Narrow(All(sets))
    decreases |sets|
  {
    if |sets| > Width {
      AllNarrow(sets[Width - 1..]);
      var children := Folded(sets, All(sets[Width - 1..]));
      assert forall i | 0 <= i < Width :: Narrow(children[i]);
    }
  }

  // ---------------------------------------------------------------------
  // funnel and select

  /** `FDB.funnel`: a funnel id outside `0 .. num_funnels - 1` is an
      IndexError. */
  function Funnel(db: Fdb, id: int, cnf: Option<MaskCnf>): (r: Result<FSet>)
    ensures r.Ok? <==> 0 <= id < db.numFunnels
    ensures r.Ok? ==> r.value.Simple? && r.value.funnelId == id && r.value.mask == cnf
    ensures r.Err? ==> r.error == IndexError
  {
    if id < 0 || id >= db.numFunnels then Err(IndexError) else Ok(Simple(id, cnf))
  }

  /** `FDB.mask_val` as a term mapping: a value of the mask field maps to
      its value id, and a value the field does not have maps to nothing
      (the KeyError of `TDB.item`). */
  function MaskIndex(db: Fdb): string -> Option<int> {
    v =>
      var r := LexiconVal(db.tdb.fields, ByIndex(db.params.maskField), v, db.tdb.getItem);
      if r.Ok? then Some(r.value as int) else None
  }

  /** The mask field is a field of the list that the store takes, so the
      only way `mask_val` fails is the KeyError of an unknown value. */
  lemma MaskIndexNone(db: Fdb, v: string)
    requires Valid(db)
    ensures MaskIndex(db)(v).None? <==>
              LexiconVal(db.tdb.fields, ByIndex(db.params.maskField), v, db.tdb.getItem) == Err(KeyError)
  {}

  /** `FDB.select`: the mask formula (the keyword named after the mask
      field, separated out here as `mask`; an empty formula when absent)
      is compiled first, then the remaining keywords address a funnel. */
  function Select(db: Fdb, key: Key, mask: Q<string>): (r: Result<FSet>)
    requires Valid(db)
    ensures CompileMasks(mask, MaskIndex(db)).Err? ==>
              r == Err(CompileMasks(mask, MaskIndex(db)).error)
    ensures CompileMasks(mask, MaskIndex(db)).Ok? && FunnelIdDict(db, key).Err? ==>
              r == Err(FunnelIdDict(db, key).error)
    ensures r.Ok? <==> CompileMasks(mask, MaskIndex(db)).Ok? && FunnelIdDict(db, key).Ok? &&
                       0 <= FunnelIdDict(db, key).value < db.numFunnels
    ensures CompileMasks(mask, MaskIndex(db)).Ok? && FunnelIdDict(db, key).Ok? &&
            !(0 <= FunnelIdDict(db, key).value < db.numFunnels) ==>
              r == Err(IndexError)
  {
    var cnf :- CompileMasks(mask, MaskIndex(db));
    var id :- FunnelIdDict(db, key);
    Funnel(db, id, Some(cnf))
  }

  /** A selected set holds the entities of the addressed funnel whose
      masks carry the values the mask formula asks for. */
  lemma SelectMember(st: Store, db: Fdb, key: Key, mask: Q<string>, x: nat)
    requires Valid(db) && Select(db, key, mask).Ok?
    ensures Member(st, Select(db, key, mask).value, x) <==>
            Selected(st, FunnelIdDict(db, key).value, mask, MaskIndex(db), x)
  {
    SimpleMember(st, FunnelIdDict(db, key).value, mask, MaskIndex(db), x);
  }

  // ---------------------------------------------------------------------
  // Parsing simple sets

  /** The text before the `/` of a simple set. */
  function KeyPart(s: string): string {
    Split(s, '/')[0]
  }

  /** The text after the `/` of a simple set, empty when there is none. */
  function MaskPart(s: string): string {
    var parts := Split(s, '/');
    if |parts| >= 2 then parts[1] else ""
  }

  /** A mask formula in the extended syntax, compiled over mask values. */
  ghost function MaskFormula(db: Fdb, s: string): (r: Result<MaskCnf>)
    ensures r.Ok? <==> Parse(s, true).Ok? && CompileMasks(Parse(s, true).value, MaskIndex(db)).Ok?
  {
    var q :- Parse(s, true);
    CompileMasks(q, MaskIndex(db))
  }

  /** `FDBSimpleSet.parse`: `key/mask`.  A second `/` is a ValueError (two
      names cannot take three parts); the key is a text key and the mask
      an extended formula; the funnel id is not checked against the number
      of funnels, but one outside 32 bits does not fit `fdb_fid`. */
  ghost function SimpleSetParse(db: Fdb, s: string, unquote: string -> string): (r: Result<FSet>)
    requires Valid(db)
    ensures |Split(s, '/')| > 2 ==> r == Err(ValueError)
    ensures r.Ok? <==> && |Split(s, '/')| <= 2
                       && FunnelId(db, KText(KeyPart(s)), unquote).Ok?
                       && MaskFormula(db, MaskPart(s)).Ok?
                       && 0 <= FunnelId(db, KText(KeyPart(s)), unquote).value < Uint32
    ensures |Split(s, '/')| <= 2 && FunnelId(db, KText(KeyPart(s)), unquote).Err? ==>
              r == Err(FunnelId(db, KText(KeyPart(s)), unquote).error)
    ensures |Split(s, '/')| <= 2 && FunnelId(db, KText(KeyPart(s)), unquote).Ok? &&
            MaskFormula(db, MaskPart(s)).Err? ==>
              r == Err(MaskFormula(db, MaskPart(s)).error)
    ensures |Split(s, '/')| <= 2 && FunnelId(db, KText(KeyPart(s)), unquote).Ok? &&
            MaskFormula(db, MaskPart(s)).Ok? &&
            !(0 <= FunnelId(db, KText(KeyPart(s)), unquote).value < Uint32) ==>
              r == Err(OverflowError)
    ensures r.Ok? ==> r.value.Simple? && r.value.mask.Some?
    ensures r.Ok? ==> FunnelId(db, KText(KeyPart(s)), unquote) == Ok(r.value.funnelId)
    ensures r.Ok? ==> 0 <= r.value.funnelId < Uint32
    ensures r.Ok? ==> MaskFormula(db, MaskPart(s)) == Ok(r.value.mask.value)
  {
    if |Split(s, '/')| > 2 then Err(ValueError)
    else
      var id :- FunnelId(db, KText(KeyPart(s)), unquote);
      var cnf :- MaskFormula(db, MaskPart(s));
      if 0 <= id < Uint32 then Ok(Simple(id, Some(cnf))) else Err(OverflowError)
  }

  /** A parsed simple set holds the entities of the funnel its key
      addresses whose masks satisfy its mask formula. */
  lemma SimpleSetParseMember(st: Store, db: Fdb, s: string, unquote: string -> string, x: nat)
    requires Valid(db) && SimpleSetParse(db, s, unquote).Ok?
    ensures Parse(MaskPart(s), true).Ok?
    ensures Member(st, SimpleSetParse(db, s, unquote).value, x) <==>
            Selected(st, SimpleSetParse(db, s, unquote).value.funnelId,
                     Parse(MaskPart(s), true).value, MaskIndex(db), x)
  {
    var r := SimpleSetParse(db, s, unquote).value;
    var q := Parse(MaskPart(s), true).value;
    assert r == Simple(r.funnelId, Some(CompileMasks(q, MaskIndex(db)).value));
    SimpleMember(st, r.funnelId, q, MaskIndex(db), x);
  }

  /** A set written `key/mask` with neither part holding a `/` reads back
      as that key and that mask. */
  lemma SimpleSetParts(key: string, mask: string)
    requires '/' !in key && '/' !in mask
    ensures Split(key + "/" + mask, '/') == [key, mask]
    ensures KeyPart(key + "/" + mask) == key && MaskPart(key + "/" + mask) == mask
  {
    assert JoinWith([key, mask], '/') == key + "/" + mask by {
      assert JoinWith([mask], '/') == mask;
    }
    SplitJoin([key, mask], '/');
  }

  // ---------------------------------------------------------------------
  // Parsing complex sets

  /** `leaves` lists the members of `ts`, each once. */
  ghost predicate Lists(leaves: seq<string>, ts: set<string>) {
    (forall i, j | 0 <= i < j < |leaves| :: leaves[i] != leaves[j]) &&
    (forall t :: t in leaves <==> t in ts)
  }

  lemma {:induction false} ListsExist(ts: set<string>)
    ensures exists leaves :: Lists(leaves, ts)
    decreases |ts|
  {
    if ts == {} {
      assert Lists([], ts);
    } else {
      var t :| t in ts;
      ListsExist(ts - {t});
      var rest :| Lists(rest, ts - {t});
      assert Lists([t] + rest, ts);
    }
  }

  /** `list(set(...))`: the leaves of a formula in some order. */
  ghost function Listing(ts: set<string>): (leaves: seq<string>)
    ensures Lists(leaves, ts)
  {
    ListsExist(ts);
    var leaves :| Lists(leaves, ts);
    leaves
  }

  /** `sets.index`: the position of a leaf. */
  function Positions(leaves: seq<string>): string -> Option<int> {
    t => match IndexOf(leaves, t)
      case None => None
      case Some(i) => Some(i as int)
  }

  /** Each leaf parsed as a simple set; the first failure is the result. */
  ghost function ParseLeaves(db: Fdb, leaves: seq<string>, unquote: string -> string): (r: Result<seq<FSet>>)
    requires Valid(db)
    ensures r.Ok? ==> |r.value| == |leaves|
    ensures r.Ok? ==> forall i | 0 <= i < |leaves| :: SimpleSetParse(db, leaves[i], unquote) == Ok(r.value[i])
    ensures r.Ok? <==> forall i | 0 <= i < |leaves| :: SimpleSetParse(db, leaves[i], unquote).Ok?
  {
    ParseEach(leaves, t => SimpleSetParse(db, t, unquote))
  }

  /** A comprehension of parses, `[parse(x) for x in xs]`: the first
      failure is the result. */
  function ParseEach<B>(xs: seq<string>, parse: string -> Result<B>): (r: Result<seq<B>>)
    ensures r.Ok? ==> |r.value| == |xs|
    ensures r.Ok? ==> forall i | 0 <= i < |xs| :: parse(xs[i]) == Ok(r.value[i])
    ensures r.Ok? <==> forall i | 0 <= i < |xs| :: parse(xs[i]).Ok?
    ensures r.Err? ==> exists i | 0 <= i < |xs| :: parse(xs[i]) == Err(r.error)
  {
    if xs == [] then Ok([])
    else
      var first :- parse(xs[0]);
      var rest :- ParseEach(xs[1..], parse);
      assert forall i | 1 <= i < |xs| :: xs[i] == xs[1..][i - 1];
      Ok([first] + rest)
  }

  /** A complex set over the given listing of a formula's leaves. */
  ghost function ComplexFrom(db: Fdb, q: Q<string>, leaves: seq<string>,
                             unquote: string -> string): (r: Result<FSet>)
    requires Valid(db)
    ensures r.Ok? ==> r.value.Complex? && |r.value.children| == |leaves|
  {
    var children :- ParseLeaves(db, leaves, unquote);
    var cnf :- CompileMasks(q, Positions(leaves));
    Ok(Complex(children, cnf))
  }

  /** `FDBComplexSet.parse`: a formula in the plain syntax whose leaves
      are simple sets. */
  ghost function ComplexSetParse(db: Fdb, s: string, unquote: string -> string): (r: Result<FSet>)
    requires Valid(db)
    ensures Parse(s, false).Err? ==> r == Err(Parse(s, false).error)
  {
    var q :- Parse(s, false);
    ComplexFrom(db, q, Listing(Terms(q)), unquote)
  }

  /** In a listing, a leaf's position is its index. */
  lemma PositionOfLeaf(leaves: seq<string>, ts: set<string>, i: nat)
    requires Lists(leaves, ts) && i < |leaves|
    ensures Positions(leaves)(leaves[i]) == Some(i as int)
  {
    assert IndexOf(leaves, leaves[i]).Some?;
  }

  /** Over a listing of its leaves, some literal of `q` has a position
      past `hi` exactly when there are more than `hi + 1` leaves. */
  lemma PositionsOutside(q: Q<string>, leaves: seq<string>, hi: nat)
    requires Lists(leaves, Terms(q))
    ensures !SomeUnmapped(q, Positions(leaves))
    ensures SomeOutside(q, Positions(leaves), 0, hi) <==> |leaves| > hi + 1
  {
    var mapping := Positions(leaves);
    forall c, l | c in q.clauses && l in c.literals
      ensures mapping(l.term).Some? && 0 <= mapping(l.term).value < |leaves|
    {
      assert l.term in Terms(q);
    }
    if |leaves| > hi + 1 {
      var t := leaves[hi + 1];
      assert t in Terms(q);
      var c, l :| c in q.clauses && l in c.literals && l.term == t;
      PositionOfLeaf(leaves, Terms(q), hi + 1);
    }
  }

  /** A listing is as long as the set it lists. */
  lemma {:induction false} ListsCard(leaves: seq<string>, ts: set<string>)
    requires Lists(leaves, ts)
    ensures |leaves| == |ts|
    decreases |leaves|
  {
    if leaves != [] {
      var rest := ts - {leaves[0]};
      assert Lists(leaves[1..], rest) by {
        forall t ensures t in leaves[1..] <==> t in rest {
          if t in leaves[1..] {
            var k :| 0 <= k < |leaves[1..]| && leaves[1..][k] == t;
            assert leaves[k + 1] == t;
          }
          if t in rest {
            var k :| 0 <= k < |leaves| && leaves[k] == t;
            assert leaves[1..][k - 1] == t;
          }
        }
      }
      ListsCard(leaves[1..], rest);
    }
  }

  /** The outcome of building a complex set over a listing of its leaves:
      the first leaf that fails to parse decides the error; otherwise the
      leaf positions compile unless there are more than 64 leaves --
      position 64 overflows the mask and a later one fails the guard. */
  lemma ComplexFromOutcome(db: Fdb, q: Q<string>, leaves: seq<string>, unquote: string -> string)
    requires Valid(db) && Lists(leaves, Terms(q))
    ensures ComplexFrom(db, q, leaves, unquote).Ok? <==>
              ParseLeaves(db, leaves, unquote).Ok? && |leaves| <= Width
    ensures ParseLeaves(db, leaves, unquote).Err? ==>
              ComplexFrom(db, q, leaves, unquote) == Err(ParseLeaves(db, leaves, unquote).error)
    ensures ParseLeaves(db, leaves, unquote).Ok? && |leaves| == Width + 1 ==>
              ComplexFrom(db, q, leaves, unquote) == Err(OverflowError)
    ensures ParseLeaves(db, leaves, unquote).Ok? && |leaves| > Width + 1 ==>
              ComplexFrom(db, q, leaves, unquote) == Err(ValueError)
  {
    PositionsOutside(q, leaves, Width - 1);
    PositionsOutside(q, leaves, Width);
  }

  /** `FDBComplexSet.parse` of a formula that parses succeeds exactly when
      every leaf parses as a simple set and there are at most 64 distinct
      leaves; a failing leaf's error is the result, and too many leaves
      are an OverflowError (65) or a ValueError (more). */
  lemma ComplexSetParseOutcome(db: Fdb, s: string, unquote: string -> string)
    requires Valid(db) && Parse(s, false).Ok?
    ensures var q := Parse(s, false).value;
            var r := ComplexSetParse(db, s, unquote);
            var leavesOk := forall t | t in Terms(q) :: SimpleSetParse(db, t, unquote).Ok?;
            && (r.Ok? <==> leavesOk && |Terms(q)| <= Width)
            && (!leavesOk ==> r.Err? && exists t | t in Terms(q) :: SimpleSetParse(db, t, unquote) == Err(r.error))
            && (leavesOk && |Terms(q)| == Width + 1 ==> r == Err(OverflowError))
            && (leavesOk && |Terms(q)| > Width + 1 ==> r == Err(ValueError))
  {
    var q := Parse(s, false).value;
    var leaves := Listing(Terms(q));
    ListsCard(leaves, Terms(q));
    ComplexFromOutcome(db, q, leaves, unquote);
    if ParseLeaves(db, leaves, unquote).Err? {
      FailingLeaf(db, q, leaves, unquote);
    }
  }

  lemma FailingLeaf(db: Fdb, q: Q<string>, leaves: seq<string>, unquote: string -> string)
    requires Valid(db) && Lists(leaves, Terms(q)) && ParseLeaves(db, leaves, unquote).Err?
    ensures exists t | t in Terms(q) ::
              SimpleSetParse(db, t, unquote) == Err(ParseLeaves(db, leaves, unquote).error)
  {
    var e := ParseLeaves(db, leaves, unquote).error;
    var i :| 0 <= i < |leaves| && SimpleSetParse(db, leaves[i], unquote) == Err(e);
    assert leaves[i] in Terms(q);
  }

  /** Leaf text `t` read as a simple set holds `x`. */
  ghost predicate LeafMember(st: Store, db: Fdb, unquote: string -> string, x: nat, t: string) {
    Valid(db) && SimpleSetParse(db, t, unquote).Ok? && Member(st, SimpleSetParse(db, t, unquote).value, x)
  }

  /** A term of a formula whose masks compile has an in-range bit. */
  lemma LeafInRange(q: Q<string>, mapping: string -> Option<int>, t: string)
    requires CompileMasks(q, mapping).Ok? && t in Terms(q) && mapping(t).Some?
    ensures 0 <= mapping(t).value < Width
  {
    var c, l :| c in q.clauses && l in c.literals && l.term == t;
    assert !SomeOutside(q, mapping, 0, Width - 1);
  }

  /** Bit `i` of a complex set's presence mask is leaf `i`'s membership. */
  lemma LeafChild(st: Store, db: Fdb, leaves: seq<string>, unquote: string -> string,
                  x: nat, r: FSet, i: nat)
    requires Valid(db) && ParseLeaves(db, leaves, unquote).Ok?
    requires r.Complex? && r.children == ParseLeaves(db, leaves, unquote).value
    requires i < |leaves| && i < Width
    ensures i in Present(st, r, x) <==> LeafMember(st, db, unquote, x, leaves[i])
  {
    assert SimpleSetParse(db, leaves[i], unquote) == Ok(r.children[i]);
  }

  /** The child sets listed: each holds what its leaf's simple set holds. */
  lemma ComplexFromMember(st: Store, db: Fdb, q: Q<string>, leaves: seq<string>,
                          unquote: string -> string, x: nat)
    requires Valid(db) && Lists(leaves, Terms(q))
    requires ComplexFrom(db, q, leaves, unquote).Ok?
    ensures Member(st, ComplexFrom(db, q, leaves, unquote).value, x) <==>
            Eval(q, t => LeafMember(st, db, unquote, x, t))
  {
    var r := ComplexFrom(db, q, leaves, unquote).value;
    var children := ParseLeaves(db, leaves, unquote).value;
    var mapping := Positions(leaves);
    var m := MaskOf(Present(st, r, x));
    CompileMasksSat(q, mapping, m);
    forall t | t in Terms(q)
      ensures Assigned(mapping, m, t) == LeafMember(st, db, unquote, x, t)
    {
      assert t in leaves;
      var i := IndexOf(leaves, t).value;
      LeafInRange(q, mapping, t);
      MaskOfBits(Present(st, r, x), i);
      LeafChild(st, db, leaves, unquote, x, r, i);
    }
    EvalTermsOnly(q, t => Assigned(mapping, m, t), t => LeafMember(st, db, unquote, x, t));
  }

  /** A parsed complex set holds `x` exactly when its formula holds with
      each leaf read as "the leaf's simple set holds `x`". */
  lemma ComplexSetParseMember(st: Store, db: Fdb, s: string, unquote: string -> string, x: nat)
    requires Valid(db) && ComplexSetParse(db, s, unquote).Ok?
    ensures Parse(s, false).Ok?
    ensures Member(st, ComplexSetParse(db, s, unquote).value, x) <==>
            Eval(Parse(s, false).value, t => LeafMember(st, db, unquote, x, t))
  {
    var q := Parse(s, false).value;
    ComplexFromMember(st, db, q, Listing(Terms(q)), unquote, x);
  }

  // ---------------------------------------------------------------------
  // Families

  /** `FDBFamily.parse`: one compiled mask formula per string. */
  ghost function FamilyParse(db: Fdb, strings: seq<string>): (r: Result<seq<MaskCnf>>)
    ensures r.Ok? ==> |r.value| == |strings|
    ensures r.Ok? ==> forall i | 0 <= i < |strings| :: MaskFormula(db, strings[i]) == Ok(r.value[i])
    ensures r.Ok? <==> forall i | 0 <= i < |strings| :: MaskFormula(db, strings[i]).Ok?
  {
    ParseEach(strings, t => MaskFormula(db, t))
  }

  /** `FDBFamily.counts`: the funnel the key addresses (its id stored in a
      32-bit field) and, per formula, the engine's count of its elements
      that satisfy it, which `count` stands for. */
  function Counts(db: Fdb, family: seq<MaskCnf>, key: KeyArg, unquote: string -> string,
                  count: (int, MaskCnf) -> nat): (r: Result<seq<nat>>)
    requires Valid(db)
    ensures FunnelId(db, key, unquote).Err? ==> r == Err(FunnelId(db, key, unquote).error)
    ensures r.Ok? ==> |r.value| == |family|
    ensures FunnelId(db, key, unquote).Ok? ==>
              (r.Ok? <==> 0 <= FunnelId(db, key, unquote).value < Uint32)
    ensures FunnelId(db, key, unquote).Ok? && !(0 <= FunnelId(db, key, unquote).value < Uint32) ==>
              r == Err(OverflowError)
    ensures r.Ok? ==> forall i | 0 <= i < |family| ::
              r.value[i] == count(FunnelId(db, key, unquote).value, family[i])
  {
    var id :- FunnelId(db, key, unquote);
    if 0 <= id < Uint32 then Ok(seq(|family|, i requires 0 <= i < |family| => count(id, family[i])))
    else Err(OverflowError)
  }

  /** Counting a family for a key gives, formula by formula, the count of
      the simple set written `key/formula`. */
  lemma CountsAreSimpleSets(db: Fdb, strings: seq<string>, key: string, unquote: string -> string,
                            count: (int, MaskCnf) -> nat, i: nat)
    requires Valid(db) && FamilyParse(db, strings).Ok?
    requires Counts(db, FamilyParse(db, strings).value, KText(key), unquote, count).Ok?
    requires i < |strings| && '/' !in key && '/' !in strings[i]
    ensures SimpleSetParse(db, key + "/" + strings[i], unquote).Ok?
    ensures var set_ := SimpleSetParse(db, key + "/" + strings[i], unquote).value;
            Counts(db, FamilyParse(db, strings).value, KText(key), unquote, count).value[i] ==
              count(set_.funnelId, set_.mask.value)
  {
    var family := FamilyParse(db, strings).value;
    var text := key + "/" + strings[i];
    SimpleSetParts(key, strings[i]);
    assert MaskFormula(db, strings[i]) == Ok(family[i]);
    var id := FunnelId(db, KText(key), unquote).value;
    assert SimpleSetParse(db, text, unquote) == Ok(Simple(id, Some(family[i])));
  }
}

=== FILE: masks.dfy ===
/** 64-bit masks as the funnel engine stores them: `uint64_t terms` and
    `uint64_t nterms` of a compiled clause, and the per-entity mask. */
module Masks {

  const Width: nat := 64

  /** Bit `i` of `m`. */
  predicate Bit(m: bv64, i: nat)
    requires i < Width
  {
    BitAt(m, i as bv7)
  }

  predicate BitAt(m: bv64, i: bv7)
    requires i < 64
  {
    (m >> i) & 1 == 1
  }

  /** `1 << i`. */
  function Single(i: nat): (m: bv64)
    requires i < Width
  {
    (1 as bv64) << (i as bv7)
  }

  lemma SingleAt(i: bv7, j: bv7)
    requires i < 64 && j < 64
    ensures BitAt((1 as bv64) << i, j) <==> i == j
  {}

  lemma SingleBit(i: nat, j: nat)
    requires i < Width && j < Width
    ensures Bit(Single(i), j) <==> i == j
  {
    SingleAt(i as bv7, j as bv7);
    Bv7Cast(i);
    Bv7Cast(j);
  }

  lemma Bv7Cast(i: nat)
    requires i < Width
    ensures (i as bv7) as nat == i
  {}

  lemma OrBit(a: bv64, b: bv64, j: nat)
    requires j < Width
    ensures Bit(a | b, j) <==> Bit(a, j) || Bit(b, j)
  {
    OrAt(a, b, j as bv7);
  }

  lemma OrAt(a: bv64, b: bv64, j: bv7)
    requires j < 64
    ensures BitAt(a | b, j) <==> BitAt(a, j) || BitAt(b, j)
  {}

  lemma AndBit(a: bv64, b: bv64, j: nat)
    requires j < Width
    ensures Bit(a & b, j) <==> Bit(a, j) && Bit(b, j)
  {
    AndAt(a, b, j as bv7);
  }

  lemma AndAt(a: bv64, b: bv64, j: bv7)
    requires j < 64
    ensures BitAt(a & b, j) <==> BitAt(a, j) && BitAt(b, j)
  {}

  lemma ComplementBit(a: bv64, j: nat)
    requires j < Width
    ensures Bit(!a, j) <==> !Bit(a, j)
  {
    ComplementAt(a, j as bv7);
  }

  lemma ComplementAt(a: bv64, j: bv7)
    requires j < 64
    ensures BitAt(!a, j) <==> !BitAt(a, j)
  {}

  lemma ZeroBit(j: nat)
    requires j < Width
    ensures !Bit(0, j)
  {}

  /** The mask whose bits below `k` are zero and whose other bits are
      exactly the members of `s`. */
  function MaskFrom(s: set<int>, k: nat): (m: bv64)
    requires k <= Width
    decreases Width - k
  {
    if k == Width then 0
    else (if k in s then Single(k) else 0) | MaskFrom(s, k + 1)
  }

  lemma {:induction false} MaskFromBits(s: set<int>, k: nat, j: nat)
    requires k <= Width && j < Width
    ensures Bit(MaskFrom(s, k), j) <==> k <= j && j in s
    decreases Width - k
  {
    if k == Width {
      ZeroBit(j);
    } else {
      var head: bv64 := if k in s then Single(k) else 0;
      var tail := MaskFrom(s, k + 1);
      assert MaskFrom(s, k) == head | tail;
      MaskFromBits(s, k + 1, j);
      OrBit(head, tail, j);
      HeadBit(s, k, j);
    }
  }

  /** The contribution of position `k` to `MaskFrom`. */
  lemma HeadBit(s: set<int>, k: nat, j: nat)
    requires k < Width && j < Width
    ensures Bit(if k in s then Single(k) else 0, j) <==> k == j && k in s
  {
    if k in s {
      SingleBit(k, j);
    } else {
      ZeroBit(j);
    }
  }

  /** The mask with bit `i` set for every `i` in `s` below 64. */
  function MaskOf(s: set<int>): (m: bv64)
    ensures forall j | 0 <= j < Width :: Bit(m, j) <==> j in s
  {
    var m := MaskFrom(s, 0);
    forall j | 0 <= j < Width ensures Bit(m, j) <==> j in s {
      MaskFromBits(s, 0, j);
    }
    m
  }

  /** Bit `j` of `MaskOf(s)` is set exactly when `j` is in `s`. */
  lemma MaskOfBits(s: set<int>, j: nat)
    requires j < Width
    ensures Bit(MaskOf(s), j) <==> j in s
  {
    MaskFromBits(s, 0, j);
  }

  /** A mask is zero exactly when it has no set bit. */
  lemma {:induction false} NonZeroHasBit(m: bv64)
    ensures m != 0 <==> exists j | 0 <= j < Width :: Bit(m, j)
  {
    if m != 0 {
      var j := LowestBit(m, 0);
      assert Bit(m, j);
    } else {
      forall j | 0 <= j < Width ensures !Bit(m, j) {
        ZeroBit(j);
      }
    }
  }

  /** The lowest set bit at or above `k`. */
  lemma {:induction false} LowestBit(m: bv64, k: nat) returns (j: nat)
    requires m != 0 && k <= Width
    requires forall i | 0 <= i < k :: !Bit(m, i)
    ensures k <= j < Width && Bit(m, j)
    decreases Width - k
  {
    if k == Width {
      assert m == 0 by { NoBitIsZero(m); }
    } else if Bit(m, k) {
      j := k;
    } else {
      j := LowestBit(m, k + 1);
    }
  }

  lemma NoBitIsZero(m: bv64)
    requires forall i | 0 <= i < Width :: !Bit(m, i)
    ensures m == 0
  {
    forall i: bv7 | i < 64 ensures !BitAt(m, i) {
      Bv7Back(i);
      assert !Bit(m, i as nat);
    }
    QuarterClear0(m);
    QuarterClear1(m);
    QuarterClear2(m);
    QuarterClear3(m);
    assert m == (m & 0x0000_0000_0000_FFFF) | (m & 0x0000_0000_FFFF_0000) | (m & 0x0000_FFFF_0000_0000) | (m & 0xFFFF_0000_0000_0000);
  }

  lemma Bv7Back(i: bv7)
    requires i < 64
    ensures (i as nat) as bv7 == i
  {}

  lemma QuarterClear0(m: bv64)
    requires forall i: bv7 | i < 64 :: !BitAt(m, i)
    ensures m & 0x0000_0000_0000_FFFF == 0
  {
    assert !BitAt(m, 0) && !BitAt(m, 1) && !BitAt(m, 2) && !BitAt(m, 3) && !BitAt(m, 4) && !BitAt(m, 5) && !BitAt(m, 6) && !BitAt(m, 7);
    assert !BitAt(m, 8) && !BitAt(m, 9) && !BitAt(m, 10) && !BitAt(m, 11) && !BitAt(m, 12) && !BitAt(m, 13) && !BitAt(m, 14) && !BitAt(m, 15);
  }

  lemma QuarterClear1(m: bv64)
    requires forall i: bv7 | i < 64 :: !BitAt(m, i)
    ensures m & 0x0000_0000_FFFF_0000 == 0
  {
    assert !BitAt(m, 16) && !BitAt(m, 17) && !BitAt(m, 18) && !BitAt(m, 19) && !BitAt(m, 20) && !BitAt(m, 21) && !BitAt(m, 22) && !BitAt(m, 23);
    assert !BitAt(m, 24) && !BitAt(m, 25) && !BitAt(m, 26) && !BitAt(m, 27) && !BitAt(m, 28) && !BitAt(m, 29) && !BitAt(m, 30) && !BitAt(m, 31);
  }

  lemma QuarterClear2(m: bv64)
    requires forall i: bv7 | i < 64 :: !BitAt(m, i)
    ensures m & 0x0000_FFFF_0000_0000 == 0
  {
    assert !BitAt(m, 32) && !BitAt(m, 33) && !BitAt(m, 34) && !BitAt(m, 35) && !BitAt(m, 36) && !BitAt(m, 37) && !BitAt(m, 38) && !BitAt(m, 39);
    assert !BitAt(m, 40) && !BitAt(m, 41) && !BitAt(m, 42) && !BitAt(m, 43) && !BitAt(m, 44) && !BitAt(m, 45) && !BitAt(m, 46) && !BitAt(m, 47);
  }

  lemma QuarterClear3(m: bv64)
    requires forall i: bv7 | i < 64 :: !BitAt(m, i)
    ensures m & 0xFFFF_0000_0000_0000 == 0
  {
    assert !BitAt(m, 48) && !BitAt(m, 49) && !BitAt(m, 50) && !BitAt(m, 51) && !BitAt(m, 52) && !BitAt(m, 53) && !BitAt(m, 54) && !BitAt(m, 55);
    assert !BitAt(m, 56) && !BitAt(m, 57) && !BitAt(m, 58) && !BitAt(m, 59) && !BitAt(m, 60) && !BitAt(m, 61) && !BitAt(m, 62) && !BitAt(m, 63);
  }

  /** `a & b` is non-zero exactly when some bit is set in both. */
  lemma MeetNonZero(a: bv64, b: bv64)
    ensures a & b != 0 <==> exists j | 0 <= j < Width :: Bit(a, j) && Bit(b, j)
  {
    NonZeroHasBit(a & b);
    forall j | 0 <= j < Width ensures Bit(a & b, j) <==> Bit(a, j) && Bit(b, j) {
      AndBit(a, b, j);
    }
  }
}

=== FILE: results.dfy ===
/** Python exceptions and C error returns, as values.
    Every operation that can raise in the source returns a `Result` here. */
module Results {

  /** The exception classes the modelled code raises. */
  datatype Error =
    | KeyError        // unknown field, value, group or dictionary key
    | IndexError      // list or cffi array index out of range
    | ValueError      // explicit guard, bad unpacking, negative shift
    | OverflowError   // cffi store of an integer too wide for its C field
    | TypeError       // a value of the wrong Python type reaches a C field
    | SyntaxError     // a query string that is not a well-formed expression

  datatype Result<+T> = Ok(value: T) | Err(error: Error) {
    predicate IsFailure() { Err? }

    function PropagateFailure<U>(): Result<U>
      requires Err?
    {
      Err(error)
    }

    function Extract(): T
      requires Ok?
    {
      value
    }
  }

  datatype Option<+T> = None | Some(value: T)
}

=== FILE: trail_scan.dfy ===
/** The trail scan of `tdb_iter.c`: an iterator whose 64-bit `marker`
    walks the trail ids, reporting each trail that loads and has an event
    after the cursor's filter, and `tdb_fold`, which threads an accumulator
    through every event of every reported trail. */
module TrailScan {
  import opened Results

  const U64: nat := 0x1_0000_0000_0000_0000

  /** What the cursor sees of a store: `tdb_num_trails`, whether
      `tdb_get_trail` succeeds for an id, and the events the cursor yields
      for a trail once the filter is applied. */
  datatype Trails<E> = Trails(count: nat, loads: nat -> bool, events: nat -> seq<E>)

  /** The trail count is a `uint64_t`. */
  predicate Valid<E>(db: Trails<E>) {
    db.count < U64
  }

  /** A trail `tdb_iter_next` stops at: it loads, and `tdb_cursor_peek`
      finds an event. */
  predicate Good<E>(db: Trails<E>, id: nat) {
    id < db.count && db.loads(id) && |db.events(id)| > 0
  }

  /** `tdb_iter`: the marker is one past the trail last looked at. */
  datatype Iter = Iter(marker: nat)

  /** `marker++` on a `uint64_t`. */
  function Inc64(m: nat): (r: nat)
    requires m < U64
    ensures r < U64
    ensures m < U64 - 1 ==> r == m + 1
    ensures m == U64 - 1 ==> r == 0
  {
    if m + 1 == U64 then 0 else m + 1
  }

  function Max(a: nat, b: nat): nat {
    if a < b then b else a
  }

  /** `tdb_iter_new`: no iterator when the allocation, the cursor or the
      filter attachment fails (each outcome given as a parameter; the
      filter is attached only when there is one); otherwise the marker
      starts at trail 0. */
  function NewIter(allocOk: bool, cursorMade: bool, hasFilter: bool, filterSet: bool): (r: Option<Iter>)
    ensures r.Some? <==> allocOk && cursorMade && (hasFilter ==> filterSet)
    ensures r.Some? ==> r.value.marker == 0
  {
    if !allocOk || !cursorMade then None
    else if hasFilter && !filterSet then None
    else Some(Iter(0))
  }

  // ---------------------------------------------------------------------
  // Reference definitions

  /** The first trail at or after `from` that the scan stops at. */
  function NextGood<E>(db: Trails<E>, from: nat): (r: Option<nat>)
    ensures r.Some? ==> from <= r.value < db.count && Good(db, r.value)
    ensures r.Some? ==> forall id | from <= id < r.value :: !Good(db, id)
    ensures r.None? <==> forall id | from <= id < db.count :: !Good(db, id)
    decreases db.count - from
  {
    if from >= db.count then None
    else if Good(db, from) then Some(from)
    else NextGood(db, from + 1)
  }

  /** The trails reported from `from` onward, in the order reported. */
  function Reported<E>(db: Trails<E>, from: nat): (ids: seq<nat>)
    decreases db.count - from
  {
    match NextGood(db, from)
    case None => []
    case Some(id) => [id] + Reported(db, id + 1)
  }

  /** Exactly the good trails at or after `from` are reported. */
  lemma {:induction false} ReportedExactly<E>(db: Trails<E>, from: nat, id: nat)
    ensures id in Reported(db, from) <==> from <= id && Good(db, id)
    decreases db.count - from
  {
    match NextGood(db, from)
    case None =>
    case Some(first) =>
      ReportedExactly(db, first + 1, id);
  }

  /** Trails are reported in strictly increasing order, so none twice. */
  lemma {:induction false} ReportedIncreasing<E>(db: Trails<E>, from: nat)
    ensures forall i, j | 0 <= i < j < |Reported(db, from)| :: Reported(db, from)[i] < Reported(db, from)[j]
    ensures forall i | 0 <= i < |Reported(db, from)| :: from <= Reported(db, from)[i]
    decreases db.count - from
  {
    match NextGood(db, from)
    case None =>
    case Some(first) =>
      var rest := Reported(db, first + 1);
      ReportedIncreasing(db, first + 1);
      assert Reported(db, from) == [first] + rest;
      forall i | 0 <= i < |Reported(db, from)| ensures from <= Reported(db, from)[i] {
        if i > 0 {
          assert Reported(db, from)[i] == rest[i - 1];
        }
      }
  }

  /** A good trail is reported first from its own id on. */
  lemma {:induction false} ReportedAt<E>(db: Trails<E>, id: nat)
    requires Good(db, id)
    ensures Reported(db, id) == [id] + Reported(db, id + 1)
  {
    assert NextGood(db, id) == Some(id);
  }

  /** The reports from `from` on are those from the next good trail on. */
  lemma {:induction false} ReportedFrom<E>(db: Trails<E>, from: nat)
    ensures NextGood(db, from).None? ==> Reported(db, from) == []
    ensures NextGood(db, from).Some? ==> Reported(db, from) == Reported(db, NextGood(db, from).value)
  {
    match NextGood(db, from)
    case None =>
    case Some(next) =>
      assert Reported(db, from) == [next] + Reported(db, next + 1);
      ReportedAt(db, next);
  }

  lemma ReportedSkips<E>(db: Trails<E>, from: nat, next: nat)
    requires NextGood(db, from) == Some(next)
    ensures Reported(db, from) == Reported(db, next)
  {
    ReportedFrom(db, from);
  }

  /** The events of trail `id` folded left over `acc`. */
  function FoldEvents<E, A>(fun: (nat, E, A) -> A, id: nat, events: seq<E>, acc: A): A
    decreases |events|
  {
    if events == [] then acc else FoldEvents(fun, id, events[1..], fun(id, events[0], acc))
  }

  /** The trails `ids`, each one's events in turn, folded over `acc`. */
  function FoldTrails<E, A>(db: Trails<E>, fun: (nat, E, A) -> A, ids: seq<nat>, acc: A): A
    decreases |ids|
  {
    if ids == [] then acc else FoldTrails(db, fun, ids[1..], FoldEvents(fun, ids[0], db.events(ids[0]), acc))
  }

  // ---------------------------------------------------------------------
  // The scan

  /** `tdb_iter_next`: the marker is post-incremented before each
      comparison with the trail count, so the reported trail is
      `marker - 1`, and a call that finds nothing still moves the marker
      one past the count (modulo 2^64). */
  method Next<E>(db: Trails<E>, it: Iter) returns (found: bool, it': Iter)
    requires Valid(db) && it.marker < U64
    ensures it'.marker < U64
    ensures found <==> NextGood(db, it.marker).Some?
    ensures found ==> it'.marker == NextGood(db, it.marker).value + 1
    ensures found ==> 0 < it'.marker <= db.count && Good(db, it'.marker - 1)
    ensures !found ==> it'.marker == Inc64(Max(it.marker, db.count))
    ensures !found && Max(it.marker, db.count) < U64 - 1 ==>
              db.count < it'.marker && NextGood(db, it'.marker).None?
  {
    var marker := it.marker;
    while true
      invariant it.marker <= marker < U64
      invariant it.marker < marker ==> marker <= db.count
      invariant NextGood(db, it.marker) == NextGood(db, marker)
      decreases U64 - marker
    {
      var before := marker;
      marker := Inc64(marker);
      if !(before < db.count) {
        found, it' := false, Iter(marker);
        return;
      }
      if db.loads(marker - 1) && |db.events(marker - 1)| > 0 {
        found, it' := true, Iter(marker);
        return;
      }
    }
  }

  /** The trails still to be reported after a call of `tdb_iter_next`
      returned `found` and left the iterator at `it`. */
  ghost function Pending<E>(db: Trails<E>, found: bool, it: Iter): seq<nat> {
    if found && 0 < it.marker then Reported(db, it.marker - 1) else []
  }

  /** The first call of `tdb_iter_next` on a new iterator. */
  method First<E>(db: Trails<E>) returns (found: bool, it: Iter)
    requires Valid(db)
    ensures it.marker < U64
    ensures found ==> 0 < it.marker <= db.count && Good(db, it.marker - 1)
    ensures Reported(db, 0) == Pending(db, found, it)
  {
    found, it := Next(db, Iter(0));
    ReportedFrom(db, 0);
  }

  /** The call of `tdb_iter_next` after trail `it.marker - 1` was
      reported: that trail heads the reports, and the rest follow from the
      next one found. */
  method Again<E>(db: Trails<E>, it: Iter) returns (found: bool, it': Iter)
    requires Valid(db) && 0 < it.marker <= db.count && Good(db, it.marker - 1)
    ensures it'.marker < U64
    ensures found ==> it.marker < it'.marker <= db.count && Good(db, it'.marker - 1)
    ensures Reported(db, it.marker - 1) == [it.marker - 1] + Pending(db, found, it')
  {
    ReportedAt(db, it.marker - 1);
    ReportedFrom(db, it.marker);
    found, it' := Next(db, it);
  }

  /** Calling `tdb_iter_next` on a new iterator until it returns NULL
      yields every reported trail, in order, and then stops. */
  method Scan<E>(db: Trails<E>) returns (ids: seq<nat>)
    requires Valid(db)
    ensures ids == Reported(db, 0)
  {
    var found, it := First(db);
    ids := [];
    ghost var all := Reported(db, 0);
    while found
      invariant it.marker < U64
      invariant found ==> 0 < it.marker <= db.count && Good(db, it.marker - 1)
      invariant all == ids + Pending(db, found, it)
      decreases if found then U64 - it.marker + 1 else 0
    {
      var id := it.marker - 1;
      assert Pending(db, found, it) == Reported(db, id);
      found, it := Again(db, it);
      ghost var rest := Pending(db, found, it);
      Regroup(ids, id, rest);
      ids := ids + [id];
    }
    assert ids + [] == ids;
  }

  /** The loops of `tdb_fold` over a live iterator: every event of every
      reported trail, trail by trail, with the trail id `marker - 1`. */
  method FoldFrom<E, A>(db: Trails<E>, fun: (nat, E, A) -> A, acc0: A) returns (acc: A)
    requires Valid(db)
    ensures acc == FoldTrails(db, fun, Reported(db, 0), acc0)
  {
    var found, it := First(db);
    acc := acc0;
    ghost var total := FoldTrails(db, fun, Reported(db, 0), acc0);
    while found
      invariant it.marker < U64
      invariant found ==> 0 < it.marker <= db.count && Good(db, it.marker - 1)
      invariant total == FoldTrails(db, fun, Pending(db, found, it), acc)
      decreases if found then U64 - it.marker + 1 else 0
    {
      var id := it.marker - 1;
      assert Pending(db, found, it) == Reported(db, id);
      found, it := Again(db, it);
      FoldTrailsCons(db, fun, id, Pending(db, found, it), acc);
      acc := FoldTrail(fun, id, db.events(id), acc);
    }
  }

  lemma Regroup(ids: seq<nat>, id: nat, rest: seq<nat>)
    ensures ids + ([id] + rest) == (ids + [id]) + rest
  {}

  lemma FoldTrailsCons<E, A>(db: Trails<E>, fun: (nat, E, A) -> A, id: nat, rest: seq<nat>, acc: A)
    ensures FoldTrails(db, fun, [id] + rest, acc) == FoldTrails(db, fun, rest, FoldEvents(fun, id, db.events(id), acc))
  {
    assert ([id] + rest)[1..] == rest;
  }

  /** The inner loop of `tdb_fold`: `fun` on each event of one trail, in
      the order the cursor yields them. */
  method FoldTrail<E, A>(fun: (nat, E, A) -> A, id: nat, events: seq<E>, start: A) returns (acc: A)
    ensures acc == FoldEvents(fun, id, events, start)
  {
    acc := start;
    var j := 0;
    while j < |events|
      invariant 0 <= j <= |events|
      invariant FoldEvents(fun, id, events, start) == FoldEvents(fun, id, events[j..], acc)
    {
      assert events[j..][1..] == events[j + 1..];
      acc := fun(id, events[j], acc);
      j := j + 1;
    }
    assert events[j..] == [];
  }

  /** What `tdb_fold` ends in: an accumulator, or a dereference of the
      NULL that a failed `tdb_iter_new` returned. */
  datatype Outcome<A> = Done(acc: A) | NullDeref

  /** `tdb_fold` as written: the iterator from `tdb_iter_new` goes to
      `tdb_iter_next` without a NULL check. */
  method FoldAsWritten<E, A>(db: Trails<E>, it: Option<Iter>, fun: (nat, E, A) -> A, acc0: A)
    returns (r: Outcome<A>)
    requires Valid(db)
    requires it.Some? ==> it.value.marker == 0
    ensures it.None? ==> r == NullDeref
    ensures it.Some? ==> r == Done(FoldTrails(db, fun, Reported(db, 0), acc0))
  {
    if it.None? {
      return NullDeref;
    }
    var acc := FoldFrom(db, fun, acc0);
    return Done(acc);
  }

  /** `tdb_fold` with the NULL check: without an iterator nothing is
      folded and the accumulator comes back unchanged. */
  method Fold<E, A>(db: Trails<E>, it: Option<Iter>, fun: (nat, E, A) -> A, acc0: A) returns (acc: A)
    requires Valid(db)
    requires it.Some? ==> it.value.marker == 0
    ensures it.None? ==> acc == acc0
    ensures it.Some? ==> acc == FoldTrails(db, fun, Reported(db, 0), acc0)
  {
    if it.None? {
      return acc0;
    }
    acc := FoldFrom(db, fun, acc0);
  }

  /** Folding counts: with `fun` adding one per event, the fold is the
      number of events of the good trails. */
  lemma {:induction false} FoldCounts<E>(db: Trails<E>, ids: seq<nat>, n: int)
    ensures FoldTrails(db, (id: nat, e: E, k: int) => k + 1, ids, n) == n + EventCount(db, ids)
    decreases |ids|
  {
    if ids != [] {
      EventsCount(ids[0], db.events(ids[0]), n);
      FoldCounts(db, ids[1..], n + |db.events(ids[0])|);
    }
  }

  function EventCount<E>(db: Trails<E>, ids: seq<nat>): nat
    decreases |ids|
  {
    if ids == [] then 0 else |db.events(ids[0])| + EventCount(db, ids[1..])
  }

  lemma {:induction false} EventsCount<E>(id: nat, events: seq<E>, n: int)
    ensures FoldEvents((id: nat, e: E, k: int) => k + 1, id, events, n) == n + |events|
    decreases |events|
  {
    if events != [] {
      EventsCount(id, events[1..], n + 1);
    }
  }
}

=== FILE: traildb.dfy ===
/** The pure parts of trpy/traildb.py: decoding a 64-bit TrailDB item,
    field lookup by name or index, the value ids a lexicon lists, item
    lookup, and the calls `TDBFilter` makes to build an event filter. */
module TrailDb {
  import opened Results
  import opened Cnf

  // ---------------------------------------------------------------------
  // Items

  /** A `tdb_item`: a `uint64_t` packing a field id and a value id. */
  type Item = bv64

  const Pow32: bv64 := 0x1_0000_0000
  const Pow48: bv64 := 0x1_0000_0000_0000

  /** `item_is32`: bit 7 clear marks the compact 32-bit layout. */
  predicate Is32(item: Item) {
    item & 128 == 0
  }

  /** `item_field32`: the low seven bits. */
  function Field32(item: Item): (f: bv64)
    ensures f < 128
  {
    item & 127
  }

  /** `item_val32`: bits 8 to 39. */
  function Val32(item: Item): (v: bv64)
    ensures v < Pow32
  {
    (item >> 8) & 0xFFFF_FFFF
  }

  /** `item_field`: a 32-bit item's field has seven bits; a 64-bit item
      adds bits 8 to 14 as the high seven bits of a 14-bit field. */
  function ItemField(item: Item): (f: bv64)
    ensures f < 0x4000
    ensures Is32(item) ==> f < 128
  {
    if Is32(item) then Field32(item)
    else (item & 127) | (((item >> 8) & 127) << 7)
  }

  /** `item_val`: a 64-bit item's value is everything above bit 15. */
  function ItemVal(item: Item): (v: bv64)
    ensures Is32(item) ==> v < Pow32
    ensures v < Pow48
  {
    if Is32(item) then Val32(item) else item >> 16
  }

  /** The 32-bit layout written out: value in bits 8 to 39, field below. */
  function Encode32(field: bv64, val: bv64): (item: Item)
    requires field < 128 && val < Pow32
    ensures Is32(item)
  {
    (val << 8) | field
  }

  /** The 64-bit layout written out: value above bit 15, field split into
      bits 0 to 6 and 8 to 14, bit 7 set. */
  function Encode64(field: bv64, val: bv64): (item: Item)
    requires field < 0x4000 && val < Pow48
    ensures !Is32(item)
  {
    (val << 16) | ((field >> 7) << 8) | 128 | (field & 127)
  }

  /** Decoding a 32-bit item recovers what was packed. */
  lemma Decode32(field: bv64, val: bv64)
    requires field < 128 && val < Pow32
    ensures ItemField(Encode32(field, val)) == field
    ensures ItemVal(Encode32(field, val)) == val
  {}

  /** Decoding a 64-bit item recovers what was packed. */
  lemma Decode64(field: bv64, val: bv64)
    requires field < 0x4000 && val < Pow48
    ensures ItemField(Encode64(field, val)) == field
    ensures ItemVal(Encode64(field, val)) == val
  {}

  /** A 32-bit item with nothing above bit 39 is the packing of its field
      and value. */
  lemma Canonical32(item: Item)
    requires Is32(item) && item >> 40 == 0
    ensures Encode32(ItemField(item), ItemVal(item)) == item
  {}

  /** A 64-bit item with bit 15 clear is the packing of its field and value;
      bit 15 is the one bit no decoder reads. */
  lemma Canonical64(item: Item)
    requires !Is32(item) && item & 0x8000 == 0
    ensures Encode64(ItemField(item), ItemVal(item)) == item
  {}

  // ---------------------------------------------------------------------
  // Fields

  /** A field named by its name or by its position (`fieldish`). */
  datatype Fieldish = ByName(name: string) | ByIndex(index: int)

  /** The first position of `x` in `xs` (`list.index`). */
  function IndexOf<X(==)>(xs: seq<X>, x: X): (r: Option<nat>)
    ensures r.Some? ==> r.value < |xs| && xs[r.value] == x
    ensures r.Some? ==> forall j | 0 <= j < r.value :: xs[j] != x
    ensures r.None? <==> x !in xs
  {
    if xs == [] then None
    else if xs[0] == x then Some(0)
    else match IndexOf(xs[1..], x)
      case None => None
      case Some(i) => Some(i + 1)
  }

  /** `TDB.field`: a name becomes its first index, or KeyError; an index
      passes through unchecked. */
  function FieldOf(fields: seq<string>, f: Fieldish): (r: Result<int>)
    ensures f.ByIndex? ==> r == Ok(f.index)
    ensures f.ByName? ==> (r.Ok? <==> f.name in fields)
    ensures f.ByName? && r.Ok? ==> 0 <= r.value < |fields| && fields[r.value] == f.name
    ensures f.ByName? && r.Ok? ==> forall j | 0 <= j < r.value :: fields[j] != f.name
    ensures r.Err? ==> r.error == KeyError
  {
    match f
    case ByIndex(i) => Ok(i)
    case ByName(n) =>
      match IndexOf(fields, n)
      case None => Err(KeyError)
      case Some(i) => Ok(i)
  }

  /** `TDB.field_name`: a name passes through; an index is read from the
      field list as Python reads a list, negative indices counting from the
      end, and anything else is IndexError. */
  function FieldName(fields: seq<string>, f: Fieldish): (r: Result<string>)
    ensures f.ByName? ==> r == Ok(f.name)
    ensures f.ByIndex? ==> (r.Ok? <==> -|fields| <= f.index < |fields|)
    ensures f.ByIndex? && 0 <= f.index < |fields| ==> r == Ok(fields[f.index])
    ensures f.ByIndex? && -|fields| <= f.index < 0 ==> r == Ok(fields[|fields| + f.index])
    ensures r.Err? ==> r.error == IndexError
  {
    match f
    case ByName(n) => Ok(n)
    case ByIndex(i) =>
      if 0 <= i < |fields| then Ok(fields[i])
      else if -|fields| <= i < 0 then Ok(fields[|fields| + i])
      else Err(IndexError)
  }

  /** Looking a name up and reading the name back gives the name. */
  lemma FieldNameOfField(fields: seq<string>, name: string)
    requires name in fields
    ensures FieldOf(fields, ByName(name)).Ok?
    ensures FieldName(fields, ByIndex(FieldOf(fields, ByName(name)).value)) == Ok(name)
  {}

  /** Reading a name at an index and looking it up gives the first index
      holding that name: the index itself when names are distinct. */
  lemma FieldOfFieldName(fields: seq<string>, i: int)
    requires 0 <= i < |fields|
    ensures FieldOf(fields, ByName(fields[i])).Ok?
    ensures FieldOf(fields, ByName(fields[i])).value <= i
    ensures (forall j, k | 0 <= j < k < |fields| :: fields[j] != fields[k]) ==>
              FieldOf(fields, ByName(fields[i])) == Ok(i)
  {}

  // ---------------------------------------------------------------------
  // Lexicons and items

  /** What the modelled code reads from an open TrailDB: the field names,
      and the store's answers for lexicon sizes, items of values
      (0 for an unknown value) and words of value ids. */
  datatype Tdb = Tdb(fields: seq<string>, lexiconSize: int -> int,
                     getItem: (int, string) -> Item, word: (int, nat) -> string)

  /** The value ids `TDB.lexicon` lists: `1 .. size - 1`; id 0, the empty
      value, never appears. */
  function LexiconIds(size: int): (ids: seq<nat>)
    ensures |ids| == if size <= 1 then 0 else size - 1
    ensures forall i | 0 <= i < |ids| :: ids[i] == i + 1
    ensures forall v: nat :: v in ids <==> 1 <= v < size
  {
    if size <= 1 then [] else LexiconIds(size - 1) + [size - 1]
  }

  /** A field id as the store receives it: `TDB.field`, then the
      conversion to the C type `tdb_field`, an unsigned 32-bit integer,
      which raises OverflowError for an id outside it. */
  const FieldLimit: int := 0x1_0000_0000

  function StoreField(fields: seq<string>, f: Fieldish): (r: Result<int>)
    ensures FieldOf(fields, f).Err? ==> r == Err(KeyError)
    ensures FieldOf(fields, f).Ok? ==> (r.Ok? <==> 0 <= FieldOf(fields, f).value < FieldLimit)
    ensures FieldOf(fields, f).Ok? && r.Err? ==> r.error == OverflowError
    ensures r.Ok? ==> r.value == FieldOf(fields, f).value && 0 <= r.value < FieldLimit
  {
    var field :- FieldOf(fields, f);
    if 0 <= field < FieldLimit then Ok(field) else Err(OverflowError)
  }

  /** `TDB.lexicon`: the word of every listed id, in id order.  The size and
      the words come from the store (`lexiconSize`, `word`). */
  function Lexicon(fields: seq<string>, f: Fieldish, lexiconSize: int -> int,
                   word: (int, nat) -> string): (r: Result<seq<string>>)
    ensures r.Err? <==> StoreField(fields, f).Err?
    ensures r.Err? ==> r.error == StoreField(fields, f).error
    ensures r.Ok? ==> |r.value| == |LexiconIds(lexiconSize(StoreField(fields, f).value))|
    ensures r.Ok? ==> forall i | 0 <= i < |r.value| ::
              r.value[i] == word(StoreField(fields, f).value, i + 1)
  {
    var field :- StoreField(fields, f);
    var ids := LexiconIds(lexiconSize(field));
    Ok(seq(|ids|, i requires 0 <= i < |ids| => word(field, ids[i])))
  }

  /** `TDB.item`: the store's item for a value.  The store answers 0 for a
      value it does not know, which becomes KeyError -- unless naming the
      field for the message fails first, as it does for an id past the
      field list (IndexError). */
  function ItemOf(fields: seq<string>, f: Fieldish, value: string,
                  getItem: (int, string) -> Item): (r: Result<Item>)
    ensures r.Ok? ==> r.value != 0
    ensures StoreField(fields, f).Err? ==> r == Err(StoreField(fields, f).error)
    ensures StoreField(fields, f).Ok? ==>
              (r.Ok? <==> getItem(StoreField(fields, f).value, value) != 0)
    ensures r.Ok? ==> r.value == getItem(StoreField(fields, f).value, value)
    ensures r == Err(IndexError) <==>
              f.ByIndex? && |fields| <= f.index < FieldLimit && getItem(f.index, value) == 0
    ensures r.Err? ==> r.error in {KeyError, IndexError, OverflowError}
  {
    var field :- StoreField(fields, f);
    var item := getItem(field, value);
    if item != 0 then Ok(item)
    else if FieldName(fields, f).Err? then Err(IndexError)
    else Err(KeyError)
  }

  /** `TDB.lexicon_val`: the value id of a value's item. */
  function LexiconVal(fields: seq<string>, f: Fieldish, value: string,
                      getItem: (int, string) -> Item): (r: Result<bv64>)
    ensures r.Ok? <==> ItemOf(fields, f, value, getItem).Ok?
    ensures r.Ok? ==> r.value == ItemVal(ItemOf(fields, f, value, getItem).value)
    ensures r.Err? ==> r.error == ItemOf(fields, f, value, getItem).error
    ensures r.Ok? ==> r.value < Pow48
  {
    var item :- ItemOf(fields, f, value, getItem);
    Ok(ItemVal(item))
  }

  // ---------------------------------------------------------------------
  // Event filters

  /** A query term: a field and a value. */
  datatype Term = Term(field: Fieldish, value: string)

  /** The calls `TDBFilter` makes on a new filter. */
  datatype FilterCall = NewClause | AddTerm(item: Item, negated: bool)

  /** The calls for one clause, whose literals are enumerated in `lits`.
      The item of a value the store does not know is 0, and it is added
      as it is; the first literal whose field the store cannot take
      stops the filter with that field's error. */
  function ClauseCalls(fields: seq<string>, lits: seq<Literal<Term>>,
                       getItem: (int, string) -> Item): (r: Result<seq<FilterCall>>)
    ensures r.Ok? ==> |r.value| == |lits|
    ensures r.Ok? <==> forall k | 0 <= k < |lits| :: StoreField(fields, lits[k].term.field).Ok?
    ensures r.Ok? ==> forall k | 0 <= k < |r.value| ::
              r.value[k] == AddTerm(getItem(StoreField(fields, lits[k].term.field).value, lits[k].term.value),
                                    lits[k].negated)
    ensures r.Err? ==> exists k | 0 <= k < |lits| ::
              && StoreField(fields, lits[k].term.field) == Err(r.error)
              && forall j | 0 <= j < k :: StoreField(fields, lits[j].term.field).Ok?
    ensures r.Err? ==> r.error == KeyError || r.error == OverflowError
  {
    if lits == [] then Ok([])
    else
      var l := lits[0];
      var field :- StoreField(fields, l.term.field);
      var rest :- ClauseCalls(fields, lits[1..], getItem);
      assert forall k | 1 <= k < |lits| :: lits[k] == lits[1..][k - 1];
      Ok([AddTerm(getItem(field, l.term.value), l.negated)] + rest)
  }

  /** `TDBFilter.__init__`: the clauses in `clauses` order (the order the
      query's frozenset yields them), a `NewClause` call before every
      clause but the first. */
  function FilterCalls(fields: seq<string>, clauses: seq<seq<Literal<Term>>>,
                       getItem: (int, string) -> Item): (r: Result<seq<FilterCall>>)
    ensures r.Err? ==> r.error == KeyError || r.error == OverflowError
    decreases |clauses|
  {
    if clauses == [] then Ok([])
    else
      var init := clauses[..|clauses| - 1];
      var front :- FilterCalls(fields, init, getItem);
      var last :- ClauseCalls(fields, clauses[|clauses| - 1], getItem);
      Ok(front + (if |init| > 0 then [NewClause] else []) + last)
  }

  /** Reading a call trace back: the groups of `AddTerm` calls between
      `NewClause` calls. */
  function Groups(calls: seq<FilterCall>): (gs: seq<seq<FilterCall>>)
    ensures |gs| > 0
  {
    if calls == [] then [[]]
    else
      var gs := Groups(calls[..|calls| - 1]);
      var c := calls[|calls| - 1];
      if c.NewClause? then gs + [[]]
      else gs[..|gs| - 1] + [gs[|gs| - 1] + [c]]
  }

  function NewClauseCount(calls: seq<FilterCall>): nat {
    if calls == [] then 0
    else NewClauseCount(calls[..|calls| - 1]) + (if calls[|calls| - 1].NewClause? then 1 else 0)
  }

  lemma GroupsNewClause(calls: seq<FilterCall>)
    ensures Groups(calls + [NewClause]) == Groups(calls) + [[]]
  {
    assert (calls + [NewClause])[..|calls|] == calls;
  }

  lemma GroupsAddTerm(calls: seq<FilterCall>, c: FilterCall)
    requires c.AddTerm?
    ensures var gs := Groups(calls);
            Groups(calls + [c]) == gs[..|gs| - 1] + [gs[|gs| - 1] + [c]]
  {
    assert (calls + [c])[..|calls|] == calls;
  }

  /** Appending `AddTerm` calls extends the last group only. */
  lemma {:induction false} GroupsAddTerms(calls: seq<FilterCall>, ts: seq<FilterCall>)
    requires forall k | 0 <= k < |ts| :: ts[k].AddTerm?
    ensures var gs := Groups(calls);
            Groups(calls + ts) == gs[..|gs| - 1] + [gs[|gs| - 1] + ts]
    decreases |ts|
  {
    var gs := Groups(calls);
    if ts == [] {
      assert calls + ts == calls;
      assert gs[|gs| - 1] + ts == gs[|gs| - 1];
      assert gs[..|gs| - 1] + [gs[|gs| - 1]] == gs;
    } else {
      var init := ts[..|ts| - 1];
      var c := ts[|ts| - 1];
      GroupsAddTerms(calls, init);
      assert calls + ts == (calls + init) + [c];
      GroupsAddTerm(calls + init, c);
      assert gs[|gs| - 1] + init + [c] == gs[|gs| - 1] + ts;
    }
  }

  /** `TDBFilter` calls `new_clause` between clauses and nowhere else, so
      reading the trace back at those calls gives every clause's calls, in
      order. */
  lemma {:induction false} FilterGroups(fields: seq<string>, clauses: seq<seq<Literal<Term>>>,
                                        getItem: (int, string) -> Item)
    requires |clauses| > 0 && FilterCalls(fields, clauses, getItem).Ok?
    ensures GroupsMatch(fields, clauses, getItem)
    decreases |clauses|
  {
    var init := clauses[..|clauses| - 1];
    FilterCallsLast(fields, clauses, getItem);
    if |init| == 0 {
      FilterGroupsFirst(fields, clauses, getItem);
    } else {
      FilterGroups(fields, init, getItem);
      FilterGroupsStep(fields, clauses, getItem);
    }
  }

  /** The groups of the calls for `clauses` are the calls of each clause. */
  predicate GroupsMatch(fields: seq<string>, clauses: seq<seq<Literal<Term>>>,
                        getItem: (int, string) -> Item)
  {
    && FilterCalls(fields, clauses, getItem).Ok?
    && var gs := Groups(FilterCalls(fields, clauses, getItem).value);
    && |gs| == |clauses|
    && forall i | 0 <= i < |clauses| :: ClauseCalls(fields, clauses[i], getItem) == Ok(gs[i])
  }

  lemma FilterGroupsFirst(fields: seq<string>, clauses: seq<seq<Literal<Term>>>,
                          getItem: (int, string) -> Item)
    requires |clauses| == 1 && FilterCalls(fields, clauses, getItem).Ok?
    ensures GroupsMatch(fields, clauses, getItem)
  {
    FilterCallsLast(fields, clauses, getItem);
    var r := FilterCalls(fields, clauses, getItem).value;
    var last := ClauseCalls(fields, clauses[0], getItem).value;
    assert r == [] + last;
    GroupsAddTerms([], last);
    assert [] + last == last;
    assert Groups(r) == [last];
  }

  lemma FilterGroupsStep(fields: seq<string>, clauses: seq<seq<Literal<Term>>>,
                         getItem: (int, string) -> Item)
    requires |clauses| > 1 && FilterCalls(fields, clauses, getItem).Ok?
    requires GroupsMatch(fields, clauses[..|clauses| - 1], getItem)
    ensures GroupsMatch(fields, clauses, getItem)
  {
    var init := clauses[..|clauses| - 1];
    FilterCallsLast(fields, clauses, getItem);
    var r := FilterCalls(fields, clauses, getItem).value;
    var front := FilterCalls(fields, init, getItem).value;
    var last := ClauseCalls(fields, clauses[|clauses| - 1], getItem).value;
    GroupsNextClause(front, last);
    assert Groups(r) == Groups(front) + [last];
    CallsAppend(fields, clauses, getItem, Groups(front), last);
  }

  /** Clause-by-clause agreement extends by one clause at the end. */
  lemma CallsAppend(fields: seq<string>, clauses: seq<seq<Literal<Term>>>,
                    getItem: (int, string) -> Item, front: seq<seq<FilterCall>>, last: seq<FilterCall>)
    requires |clauses| == |front| + 1
    requires forall i | 0 <= i < |front| :: ClauseCalls(fields, clauses[..|front|][i], getItem) == Ok(front[i])
    requires ClauseCalls(fields, clauses[|front|], getItem) == Ok(last)
    ensures forall i | 0 <= i < |clauses| :: ClauseCalls(fields, clauses[i], getItem) == Ok((front + [last])[i])
  {
    forall i | 0 <= i < |clauses|
      ensures ClauseCalls(fields, clauses[i], getItem) == Ok((front + [last])[i])
    {
      if i < |front| {
        assert clauses[i] == clauses[..|front|][i];
      }
    }
  }

  lemma FilterCallsLast(fields: seq<string>, clauses: seq<seq<Literal<Term>>>,
                        getItem: (int, string) -> Item)
    requires |clauses| > 0 && FilterCalls(fields, clauses, getItem).Ok?
    ensures var init := clauses[..|clauses| - 1];
            && FilterCalls(fields, init, getItem).Ok?
            && ClauseCalls(fields, clauses[|clauses| - 1], getItem).Ok?
            && FilterCalls(fields, clauses, getItem).value
               == FilterCalls(fields, init, getItem).value + (if |init| > 0 then [NewClause] else [])
                  + ClauseCalls(fields, clauses[|clauses| - 1], getItem).value
  {}

  lemma GroupsNextClause(front: seq<FilterCall>, last: seq<FilterCall>)
    requires forall k | 0 <= k < |last| :: last[k].AddTerm?
    ensures Groups((front + [NewClause]) + last) == Groups(front) + [last]
  {
    GroupsNewClause(front);
    GroupsAddTerms(front + [NewClause], last);
    var gs' := Groups(front) + [[]];
    assert gs'[..|gs'| - 1] == Groups(front);
    assert gs'[|gs'| - 1] + last == last;
  }

  /** The filter is built exactly when every literal names a known field
      the store can take. */
  lemma {:induction false} FilterCallsOk(fields: seq<string>, clauses: seq<seq<Literal<Term>>>,
                                         getItem: (int, string) -> Item)
    ensures FilterCalls(fields, clauses, getItem).Ok? <==>
              forall i, k | 0 <= i < |clauses| && 0 <= k < |clauses[i]| ::
                StoreField(fields, clauses[i][k].term.field).Ok?
    decreases |clauses|
  {
    if clauses != [] {
      var init := clauses[..|clauses| - 1];
      FilterCallsOk(fields, init, getItem);
      assert forall i | 0 <= i < |init| :: init[i] == clauses[i];
    }
  }

  /** The literals of a listed clause, without their order. */
  function LiteralSet(lits: seq<Literal<Term>>): set<Literal<Term>> {
    set l | l in lits
  }

  /** `clauses` is an order in which the source's loops can visit the
      query `q`: every clause of `q` once, and within a clause every
      literal once. */
  predicate Enumerates(q: Q<Term>, clauses: seq<seq<Literal<Term>>>) {
    && |clauses| == |q.clauses|
    && (forall i | 0 <= i < |clauses| :: Clause(LiteralSet(clauses[i])) in q.clauses)
    && (forall c | c in q.clauses :: exists i | 0 <= i < |clauses| :: LiteralSet(clauses[i]) == c.literals)
    && (forall i, j | 0 <= i < j < |clauses| :: LiteralSet(clauses[i]) != LiteralSet(clauses[j]))
    && (forall i, k, m | 0 <= i < |clauses| && 0 <= k < m < |clauses[i]| :: clauses[i][k] != clauses[i][m])
  }

  /** The filter for a query is built exactly when every literal of the
      query names a known field the store can take, whatever order the
      loops visit it in. */
  lemma FilterQueryOk(fields: seq<string>, q: Q<Term>, clauses: seq<seq<Literal<Term>>>,
                      getItem: (int, string) -> Item)
    requires Enumerates(q, clauses)
    ensures FilterCalls(fields, clauses, getItem).Ok? <==>
              forall c, l | c in q.clauses && l in c.literals :: StoreField(fields, l.term.field).Ok?
  {
    FilterCallsOk(fields, clauses, getItem);
    if forall i, k | 0 <= i < |clauses| && 0 <= k < |clauses[i]| :: StoreField(fields, clauses[i][k].term.field).Ok? {
      forall c, l | c in q.clauses && l in c.literals
        ensures StoreField(fields, l.term.field).Ok?
      {
        var i :| 0 <= i < |clauses| && LiteralSet(clauses[i]) == c.literals;
        assert l in LiteralSet(clauses[i]);
        var k :| 0 <= k < |clauses[i]| && clauses[i][k] == l;
      }
    }
    if forall c, l | c in q.clauses && l in c.literals :: StoreField(fields, l.term.field).Ok? {
      forall i, k | 0 <= i < |clauses| && 0 <= k < |clauses[i]|
        ensures StoreField(fields, clauses[i][k].term.field).Ok?
      {
        var c := Clause(LiteralSet(clauses[i]));
        assert clauses[i][k] in c.literals;
      }
    }
  }

  /** `g` holds one `add_term` per literal of `c`, with its item and
      negation flag, and nothing else. */
  predicate GroupOfClause(fields: seq<string>, getItem: (int, string) -> Item,
                          c: Clause<Term>, g: seq<FilterCall>)
  {
    && |g| == |c.literals|
    && forall l | l in c.literals ::
         && StoreField(fields, l.term.field).Ok?
         && AddTerm(getItem(StoreField(fields, l.term.field).value, l.term.value), l.negated) in g
  }

  /** For a query with clauses, the trace read back at the `new_clause`
      calls has one group per clause of the query, and each clause of
      the query has its group of `add_term` calls. */
  lemma FilterQueryGroups(fields: seq<string>, q: Q<Term>, clauses: seq<seq<Literal<Term>>>,
                          getItem: (int, string) -> Item)
    requires Enumerates(q, clauses) && q.clauses != {}
    requires FilterCalls(fields, clauses, getItem).Ok?
    ensures var gs := Groups(FilterCalls(fields, clauses, getItem).value);
            && |gs| == |q.clauses|
            && forall c | c in q.clauses :: exists i | 0 <= i < |gs| :: GroupOfClause(fields, getItem, c, gs[i])
  {
    var c0 :| c0 in q.clauses;
    FilterGroups(fields, clauses, getItem);
    var gs := Groups(FilterCalls(fields, clauses, getItem).value);
    forall c | c in q.clauses
      ensures exists i | 0 <= i < |gs| :: GroupOfClause(fields, getItem, c, gs[i])
    {
      var i :| 0 <= i < |clauses| && LiteralSet(clauses[i]) == c.literals;
      ClauseGroup(fields, clauses[i], getItem, gs[i]);
      assert Clause(LiteralSet(clauses[i])) == c;
    }
  }

  /** The calls of one clause listed without repeats: one `add_term` per
      literal of the clause. */
  lemma ClauseGroup(fields: seq<string>, lits: seq<Literal<Term>>, getItem: (int, string) -> Item,
                    g: seq<FilterCall>)
    requires forall k, m | 0 <= k < m < |lits| :: lits[k] != lits[m]
    requires ClauseCalls(fields, lits, getItem) == Ok(g)
    ensures GroupOfClause(fields, getItem, Clause(LiteralSet(lits)), g)
  {
    DistinctCard(lits);
    forall l | l in LiteralSet(lits)
      ensures StoreField(fields, l.term.field).Ok? &&
              AddTerm(getItem(StoreField(fields, l.term.field).value, l.term.value), l.negated) in g
    {
      var k :| 0 <= k < |lits| && lits[k] == l;
      assert g[k] == AddTerm(getItem(StoreField(fields, lits[k].term.field).value, lits[k].term.value), lits[k].negated);
    }
  }

  /** A sequence without repeats has as many distinct elements as entries. */
  lemma {:induction false} DistinctCard(lits: seq<Literal<Term>>)
    requires forall k, m | 0 <= k < m < |lits| :: lits[k] != lits[m]
    ensures |LiteralSet(lits)| == |lits|
    decreases |lits|
  {
    if lits != [] {
      var rest := lits[1..];
      DistinctCard(rest);
      assert LiteralSet(lits) == {lits[0]} + LiteralSet(rest);
      assert lits[0] !in LiteralSet(rest);
    }
  }

  /** One `new_clause` call per clause after the first. */
  lemma {:induction false} FilterNewClauses(fields: seq<string>, clauses: seq<seq<Literal<Term>>>,
                                            getItem: (int, string) -> Item)
    requires |clauses| > 0 && FilterCalls(fields, clauses, getItem).Ok?
    ensures NewClauseCount(FilterCalls(fields, clauses, getItem).value) == |clauses| - 1
  {
    FilterGroups(fields, clauses, getItem);
    GroupsCount(FilterCalls(fields, clauses, getItem).value);
  }

  lemma {:induction false} GroupsCount(calls: seq<FilterCall>)
    ensures |Groups(calls)| == NewClauseCount(calls) + 1
    decreases |calls|
  {
    if calls != [] {
      GroupsCount(calls[..|calls| - 1]);
    }
  }
}
